=== FILE: README.md ===
# halo: stepper-motor controller and host API, modelled in Dafny

The halo device is an ESP32-C6 that drives a stepper motor. It also handles
firmware updates over HTTP and WiFi provisioning. It speaks a small register
protocol as an I2C target. A Node.js host talks to it over that bus and
runs an HTTP API. The API includes request validation and two presence-sensor
pollers.

This project models the decision logic of both sides as pure Dafny functions
over immutable datatypes, and proves what that logic promises.

**Firmware**

- `StepMode`: the eight microstep modes, their 4-bit mode-select encoding and
  their factors.
- `RampedMove`: the integer ramp builder (ramp-up, plateau, mirrored
  ramp-down).
- `MovePlanner`: the bisection planner that spreads a move time over the ramp
  profile.
- `MotorHal`: the hardware layer's decisions. Peripheral calls are recorded
  as a log of actions.
- `Motor`: the command coordinator, with its bounded queue, its submit rules
  and its task as a step function. The task runs on the hardware layer as
  written, where an aborting check halts it, and, separately, on the
  corrected start and stop.
- `Ota`: the update component's status record, its recovery after a reboot,
  URL storage, progress, the update sequence with its download's data
  handler, and the 42-byte packed status.
- `Wifi` and `WifiDpp`: credential validation, the connection event handler
  with retries and back-off, teardown, reset of provisioning, and the
  best-access-point choice of the scan.
- `I2cSlave`: the register protocol. It decodes every write command, drives
  the components above, and answers reads in two transfers.

**Host**

- `HostMotor`, `HostOta`, `HostWifi`, `HostFirmware` and `HostBuzzer`: the bus
  encoders. Cross-module lemmas state what the firmware does with each
  payload.
- `PgPlanner`: the host copy of the ramp planner.
- `QueryTypes` and `Validator`: the query-string coercion and schema
  validation middleware.
- `Pir`: the presence poller, which works on detect and remove queues.
- `PresencePoll`: the status-byte poller that starts routines.

**Shared modules**

- `Bytes`: C strings and little-endian fields.
- `Rounding`: C and JavaScript rounding.
- `Wrappers`: `Option`.
- `MotorCommon`: moves, segments and motor states.

**How effects are modelled**

- SDK, RTOS, NVS, HTTP and bus results are parameters.
- The time is a parameter.
- JavaScript library behaviour that the code cannot see is a function
  parameter: `toLowerCase`, `Number()`, UTF-8 encoding and zod's
  `safeParse`.

## Model

| member | source | states |
|---|---|---|
| StepMode.Default | esp32c6/components/motor/StepMode.cpp:4 | a default configuration is full stepping, factor 1 |
| StepMode.SetModeBits | esp32c6/components/motor/StepMode.cpp:50 | the configuration then holds exactly the chosen mode's encoding |
| StepMode.SetFactor | esp32c6/components/motor/StepMode.cpp:49 | a supported factor is then reported back by getFactor; any other factor falls back to full stepping |
| StepMode.FactorOfBits | esp32c6/components/motor/StepMode.cpp:6-27 | getFactor always yields one of the eight supported factors, even for an out-of-range stored value |
| StepMode.GetFactor | esp32c6/components/motor/StepMode.cpp:6-27 | getFactor gives 2 to the power of the low three bits for each mode's encoding, and 1 for any other stored value |
| StepMode.EncodingIsLog2Factor | esp32c6/components/motor/StepMode.cpp:6-27 | every mode's encoding has bit 3 set and its low three bits are log2 of its factor |
| StepMode.FactorTable | esp32c6/components/motor/StepMode.cpp:8-23 | the modes in order give the factors 1, 2, 4, ..., 128 |
| StepMode.ModeFactorBijection | esp32c6/components/motor/StepMode.cpp:28-48 | factorToModeBits_ and getFactor are mutual inverses on the supported factors; an unsupported factor selects full stepping |
| StepMode.SetOwnFactorIsIdentity | esp32c6/components/motor/StepMode.cpp:49 | setting the factor a configuration already reports leaves it unchanged |
| RampedMove.Dir | esp32c6/components/motor/RampedMove.cpp:11 | the direction is +1 exactly for a strictly positive request; 0 degrees plans negative |
| RampedMove.CutPoint | esp32c6/components/motor/RampedMove.cpp:17-20 | each ramp uses at most the 16 profile entries, and all of them when the plateau is non-negative |
| RampedMove.RampUp | esp32c6/components/motor/RampedMove.cpp:23-30 | entry i of the ramp-up runs 20 x factor steps in the move's direction at round(3072 x profile[i]) |
| RampedMove.Reverse | esp32c6/components/motor/RampedMove.cpp:33-34 | the ramp-down is the ramp-up mirrored element for element |
| RampedMove.GenerateSegments | esp32c6/components/motor/RampedMove.cpp:9-53 | the plan has 2 x cut entries plus a plateau exactly when the plateau size is positive; it is symmetric, and the plateau runs at the last ramp-up period |
| RampedMove.GeneratedStepsSum | esp32c6/components/motor/RampedMove.cpp:9-53 | with room for both full ramps the signed steps add up to exactly the requested microsteps in the requested direction |
| RampedMove.ShortMoveStepError | esp32c6/components/motor/RampedMove.cpp:17-20 | without that room the rounded cut misses the requested steps by at most 20 x factor |
| RampedMove.FirstPeriodIsBase | esp32c6/components/motor/RampedMove.cpp:28 | the first ramp entry runs at the full base period of 3072 us |
| RampedMove.HalfTurnAtEighthStep | esp32c6/components/motor/RampedMove.cpp:9-53 | 180 degrees at factor 8 is 800 microsteps, gives a 6-entry plan, and overshoots to 960 |
| RampedMove.FiveTurnsFullStep | esp32c6/components/motor/RampedMove.cpp:36-43 | 1800 degrees at full stepping gets both full ramps and a 360-step plateau, 1000 steps in all |
| PgPlanner.SliceLen | apps/api/src/pg.js:17 | Array.slice(0, end) length, with a negative end counting back from the array's end |
| PgPlanner.CutPoint | apps/api/src/pg.js:13-16 | the cut is 16 with room for a plateau, otherwise the JavaScript rounding of total / 4 |
| PgPlanner.Planner | apps/api/src/pg.js:11-32 | the host plan is the ramp-up, an optional plateau and the mirror ramp-down, with 2-step entries at round(4096 x g / factor) |
| PgPlanner.CutWithinProfile | apps/api/src/pg.js:14-17 | for a non-negative request the cut point never exceeds the profile, so the slice takes exactly that many entries |
| PgPlanner.StepsSum | apps/api/src/pg.js:11-32 | with room for two full ramps the plan's steps add up to the rounded request |
| PgPlanner.StepsNeverNegative | apps/api/src/pg.js:17-29 | the host plan carries no direction: every entry steps forwards |
| PgPlanner.NegativeRequestRunsForward | apps/api/src/pg.js:12-17 | -10 degrees gives a cut of -1, which slices 15 entries, and a 30-entry plan of 60 forward steps |
| MovePlanner.Normalize | esp32c6/components/motor/MovePlanner.cpp:16-22 | the profile is scaled so its first entry is 1, each entry keeping its ratio to the first |
| MovePlanner.New | esp32c6/components/motor/MovePlanner.cpp:13-23 | a constructed planner keeps its inputs, starts on the bracket [-10, 10] and holds a normalised positive profile |
| MovePlanner.Weights | esp32c6/components/motor/MovePlanner.cpp:36-39 | weight i is pow(profile[i], -beta) |
| MovePlanner.TotalWeight | esp32c6/components/motor/MovePlanner.cpp:35-39 | the weight total is positive, so every time share is defined |
| MovePlanner.SegmentTimes | esp32c6/components/motor/MovePlanner.cpp:41-43 | there is one time share per profile entry |
| MovePlanner.SegmentTimesCoverTotal | esp32c6/components/motor/MovePlanner.cpp:41-44 | whatever beta is, the time shares add up to the whole move time |
| MovePlanner.Trunc | esp32c6/components/motor/MovePlanner.cpp:27-28 | the (int) cast truncates toward zero for either sign |
| MovePlanner.Residual | esp32c6/components/motor/MovePlanner.cpp:27-28 | the residual is within 1 of the exact estimate minus the step count, and not below minus the step count for a non-negative estimate |
| MovePlanner.Int32 | esp32c6/components/motor/MovePlanner.cpp:27-29 | the 32-bit value lies in the int range, agrees with the input modulo 2^32, and equals it when it fits |
| MovePlanner.IsFeasible | esp32c6/components/motor/MovePlanner.cpp:24-31 | feasible only when the time lies between all-fastest and all-slowest; with both 32-bit residuals within 46340 in magnitude, feasible exactly when they also have opposite signs |
| MovePlanner.ProductSignMisread | esp32c6/components/motor/MovePlanner.cpp:29 | as written, residuals of -56988 and 54401 wrap to a positive product (infeasible) and two of 50000 to a negative one (feasible) |
| MovePlanner.IsFeasibleCorrected | esp32c6/components/motor/MovePlanner.cpp:24-31 | with a widened product, feasible exactly when the time fits and the residuals have opposite signs |
| MovePlanner.BisectStep | esp32c6/components/motor/MovePlanner.cpp:50-60 | a step tests the midpoint; it converges exactly within tolerance, otherwise it halves the bracket towards the sign change |
| MovePlanner.GetBeta | esp32c6/components/motor/MovePlanner.cpp:47-63 | at most 100 halvings; the bracket shrinks by 2 per halving and keeps beta and any sign change inside it; stopping early means converged |
| MovePlanner.HalveWidth | esp32c6/components/motor/MovePlanner.cpp:56-60 | one more halving divides the bracket width by one more power of two |
| MovePlanner.GenerateSegments | esp32c6/components/motor/MovePlanner.cpp:64-81 | one segment per entry, at the beta-independent period, running the nearest whole number of steps to its time share; the returned beta lies in the narrowed bracket inside the original one, which keeps any sign change, and an unconverged search has halved it 100 times |
| MovePlanner.PeriodsIndependentOfBracket | esp32c6/components/motor/MovePlanner.cpp:76 | the periods do not depend on the bracket a planner has narrowed to |
| MotorHal.NewHal | esp32c6/components/motor/MotorHal.hpp:33-34 | a fresh layer holds no plan and a segment index of 0 |
| MotorHal.MicrostepFactor | esp32c6/components/motor/MotorHal.cpp:16-37 | each mode's encoding gives 2 to the power of its low three bits; any other stored value gives 1 |
| MotorHal.InitDriverGpio | esp32c6/components/motor/MotorHal.cpp:97-134 | standby is released only while it is low with the outputs disabled and the mode pins set; M3 ends at the clockwise level, EN inactive, standby high |
| MotorHal.DirectionLevel | esp32c6/components/motor/MotorHal.cpp:166-174 | M3 gets the clockwise level exactly for a non-negative request |
| MotorHal.SetupPcnt | esp32c6/components/motor/MotorHal.cpp:176-199 | the counter watches the magnitude of the segment's step count |
| MotorHal.DutyTicks | esp32c6/components/motor/MotorHal.cpp:232-239 | the duty lies in 1 .. 16383: a raw duty of 0 gives 1, one of 16384 or more gives 16383, any other is floor(high x 16384 / period) |
| MotorHal.SetupLedc | esp32c6/components/motor/MotorHal.cpp:201-244 | succeeds exactly when 0 < high < period and both SDK calls succeed; a bad argument issues nothing; each failure is reported as its own error |
| MotorHal.DutyUpperClampUnreachable | esp32c6/components/motor/MotorHal.cpp:232-239 | for validated arguments the upper clamp never applies; the lower one applies exactly when the raw duty is 0 |
| MotorHal.HoldOrRelease | esp32c6/components/motor/MotorHal.cpp:373-382 | the call writes EN once: active to hold, inactive to release |
| MotorHal.LastWrite | esp32c6/components/motor/MotorHal.cpp:373-382 | a pin's level is the one its last logged write set |
| MotorHal.StartMove | esp32c6/components/motor/MotorHal.cpp:260-371 | the direction is written first; a FIXED move installs its plan and succeeds; a FREE move arms the stopper and sets up the pulse output at START_PERIOD_US / factor with an eighth duty, returning the stopper's or the pulse setup's error, and is refused below 8 us; the outputs are enabled exactly on success; no start enables the counter or adds a watch point; the segment index is left as it was |
| MotorHal.StartFree | esp32c6/components/motor/MotorHal.cpp:354-370 | a FREE start after the direction write: a stopper failure returns at once; otherwise the stopper is armed, then the pulse output set up, its error returned, and EN enabled only on success |
| MotorHal.StopMove | esp32c6/components/motor/MotorHal.cpp:384-402 | the output is always paused and silenced; EN is disabled exactly for COAST; after a FIXED move the counter is stopped and the call aborts exactly when the counter is not enabled or the last segment's watch point is not set; the stopper ISR is removed exactly for FREE |
| MotorHal.StopMovePaired | esp32c6/components/motor/MotorHal.cpp:384-402 | the corrected teardown always returns; it stops the counter only when enabled and, for non-FIXED moves, is stopMove itself |
| MotorHal.FreeStartStopPair | esp32c6/components/motor/MotorHal.cpp:354-400 | what a FREE start arms (stopper ISR and interrupt) its stop disarms, and the stop returns |
| MotorHal.FixedStartStopUnpaired | esp32c6/components/motor/MotorHal.cpp:334-396 | a FIXED start enables no counter and adds no watch point, so its stop aborts on the counter stop; the paired teardown returns |
| MotorHal.NextSegment | esp32c6/components/motor/MotorHal.cpp:407-431 | it aborts exactly when the index is already past the plan; otherwise the index advances by one, and while a segment remains it is loaded: the frequency 1000000 / period (for a positive period), the duty period / 8, the duty update, then the counter's watch moved from the finished segment's steps to the new one's |
| MotorHal.StartMoveFixed | esp32c6/components/motor/MotorHal.cpp:260-371 | same as startMove, but the segment index restarts at 0, inside the new plan |
| MotorHal.RunFromIndex | esp32c6/components/motor/MotorHal.cpp:407-431 | from any index inside the plan, repeated calls reach done at the plan's end without aborting |
| MotorHal.CorrectedStartRunsWholePlan | esp32c6/components/motor/MotorHal.cpp:407-431 | with the reset start, every FIXED move runs through its whole plan |
| MotorHal.SecondFixedMoveAborts | esp32c6/components/motor/MotorHal.cpp:408 | as written, a second one-segment FIXED move aborts on its first notification |
| Motor.NewMotor | esp32c6/components/motor/Motor.hpp:28-36 | a fresh coordinator satisfies the invariant, is IDLE, numbers ids from 1 and has no queue |
| Motor.GetState | esp32c6/components/motor/Motor.cpp:27 | the state code is 0 to 3, and 0 exactly when IDLE |
| Motor.Init | esp32c6/components/motor/Motor.cpp:29-63 | a second init is a no-op returning OK; a failed queue allocation returns NO_MEM; success marks the coordinator initialized with a queue and a task, leaving queue and state alone |
| Motor.InitPreservesInv | esp32c6/components/motor/Motor.cpp:29-63 | init keeps the coordinator's invariant |
| Motor.ResetQueueAsWritten | esp32c6/components/motor/Motor.cpp:65-70 | without a queue INVALID_STATE; otherwise the queue is emptied and pdPASS (1) returned |
| Motor.ResetQueueReportsFailure | esp32c6/components/motor/Motor.cpp:69 | a successful reset as written reports a value other than ESP_OK |
| Motor.ResetQueue | esp32c6/components/motor/Motor.cpp:65-70 | OK exactly when a queue exists, and then the queue is empty |
| Motor.BackOff | esp32c6/components/motor/Motor.cpp:96-105 | a FREE move is followed by half a turn against its direction, holding at the end |
| Motor.Enqueue | esp32c6/components/motor/Motor.cpp:92-95 | the id advances even when the full queue refuses with NO_MEM; otherwise the move is appended with the old id; nothing else changes |
| Motor.SubmitHoldRelease | esp32c6/components/motor/Motor.cpp:73-79 | HOLD and RELEASE succeed exactly when IDLE and then drive EN; otherwise INVALID_STATE and no change |
| Motor.SubmitStop | esp32c6/components/motor/Motor.cpp:84-91 | STOP always empties the queue and returns OK; it flags and notifies the task only for a STARTED move |
| Motor.SubmitIntoFullQueue | esp32c6/components/motor/Motor.cpp:92-95 | a move into a full queue gets NO_MEM and leaves the queue alone, but uses up an id |
| Motor.SubmitFree | esp32c6/components/motor/Motor.cpp:92-107 | an accepted FREE move is queued, followed by its back-off when room remains; OK, and the stop flag is cleared |
| Motor.SubmitPreservesInv | esp32c6/components/motor/Motor.cpp:72-108 | submit keeps the queue bound and the coordinator's invariant |
| Motor.Submit | esp32c6/components/motor/Motor.cpp:72-108 | only the queue, the id, the log and the two flags change; an accepted FIXED or FREE move is queued at the tail with the old id and clears the stop flag; only STOP empties a non-empty queue and only a STOP of a STARTED move notifies; only an accepted HOLD or RELEASE writes the log |
| Motor.Start | esp32c6/components/motor/Motor.cpp:126-132 | with startMove as written: STARTED and running exactly when the layer's start succeeds, otherwise ERRORED and back at the loop head; the segment index and the counter are left as they were |
| Motor.StartCorrected | esp32c6/components/motor/Motor.cpp:126-132 | the corrected start: same published outcome, and a started FIXED move is at segment 0 of a non-empty plan |
| Motor.Finish | esp32c6/components/motor/Motor.cpp:143-146 | a non-FIXED move returns to the loop head with one stop and the layer unchanged; a FIXED move on a counter nothing enabled halts the task; the published state and the queue are left alone |
| Motor.FinishCorrected | esp32c6/components/motor/Motor.cpp:143-146 | with the paired teardown every move with a plan returns to the loop head with one stop; non-FIXED moves end as written |
| Motor.Notify | esp32c6/components/motor/Motor.cpp:88 | a notification is pending once the task exists; nothing else changes |
| Motor.TaskStep | esp32c6/components/motor/Motor.cpp:112-148 | one loop action as written: ids and flags untouched, the queue loses at most its head, a task before init or halted stays put, and a halt comes only from a notified running move of a FIXED plan |
| Motor.TaskStepCorrected | esp32c6/components/motor/Motor.cpp:112-148 | one loop action on the corrected start and stop, with the same frame conditions |
| Motor.TaskStepStates | esp32c6/components/motor/Motor.cpp:112-132 | every iteration publishes IDLE before it takes a command; the queue gives up its head; DELAYED exactly for a non-zero delay; STARTED only on a successful start |
| Motor.RunningWake | esp32c6/components/motor/Motor.cpp:133-146 | without a notification nothing happens; a notified non-FIXED move is stopped with one stopMove; a notified FIXED move halts exactly when its stop flag is raised or its last segment is done, and otherwise advances one segment |
| Motor.TaskStepPreservesInv | esp32c6/components/motor/Motor.cpp:112-148 | the task as written keeps the coordinator's invariant, in which a halted task is a reachable state |
| Motor.StartsMatchStops | esp32c6/components/motor/Motor.cpp:127-146 | as written, starts equal stops between moves and exceed them by one while a move runs or has halted the task; a halt comes only from a running FIXED move taking a notification |
| Motor.FixedMoveThenStopHalts | esp32c6/components/motor/Motor.cpp:84-146 | a FIXED move started from an idle task and then STOPped halts the task in stopMove's counter stop |
| Motor.TaskStepCorrectedPreservesInv | esp32c6/components/motor/Motor.cpp:112-148 | the corrected task keeps the invariant, with a FIXED move's index inside its plan and no halt |
| Motor.CorrectedStartsMatchStops | esp32c6/components/motor/Motor.cpp:127-146 | corrected, the task never halts, starts and stops pair up, and a notification advances a FIXED move one segment, ending it with one stop after its last |
| Motor.StopDuringDelayStillStarts | esp32c6/components/motor/Motor.cpp:84-91 | a STOP during the pre-move delay drops only the queued moves; the delayed move still starts |
| Motor.LaterSubmitCancelsStop | esp32c6/components/motor/Motor.cpp:106 | a submit accepted after a STOP clears the stop flag, so the running FIXED move keeps stepping |
| Ota.DefaultStatus | esp32c6/components/ota/ota_status.cpp:7-13 | the default record is IDLE, ESP_OK, with an empty error function |
| Ota.RecoverAfterReboot | esp32c6/components/ota/ota.cpp:20-56 | an interrupted update becomes ERROR, and gets INVALID_STATE with "interrupted_by_reboot" only when no error was recorded; COMPLETE resets to the default; other states are kept |
| Ota.RecoverIdempotent | esp32c6/components/ota/ota.cpp:22-56 | recovery is idempotent and never leaves an in-flight or completed state |
| Ota.Init | esp32c6/components/ota/ota.cpp:13-72 | a second init is a no-op; otherwise the recovered status is installed; a pending-verify image returns the rollback's result and stays uninitialized |
| Ota.InitTwice | esp32c6/components/ota/ota.cpp:14-17 | init after a successful init changes nothing |
| Ota.SetOtaUrl | esp32c6/components/ota/ota.cpp:91-113 | a missing or empty URL is refused with INVALID_ARG; otherwise it is stored exactly when the store succeeds |
| Ota.GetOtaUrl | esp32c6/components/ota/ota.cpp:114-135 | an open failure is returned as is; no URL gives NOT_FOUND; a URL is copied with its terminator when it fits, otherwise NO_MEM |
| Ota.UrlRoundTrip | esp32c6/components/ota/ota.cpp:91-135 | a URL stored by set_ota_url reads back whole through any buffer large enough for it |
| Ota.Progress | esp32c6/components/ota/ota.cpp:344-350 | progress is total x 100 / length for a known length, bounded by 100 within it, and unchanged for an unknown length |
| Ota.ProgressMonotone | esp32c6/components/ota/ota.cpp:339-348 | progress never decreases while the download grows |
| Ota.SetError | esp32c6/components/ota/ota.cpp:402-410 | ERROR with the code; at most 31 bytes of the function name, terminated; progress and byte count kept |
| Ota.ResetStatus | esp32c6/components/ota/ota.cpp:390-395 | the status returns to the default record |
| Ota.PerformUpdate | esp32c6/components/ota/ota.cpp:186-303 | the states perform_ota_mode_update itself sets run strictly forward from DOWNLOADING and end in COMPLETE exactly when every step succeeded, otherwise in ERROR; a missing URL or partition returns NOT_FOUND, a WiFi or begin failure returns its error, and the device reboots exactly when the download is reached |
| Ota.StartDownload | esp32c6/components/ota/ota.cpp:249 | the download starts unsuccessful, with nothing written, writing through the update's status record |
| Ota.OnData | esp32c6/components/ota/ota.cpp:326-349 | an empty chunk changes nothing; a failed write clears the success flag, records ERROR with its code and "esp_ota_write" and returns ESP_FAIL; a good write sets the flag whatever came before, adds its length, and records the byte count and the progress without touching the state |
| Ota.OnDataCorrected | esp32c6/components/ota/ota.cpp:326-349 | the same record writes, but a good write sets the success flag only when no earlier write failed |
| Ota.RunDownload | esp32c6/components/ota/ota.cpp:326-349 | the handler records one ERROR per failed write and nothing else, so the record's state is untouched exactly when no write failed |
| Ota.WrittenSuccessIsLastWrite | esp32c6/components/ota/ota.cpp:331-341 | as written, the download counts as successful exactly when its last non-empty chunk was written: an earlier failed write is forgotten |
| Ota.CorrectedSuccessNeedsEveryWrite | esp32c6/components/ota/ota.cpp:331-341 | with the failure kept, the download succeeds exactly when some chunk was written and none failed |
| Ota.UpdateWithDownload | esp32c6/components/ota/ota.cpp:186-349 | the update reboots exactly when it reaches the download; the record takes DOWNLOADING, the handler's ERRORs, then the states set after the transfer; with no failed write these run strictly forward; COMPLETE is reached exactly when every step succeeds and, as written, the last write succeeded, or, corrected, no write failed and one was made |
| Ota.WriteFailureThenComplete | esp32c6/components/ota/ota.cpp:326-341 | a failed write followed by a good one: as written the update records DOWNLOADING, ERROR, VERIFYING, FLASHING, COMPLETE; corrected it ends DOWNLOADING, ERROR, ERROR |
| Ota.UpdateThenReboot | esp32c6/components/ota/ota.cpp:262-272 | after a successful update the next boot finds the default record |
| Ota.TriggerOtaUpdate | esp32c6/components/ota/ota.cpp:137-167 | it reboots with the update-mode flag set exactly when the flag is stored; otherwise it returns the error and nothing changes |
| Ota.ModePendingAtBoot | esp32c6/components/ota/ota.cpp:168-184 | the boot check reports pending only for a stored flag of 1, and exactly then when the storage opens |
| Ota.ClearOtaMode | esp32c6/components/ota/ota.cpp:193-201 | the flag is erased when the storage opens, otherwise nothing changes; nothing else changes either way |
| Ota.TriggerThenBoot | esp32c6/components/ota/ota.cpp:137-184 | a trigger that reboots makes the next boot take the update path; a failed trigger leaves the boot path as it was; after the update clears the flag the next boot is normal |
| Ota.EncodeStatus | esp32c6/components/ota/ota_status.hpp:19-35 | the packed record is 42 bytes: state, progress, then the fields in order |
| Ota.DecodeStatus | esp32c6/components/ota/ota_status.hpp:19-35 | every 42-byte block reads as a well-formed record |
| Ota.StatusRoundTrip | esp32c6/components/ota/ota_status.hpp:19-35 | decoding the packed record gives back the record |
| Wifi.SetCredentials | esp32c6/components/wifi/WiFi_DPP.cpp:231-269 | OK exactly for an SSID of 1..31 bytes and a password under 64 bytes, and a successful apply; bad arguments touch nothing; success stores both strings, WPA2-PSK and the current BSSID |
| Wifi.BackoffMs | esp32c6/components/wifi/WiFi_DPP.cpp:43-46 | the back-off never exceeds 30 s |
| Wifi.HandleEvent | esp32c6/components/wifi/WiFi_DPP.cpp:9-105 | a disconnect retries with back-off below 4 retries, otherwise it sets the fail bit; a DPP failure relistens below 5 retries; a received config or an IP resets the counter |
| Wifi.HandleEventPreservesInv | esp32c6/components/wifi/WiFi_DPP.cpp:41-89 | no event takes the retry counter past 5 |
| Wifi.BackoffCapUnreachable | esp32c6/components/wifi/WiFi_DPP.cpp:41-46 | the 30 s cap never applies, because retries stop at 4 (8 s) |
| Wifi.DisconnectStorm | esp32c6/components/wifi/WiFi_DPP.cpp:41-58 | n disconnects retry at 1, 2, 4 and 8 s, and set the fail bit exactly when a fifth arrives |
| Wifi.TotalDelayAppend | esp32c6/components/wifi/WiFi_DPP.cpp:52 | waits add up across consecutive events |
| Wifi.Deinit | esp32c6/components/wifi/WiFi_DPP.cpp:106-146 | always OK; an uninitialized manager is untouched; otherwise it ends uninitialized, unprovisioned, with the counter at 0 |
| Wifi.DeinitIdempotent | esp32c6/components/wifi/WiFi_DPP.cpp:106-110 | a second deinit changes nothing |
| WifiDpp.Score | esp32c6/components/wifi_dpp/WiFi_DPP.cpp:216-221 | the score is the RSSI, less 10 on channels 1, 6 and 11 |
| WifiDpp.BestIsUnique | esp32c6/components/wifi_dpp/WiFi_DPP.cpp:223-226 | the strict comparison makes the chosen access point unique: the first of the highest scores |
| WifiDpp.BestAp | esp32c6/components/wifi_dpp/WiFi_DPP.cpp:201-228 | -1 exactly when no access point carries the SSID, otherwise the first best-scoring match |
| WifiDpp.ScanAndConnect | esp32c6/components/wifi_dpp/WiFi_DPP.cpp:149-247 | each early failure is returned untouched; with no access points it connects directly; when some access point matches, a unique best one exists and its BSSID is applied before connecting; with no match the configuration is left alone |
| WifiDpp.ResetProvisioning | esp32c6/components/wifi_dpp/WiFi_DPP.cpp:105-112 | unprovisioned exactly when the restore succeeds; its result is returned |
| WifiDpp.ResetThenStart | esp32c6/components/wifi_dpp/WiFi_DPP.cpp:105-112 | after a successful reset the next station start listens for DPP; after a failed one it behaves as before, connecting when provisioned |
| I2cSlave.DecodeUrlAsWritten | esp32c6/components/i2c_slave/I2C.cpp:107-117 | accepted for 1..63 payload bytes; the terminator store overruns exactly at a full 64-byte buffer |
| I2cSlave.TerminatedUrl | esp32c6/components/i2c_slave/I2C.cpp:111-113 | the URL read after the terminator store is the payload up to its first NUL |
| I2cSlave.UrlOverrunAtFullBuffer | esp32c6/components/i2c_slave/I2C.cpp:109-111 | a 64-byte URL write passes the length check and stores past the buffer |
| I2cSlave.DecodeUrl | esp32c6/components/i2c_slave/I2C.cpp:107-117 | with the tightened check no write overruns, and the URL is the payload up to its first NUL |
| I2cSlave.DecodeUrlAgreesBelowFull | esp32c6/components/i2c_slave/I2C.cpp:110 | the tightened check agrees with the written one except at a full buffer |
| I2cSlave.DecodeRecord | esp32c6/components/i2c_slave/I2C.cpp:209-221 | a 6-byte record is a FIXED, COAST move: int16 degrees, uint16 delay, uint16 rpm |
| I2cSlave.DecodeProfile | esp32c6/components/i2c_slave/I2C.cpp:204-212 | the payload gives one move per 6 bytes, in order |
| I2cSlave.EncodeRecord | esp32c6/components/i2c_slave/I2C.cpp:210-212 | every move the record can carry has an encoding that decodes back to it |
| I2cSlave.EncodeProfile | esp32c6/components/i2c_slave/I2C.cpp:204-212 | a profile encodes record by record |
| I2cSlave.ProfileRoundTrip | esp32c6/components/i2c_slave/I2C.cpp:204-221 | decoding an encoded profile gives back the moves |
| I2cSlave.ProfileBytesRoundTrip | esp32c6/components/i2c_slave/I2C.cpp:204-212 | every profile payload is the encoding of what it decodes to |
| I2cSlave.DecodeCredentials | esp32c6/components/i2c_slave/I2C.cpp:232-251 | accepted exactly for 3..63 payload bytes with the SSID's NUL before the last byte; the password is read as a C string after it |
| I2cSlave.DecodeWrite | esp32c6/components/i2c_slave/I2C.cpp:96-256 | each register's write: URL (a full 64-byte write is the overrunning store), profile (a multiple of 6 bytes, at most 60), free run by the sign of the byte, stop, hold, release, credentials; read-only and unknown registers are ignored |
| I2cSlave.NewSlave | esp32c6/components/i2c_slave/I2C.cpp:87-90 | the task starts waiting for an address, at register 0 with length 0 |
| I2cSlave.AllAcceptedEach | esp32c6/components/i2c_slave/I2C.cpp:209-225 | inside an accepted prefix, every submit returned OK |
| I2cSlave.SubmitProfile | esp32c6/components/i2c_slave/I2C.cpp:209-226 | moves are submitted in order and the loop stops after the first one refused |
| I2cSlave.SubmitPrefixPreservesInv | esp32c6/components/i2c_slave/I2C.cpp:209-226 | submitting any prefix keeps the coordinator's invariant |
| I2cSlave.HandleRx | esp32c6/components/i2c_slave/I2C.cpp:96-257 | any write selects its register and restarts the read exchange; a payload is acted on: restart reboots, trigger reboots exactly when the flag is stored, a URL is stored, a full-buffer URL overruns, 0x26 empties the queue, a profile is submitted in order, credentials go to the manager; each write changes only its own component |
| I2cSlave.WriteRegisters | esp32c6/components/i2c_slave/I2C.cpp:101-140 | restart, trigger, status reset and queue reset come exactly from their registers, an overrun exactly from a full-buffer URL write, a URL only from register 0x10 |
| I2cSlave.Dispatch | esp32c6/components/i2c_slave/I2C.cpp:101-253 | each decoded command reaches only its own component; only a restart, or a trigger whose flag is stored, reboots; only the overrunning URL overruns; the invariant of the motor is kept |
| I2cSlave.FirmwareBlock | esp32c6/components/i2c_slave/I2C.cpp:294-301 | a zeroed 64-byte block with version, date and time at 0, 32 and 48, each reading back as its string |
| I2cSlave.Respond | esp32c6/components/i2c_slave/I2C.cpp:262-309 | each read register's response: device id, motor state code, the 42-byte status, the info block, the URL or a NUL, else 0xFF |
| I2cSlave.HandleTx | esp32c6/components/i2c_slave/I2C.cpp:258-320 | the first transfer sends the prepared length, the second exactly that many bytes, then waits for a new address |
| I2cSlave.ReadTransaction | esp32c6/components/i2c_slave/I2C.cpp:259-319 | a read's two transfers deliver a length byte and then that many bytes of the register's response, without changing the components |
| HostMotor.EncodeStep | apps/api/src/tools/motor.js:14-17 | a step's 4 bytes decode back to its int16 steps and uint16 delay |
| HostMotor.EncodeSteps | apps/api/src/tools/motor.js:12-21 | record i of the payload is the encoding of step i |
| HostMotor.RunProfile | apps/api/src/tools/motor.js:9-25 | present exactly when the first 16 steps are in range; [0x10, 0x02] then one record per step |
| HostMotor.DecodeSteps | apps/api/src/tools/motor.js:12-21 | any payload of whole records reads as in-range steps |
| HostMotor.RunProfileRoundTrip | apps/api/src/tools/motor.js:12-22 | the payload decodes back to the first 16 steps |
| HostMotor.FreeRun | apps/api/src/tools/motor.js:30-35 | three bytes whose direction byte is positive as int8 exactly for a positive direction |
| HostMotor.Stop | apps/api/src/tools/motor.js:37-42 | the stop write is register 0x10 followed by a 0 byte |
| HostMotor.FreeRunSetsUrl | apps/api/src/tools/motor.js:32 | the firmware stores a free-run write's two bytes as the update URL |
| HostMotor.StopSetsEmptyUrl | apps/api/src/tools/motor.js:39 | the firmware reads a stop write as an empty update URL |
| HostMotor.ProfileNeverSubmits | apps/api/src/tools/motor.js:22-23 | the firmware reads a profile write of up to 15 steps as an update URL, never as motor moves |
| HostMotor.FullProfileOverlong | apps/api/src/tools/motor.js:12-23 | the profile write fits the device's 64-byte receive buffer exactly when it has at most 15 steps |
| HostOta.PlusNonSpace | apps/api/src/tools/ota.js:13 | `\S+` matches exactly the non-empty strings without whitespace |
| HostOta.MatchOne | apps/api/src/tools/ota.js:13 | a single-character term consumes exactly one matching character |
| HostOta.SchemeTail | apps/api/src/tools/ota.js:13 | `:[/][/]\S+$` matches exactly "://" followed by a non-empty non-space tail |
| HostOta.OptionalS | apps/api/src/tools/ota.js:13 | `[s]?` followed by the tail matches with or without an s, case-insensitively |
| HostOta.HttpPrefix | apps/api/src/tools/ota.js:13 | `^http` matches a case-insensitive "http" prefix |
| HostOta.LowerPunct | apps/api/src/tools/ota.js:13 | the case folding leaves ':' and '/' alone |
| HostOta.UrlPatternIsHttpUrl | apps/api/src/tools/ota.js:13 | the pattern accepts exactly the http or https URLs, any case, with a non-empty whitespace-free rest |
| HostOta.SetUrl | apps/api/src/tools/ota.js:10-22 | the write is sent exactly for an accepted URL, as [0x11, 0x00] followed by the UTF-8 bytes |
| HostOta.EmptyUrlRefused | apps/api/src/tools/ota.js:11-12 | an empty URL is refused |
| HostOta.UpperCaseSchemeAccepted | apps/api/src/tools/ota.js:13 | an upper-case scheme is accepted |
| HostOta.SpaceRefused | apps/api/src/tools/ota.js:13 | a URL containing a space is refused |
| HostOta.SetUrlTriggersUpdate | apps/api/src/tools/otaURL.js:19-20 | the firmware reads the URL write as a request to start an update |
| HostWifi.SetCredentials | apps/api/src/tools/wifi.js:7-35 | sent exactly for a non-empty SSID with SSID + password + 2 bytes at most 63; the write is 0x40, SSID, NUL, password, NUL |
| HostWifi.CredentialsRoundTrip | apps/api/src/tools/wifi.js:27-34 | the firmware decodes the write as exactly these SSID and password |
| HostWifi.HostCredentialsStored | apps/api/src/tools/wifi.js:19-24 | of what the host sends, the manager stores exactly the credentials whose SSID is under 32 bytes |
| HostFirmware.Window | apps/api/src/tools/firmware.js:5-7 | Buffer.toString's window is clamped to the buffer |
| HostFirmware.GetInfo | apps/api/src/tools/firmware.js:3-13 | version, date and time are the NUL-cut windows 0-32, 32-48 and 48 onwards |
| HostFirmware.FullWindowDoesNotSpill | apps/api/src/tools/firmware.js:5-6 | a field without a NUL fills its window and does not spill into the next one |
| HostFirmware.InfoRoundTrip | apps/api/src/tools/firmware.js:3-13 | the host reads back exactly the version, date and time the firmware packed |
| HostFirmware.ReadRegister | apps/api/src/tools/i2c-util.js:11-19 | an undefined or negative length throws; otherwise exactly that many bytes are read |
| HostFirmware.GetInfoAlwaysThrows | apps/api/src/tools/firmware.js:4 | as written, getInfo always throws, because it passes no length |
| HostFirmware.GetInfoFixed | apps/api/src/tools/firmware.js:3-13 | with a 64-byte length the read succeeds and parses the block |
| HostFirmware.FixedReadRoundTrip | apps/api/src/tools/firmware.js:3-13 | the corrected read returns the firmware's version, date and time |
| HostBuzzer.TableScenarios | apps/api/src/tools/buzzer.js:63-64 | REST is 0 Hz and DS8 is 4978 Hz |
| HostBuzzer.Record | apps/api/src/tools/buzzer.js:75-78 | an 8-byte record: the note's frequency written as uint32 little-endian at offset 0 and the length at offset 4 |
| HostBuzzer.RunProfile | apps/api/src/tools/buzzer.js:70-87 | present exactly when every length fits uint32; one 8-byte write per entry, in order, holding the frequency's and the length's uint32 little-endian bytes, an unknown note sounding 0 Hz |
| HostBuzzer.DecodeRecord | apps/api/src/tools/buzzer.js:76-77 | a record reads as two uint32 values |
| HostBuzzer.ProfileRoundTrip | apps/api/src/tools/buzzer.js:73-82 | every write decodes back to its entry's frequency and length |
| QueryTypes.Parse | apps/api/src/controller/mw/queryTypes.js:2-18 | non-strings pass; "true", "1" and "" give true; "false" and "0" give false; other numerals give their number; the rest stay strings |
| QueryTypes.ParseIdempotent | apps/api/src/controller/mw/queryTypes.js:2-18 | parsing a parsed value changes nothing |
| QueryTypes.ParseValue | apps/api/src/controller/mw/queryTypes.js:23 | arrays are parsed element by element, other values whole |
| QueryTypes.MergeCollects | apps/api/src/controller/mw/queryTypes.js:19-39 | a lower-cased key is present exactly when some entry folds to it; a single value stays scalar, several become an array in order |
| QueryTypes.CollidingKeys | apps/api/src/controller/mw/queryTypes.js:22-32 | "Mode=1&mode=x" gives mode = [true, "x"] |
| Validator.Extract | apps/api/src/controller/mw/validator.js:4-15 | "query" prefers the parsed query; "params", "body" and "headers" give the request's own fields; other keys are undefined |
| Validator.AggregateParsesEveryPart | apps/api/src/controller/mw/validator.js:20-36 | every non-empty schema part lands in data or errors by its parse result; empty parts are skipped |
| Validator.Handle | apps/api/src/controller/mw/validator.js:17-53 | without errors the data are merged into the parsed locals and the request proceeds; otherwise it fails with the errors and the locals are untouched |
| Validator.AllPartsParse | apps/api/src/controller/mw/validator.js:37-48 | when every part parses, the request proceeds with each part's data |
| Validator.OneFailureFails | apps/api/src/controller/mw/validator.js:49-51 | one failing part fails the request with its key among the errors |
| Pir.NewerExclusive | apps/api/src/PIR2.js:99-102 | at most one queue holds the newer event, and an empty queue never does |
| Pir.Poll | apps/api/src/PIR2.js:98-115 | at most one announcement, exactly when the flag changes, stamped no later than the snapshot; occupancy only on a newer detect at least 3 s old, vacancy only on a newer remove at least 2 s old |
| Pir.PollTransitions | apps/api/src/PIR2.js:104-115 | occupancy changes only on a confirmed newer detect or a held-off newer remove; at most one announcement, stamped no later than the snapshot |
| Pir.ConfirmScenario | apps/api/src/PIR2.js:105-109 | a detect 3.2 s old occupies the room, stamped 200 ms earlier |
| Pir.Condense | apps/api/src/PIR2.js:47-59 | the back (oldest) entry is popped until the queue is empty or its back is within 5 ms of its front, never past that point and only while at least two entries remain; the front (newest) entry always survives, and a queue ordered newest first keeps only entries within 5 ms of its newest |
| PresencePoll.Acknowledge | apps/api/src/rpc/simple.js:184 | the write-back clears bits 1 to 3 of the status and keeps the rest |
| PresencePoll.Completed | apps/api/src/rpc/simple.js:154-158 | a routine's completion clears the active flag and changes nothing else |
| PresencePoll.CompletedResumesPolling | apps/api/src/rpc/simple.js:147-160 | a poll during a routine does nothing; after its completion the next poll reads the status and tracks its detect bit |
| PresencePoll.ActivePollIsQuiet | apps/api/src/rpc/simple.js:147-150 | while a routine runs a poll only refreshes the activity time |
| PresencePoll.Poll | apps/api/src/rpc/simple.js:146-187 | an active poll only refreshes the time; otherwise the status is read and the previous-detect flag follows it; the routine starts only on a falling edge with the feature enabled; the poller becomes active only by a start |
| PresencePoll.PollCounts | apps/api/src/rpc/simple.js:151-186 | the count rises on consecutive detects and resets on the falling edge; the routine fires exactly there when enabled and above the threshold; the demo starts exactly after the idle interval; the status is acknowledged exactly when AVAILABLE |
| PresencePoll.BurstFires | apps/api/src/rpc/simple.js:165-179 | three detects and then a clear reading fire the routine at threshold 1 |
| PresencePoll.DetectsCount | apps/api/src/rpc/simple.js:160-167 | k further detects after a detect add k to the count and only read the status |
| PresencePoll.ThresholdFiresOnce | apps/api/src/rpc/simple.js:160-186 | for every threshold, k detects and then a clear reading fire the routine exactly once when enabled and k - 1 exceeds the threshold, never otherwise, and reset the count |
| Bytes.CutAtNul | apps/api/src/tools/firmware.js:5 | split('\0')[0] is the longest NUL-free prefix |
| Bytes.CopyCString | esp32c6/components/wifi/WiFi_DPP.cpp:248-252 | the bounded copy keeps the longest prefix that leaves room for the terminator |
| Bytes.StrncpyReadsBack | esp32c6/components/wifi/WiFi_DPP.cpp:248 | a string shorter than the bound reads back whole |
| Bytes.CutAtNulPadded | esp32c6/components/i2c_slave/I2C.cpp:296-299 | a string zero-padded into a field it fits reads back whole |
| Rounding.RoundDiv | esp32c6/components/motor/RampedMove.cpp:12 | std::round of a non-negative quotient is the nearest integer, a half rounding up |
| Rounding.JsRoundDiv | apps/api/src/pg.js:12 | Math.round of a quotient of either sign is the nearest integer, a half rounding towards positive infinity |
| Rounding.RoundReal | esp32c6/components/motor/RampedMove.cpp:28 | std::round is within a half, with halves away from zero |

## Left out

- I/O is out of scope: logging, the I2C driver, GPIO, PCNT and LEDC registers, NVS storage, HTTP, the RTOS queue and notification primitives. Each appears only as a recorded action or as a result passed in.
- Concurrency is left out. The coordinator's task, the ISR and the submit path interleave in the firmware. Here each is an atomic step on one state.
- Floating point is taken as exact real arithmetic; single-precision effects are not modelled.
- The first-draft float planner inside startMove (MotorHal.cpp:269-353) is not modelled. Its plan is a non-empty input.
- START_PERIOD_US is an input: it is defined outside the files modelled.
- setupStopper and MotorHal::init are reduced to their results.
- The GPIO configuration results in initDriverGPIO are assumed OK.
- ESP_ERROR_CHECK aborts are modelled where a check fails on model values: the out-of-range `at()` in nextSegment, and stopMove's counter calls, which the counter driver refuses when nothing enabled the counter or set the watch point. The pulse-output (LEDC) pause and duty calls and the GPIO calls in stopMove are taken to succeed.
- MotorHal.StartMove: the direction pin write is taken to succeed. setupDirection returns gpio_set_level's error through ESP_RETURN_ON_ERROR (MotorHal.cpp:166-173), and startMove would then return early (MotorHal.cpp:263-267); the model always records the write and goes on.
- I2cSlave.HandleTx: both i2c_slave_write calls are taken to succeed. Each sits under ESP_ERROR_CHECK (I2C.cpp:311, 316), which aborts the firmware on failure; the model has no failure input for them.
- Wifi.HandleEvent: esp_supp_dpp_start_listen is taken to succeed. Its calls sit under ESP_ERROR_CHECK in both WiFi managers (wifi/WiFi_DPP.cpp:14, 88 and wifi_dpp/WiFi_DPP.cpp:14, 87), which abort the firmware on failure; the model emits StartListen unconditionally.
- The pulse counter's watch-point events are not modelled. A FIXED move's notifications come from the unconstrained Notify step; in this revision the firmware raises them only through STOP, since the FIXED start arms no counter.
- The GPIO calls of setupStopper are taken to succeed; its overall result is an input.
- Ota.Progress: requires total x 100 to stay below 2^31, the range of the int the percentage is computed in. Downloads of more than about 21 MB are not modelled.
- HostMotor.ProfileNeverSubmits: covers profiles of at most 15 steps. A 16-step profile is a 66-byte write, longer than the device's 64-byte receive buffer, and what the I2C driver does with it is not modelled; FullProfileOverlong states the length.
- Validator.Aggregate, QueryTypes.Merge and MovePlanner.EstimateSteps are computing functions without contracts of their own; their properties are the lemmas AggregateParsesEveryPart, MergeCollects, SegmentTimesCoverTotal and the Residual contract.
- MovePlanner.IsFeasible: the residuals' product is taken to wrap as a 32-bit two's-complement value. C++ leaves signed overflow undefined, so any other outcome of the overflow is not modelled.
- 32-bit overflow of the step computations is excluded by preconditions. Moves arriving as int16 degrees with a factor of at most 128 never reach it.
- RampedMove.GenerateSegments: requires a factor of at least 1. Every factor the firmware uses is one.
- MovePlanner.GenerateSegments: requires every entry's rounded period to be positive. For a zero period the firmware divides the time share by zero and converts the result to uint32 (MovePlanner.cpp:76-77), which is undefined; planners whose base time rounds an entry to 0 us, such as a 1 us base, are excluded.
- MotorHal.NextSegment: the frequency written is stated only for a positive period. For a zero period MotorHal.cpp:414 divides 1000000 by zero as an integer, which is undefined; the model writes 0 there and promises nothing about it.
- MovePlanner.New: requires a positive base time. A zero base time makes every division in the estimator undefined.
- Motor.Submit before init dereferences a missing layer in the firmware. Here it acts on the layer's default state.
- The motor-state read register is used in I2C.cpp but declared in no file modelled. Its number is a parameter distinct from every declared register.
- I2cSlave.DecodeCredentials: the password is read from the whole 64-byte buffer. A password left unterminated within the received bytes can read stale buffer bytes. Reads past the buffer itself are not modelled.
- The station configuration's SSID and password field sizes (32 and 64) come from the SDK.
- The value of ESP_ERR_NVS_NOT_FOUND comes from the SDK.
- The two WiFi managers share their event handler, apart from log formatting, and it is modelled once, in Wifi. Their deinits differ by one SDK call: the wifi component's deinit also sets the WiFi mode to NULL (wifi/WiFi_DPP.cpp:118-122), whose failure is only logged; that call is not modelled, so Wifi.Deinit states the state effects both share. The DPP manager's reset_provisioning and scan_and_connect are modelled in WifiDpp.
- Ota.PerformUpdate: the download's success flag is an input there. Ota.UpdateWithDownload derives it from the data events. What the HTTP client does after the handler returns ESP_FAIL is not modelled: the chunks it goes on to deliver are an input, and so is the transfer's own result.
- Ota.UpdateWithDownload: the content length is taken as known before the first chunk, as the header event sets it. The image check inside esp_ota_end is its result, an input, so a flashed image with a missing chunk is not ruled out by the model.
- WiFi init, handle_rollback, the ESP-IDF HTTP events other than data, and the boot-time update mode are left out. They are SDK sequencing without decisions beyond what the results passed in cover.
- The update HTTP client's header parsing is reduced to the content length it yields.
- ota.js getUrl (a block read of register 0x01) is left out: it only forwards the bus read.
- Opening and closing the bus in the host tools is left out.
- Host strings are byte strings where the code uses Buffers. UTF-8 encoding is a function parameter where the code converts a JavaScript string.
- Node's writeInt16LE and writeUInt32LE with non-integer arguments are left out. Steps, delays and lengths are integers here.
- QueryTypes: keys inherited from Object.prototype (`constructor`, `__proto__`) are not modelled. Neither is object key order, since a map is used.
- String.toLowerCase and Number() are function parameters.
- zod's safeParse is a function per schema part.
- HostBuzzer: note names inherited from Object.prototype are left out.
- HostBuzzer.TableScenarios: states two table entries rather than the whole 59-entry table.
- PIR2.js: the timers, the console output and the keyboard controls are left out. A device pop is taken to remove the queue's back entry, the oldest, as the comments at PIR2.js:57, 70-71 and 117-118 describe; the sensor firmware that implements it is not part of this model.
- rpc/simple.js: the routines started on activity and on idleness are asynchronous. Their completion is the separate Completed step, taken at any point between polls.
- HostFirmware.GetInfoFixed: the host's single read is modelled against the device's 64-byte block. The firmware's length-then-data transfer pair is in I2cSlave.ReadTransaction.

## Findings

| source | as written | input that shows it | evidently intended | confidence | as-written member | corrected member |
|---|---|---|---|---|---|---|
| esp32c6/components/motor/MotorHal.cpp:260-371 | startMove never resets the segment index, so nextSegment's `at()` on a second FIXED move reads past the plan | on the layer itself: startMove with a one-segment FIXED plan, nextSegment (done), startMove with another FIXED plan, nextSegment | the index restarts at 0 for each new plan | low, not executed; in the coordinator the first FIXED move's stopMove aborts before a second start | MotorHal.SecondFixedMoveAborts | MotorHal.CorrectedStartRunsWholePlan |
| esp32c6/components/motor/MotorHal.cpp:391-396 | stopMove stops and disables the pulse counter and removes a watch point under ESP_ERROR_CHECK, but startMove in this revision neither enables the counter nor adds a watch point (that setup is commented out at MotorHal.cpp:345-352) | submit a FIXED move, let the task start it, then submit STOP | tear down only what the start set up | medium, not executed | MotorHal.FixedStartStopUnpaired, Motor.FixedMoveThenStopHalts | MotorHal.StopMovePaired, Motor.CorrectedStartsMatchStops |
| esp32c6/components/motor/MovePlanner.cpp:29 | the sign test multiplies the two int residuals, which overflows once their product leaves the 32-bit range | a 1 us base, 40000 us, 100000 steps: residuals -56988 and 54401, whose product -3100204188 wraps to +1194763108 | test the two signs, not the product | low, not executed | MovePlanner.IsFeasible, MovePlanner.ProductSignMisread | MovePlanner.IsFeasibleCorrected |
| esp32c6/components/ota/ota.cpp:341 | every good write sets the download's success flag, so a failed write earlier in the transfer is forgotten once a later chunk is written, and the update goes on to verify and flash | a download whose first chunk's esp_ota_write fails and whose second succeeds, with the transfer returning OK | a failed write fails the download | low, not executed; the image check in esp_ota_end is expected to reject an image with a missing chunk, and whether the HTTP client goes on after the handler's ESP_FAIL is SDK behaviour | Ota.WriteFailureThenComplete, Ota.WrittenSuccessIsLastWrite | Ota.CorrectedSuccessNeedsEveryWrite, Ota.UpdateWithDownload |
| esp32c6/components/i2c_slave/I2C.cpp:110-111 | the URL check admits len - 1 up to 63, then stores the terminator at buffer[len], index 64 of a 64-byte buffer | a 64-byte write to register 0x10 | reject a URL that leaves no room for the terminator | high, not executed | I2cSlave.UrlOverrunAtFullBuffer | I2cSlave.DecodeUrlAgreesBelowFull |
| esp32c6/components/motor/Motor.cpp:65-70 | resetQueue returns xQueueReset's pdPASS (1), which its caller logs as a failure | any write to register 0x26 after init | return ESP_OK on success | high, not executed | Motor.ResetQueueReportsFailure | Motor.ResetQueue |
| apps/api/src/tools/firmware.js:4 | getInfo calls readRegister(0x30) with no length, and Buffer.alloc(undefined) throws | any call of getInfo | read the 64-byte info block | high, not executed | HostFirmware.GetInfoAlwaysThrows | HostFirmware.FixedReadRoundTrip |

=== FILE: bytes.dfy ===
/** Byte strings, C-style NUL termination and little-endian integer fields,
    shared by the firmware register protocol and the host-side encoders. */
module Bytes {

  type byte = b: int | 0 <= b < 256

  const NUL: byte := 0

  predicate NulFree(s: seq<byte>) {
    forall i :: 0 <= i < |s| ==> s[i] != NUL
  }

  /** The bytes of `s` before its first NUL, or all of `s` when it holds none
      (C's `strnlen(s, |s|)` as a prefix; JavaScript's `split('\0')[0]`). */
  function CutAtNul(s: seq<byte>): (r: seq<byte>)
    ensures r <= s
    ensures NulFree(r)
    ensures |r| < |s| ==> s[|r|] == NUL
  {
    if |s| == 0 then []
    else if s[0] == NUL then []
    else [s[0]] + CutAtNul(s[1..])
  }

  /** Cutting a NUL-free string followed by a NUL gives back that string. */
  lemma {:induction false} CutAtNulTerminated(a: seq<byte>, rest: seq<byte>)
    requires NulFree(a)
    ensures CutAtNul(a + [NUL] + rest) == a
  {
    if |a| == 0 {
      assert (a + [NUL] + rest)[0] == NUL;
    } else {
      assert (a + [NUL] + rest)[1..] == a[1..] + [NUL] + rest;
      CutAtNulTerminated(a[1..], rest);
    }
  }

  /** A NUL-free string is its own cut. */
  lemma {:induction false} CutAtNulFree(a: seq<byte>)
    requires NulFree(a)
    ensures CutAtNul(a) == a
  {
    if |a| > 0 {
      CutAtNulFree(a[1..]);
    }
  }

  /** A NUL placed after `a` ends any string read from the start of `a`. */
  lemma {:induction false} CutAtNulBeforeTerminator(a: seq<byte>, rest: seq<byte>)
    ensures CutAtNul(a + [NUL] + rest) == CutAtNul(a)
  {
    if |a| > 0 && a[0] != NUL {
      assert (a + [NUL] + rest)[1..] == a[1..] + [NUL] + rest;
      CutAtNulBeforeTerminator(a[1..], rest);
    } else if |a| == 0 {
      assert (a + [NUL] + rest)[0] == NUL;
    } else {
      assert (a + [NUL] + rest)[0] == NUL;
    }
  }

  /** `n` zero bytes. */
  function Zeros(n: nat): (r: seq<byte>)
    ensures |r| == n
    ensures forall i :: 0 <= i < n ==> r[i] == NUL
  {
    seq(n, _ => NUL)
  }

  /** Bytes `s` padded with zeros, or cut, to exactly `n` bytes. */
  function PadTo(s: seq<byte>, n: nat): (r: seq<byte>)
    ensures |r| == n
    ensures |s| <= n ==> r == s + Zeros(n - |s|)
    ensures n <= |s| ==> r == s[..n]
  {
    if |s| <= n then s + Zeros(n - |s|) else s[..n]
  }

  /** C's strncpy(dst, src, n): the first n bytes become src followed by
      NULs; bytes from n on are left as they were. */
  function Strncpy(dst: seq<byte>, src: seq<byte>, n: nat): (r: seq<byte>)
    requires n <= |dst| && NulFree(src)
    ensures |r| == |dst| && r[n..] == dst[n..]
    ensures forall i :: 0 <= i < n ==> r[i] == if i < |src| then src[i] else NUL
  {
    seq(|dst|, i requires 0 <= i < |dst| => if i < n then (if i < |src| then src[i] else NUL) else dst[i])
  }

  /** A string shorter than the copy bound reads back whole. */
  lemma StrncpyReadsBack(dst: seq<byte>, src: seq<byte>, n: nat)
    requires n <= |dst| && NulFree(src) && |src| < n
    ensures CutAtNul(Strncpy(dst, src, n)) == src
  {
    var r := Strncpy(dst, src, n);
    assert r == src + [NUL] + r[|src| + 1..];
    CutAtNulTerminated(src, r[|src| + 1..]);
  }

  /** The bounded-copy idiom `strncpy(field, src, sizeof field - 1)` followed
      by a NUL in the field's last byte: the field then holds the longest
      prefix of `src` that leaves room for the terminator. */
  function CopyCString(field: seq<byte>, src: seq<byte>): (r: seq<byte>)
    requires |field| > 0 && NulFree(src)
    ensures |r| == |field| && r[|r| - 1] == NUL
    ensures |src| < |field| ==> CutAtNul(r) == src
    ensures |src| >= |field| ==> CutAtNul(r) == src[..|field| - 1]
  {
    var n := |field| - 1;
    var r := Strncpy(field, src, n)[n := NUL];
    if |src| < n then
      assert r == src + [NUL] + r[|src| + 1..];
      CutAtNulTerminated(src, r[|src| + 1..]);
      r
    else
      assert r == src[..n] + [NUL] + [];
      CutAtNulTerminated(src[..n], []);
      r
  }

  /** A NUL-free string zero-padded to a field it fits reads back whole. */
  lemma CutAtNulPadded(a: seq<byte>, n: nat)
    requires NulFree(a) && |a| <= n
    ensures CutAtNul(PadTo(a, n)) == a
  {
    if |a| < n {
      assert PadTo(a, n) == a + [NUL] + Zeros(n - |a| - 1);
      CutAtNulTerminated(a, Zeros(n - |a| - 1));
    } else {
      assert PadTo(a, n) == a;
      CutAtNulFree(a);
    }
  }

  // ---- little-endian fields -------------------------------------------------

  function DecodeU16LE(b: seq<byte>): (v: int)
    requires |b| == 2
    ensures 0 <= v < 0x1_0000
  {
    (b[0] as int) + 256 * (b[1] as int)
  }

  function EncodeU16LE(v: int): (b: seq<byte>)
    requires 0 <= v < 0x1_0000
    ensures |b| == 2 && DecodeU16LE(b) == v
  {
    [v % 256, v / 256]
  }

  /** Two's-complement reading of two little-endian bytes. */
  function DecodeI16LE(b: seq<byte>): (v: int)
    requires |b| == 2
    ensures -0x8000 <= v < 0x8000
    ensures v >= 0 <==> b[1] < 0x80
  {
    var u := DecodeU16LE(b);
    if u >= 0x8000 then u - 0x1_0000 else u
  }

  function EncodeI16LE(v: int): (b: seq<byte>)
    requires -0x8000 <= v < 0x8000
    ensures |b| == 2 && DecodeI16LE(b) == v
  {
    EncodeU16LE(if v < 0 then v + 0x1_0000 else v)
  }

  function DecodeU32LE(b: seq<byte>): (v: int)
    requires |b| == 4
    ensures 0 <= v < 0x1_0000_0000
  {
    (b[0] as int) + 0x100 * (b[1] as int) + 0x1_0000 * (b[2] as int) + 0x100_0000 * (b[3] as int)
  }

  function EncodeU32LE(v: int): (b: seq<byte>)
    requires 0 <= v < 0x1_0000_0000
    ensures |b| == 4 && DecodeU32LE(b) == v
  {
    var q1 := v / 0x100;
    var q2 := q1 / 0x100;
    var q3 := q2 / 0x100;
    [v % 0x100, q1 % 0x100, q2 % 0x100, q3]
  }

  /** Two's-complement reading of four little-endian bytes. */
  function DecodeI32LE(b: seq<byte>): (v: int)
    requires |b| == 4
    ensures -0x8000_0000 <= v < 0x8000_0000
  {
    var u := DecodeU32LE(b);
    if u >= 0x8000_0000 then u - 0x1_0000_0000 else u
  }

  function EncodeI32LE(v: int): (b: seq<byte>)
    requires -0x8000_0000 <= v < 0x8000_0000
    ensures |b| == 4 && DecodeI32LE(b) == v
  {
    EncodeU32LE(if v < 0 then v + 0x1_0000_0000 else v)
  }

  /** Every 2-byte field is the encoding of what it decodes to. */
  lemma U16LEOfDecode(b: seq<byte>)
    requires |b| == 2
    ensures EncodeU16LE(DecodeU16LE(b)) == b
  {
  }

  /** Every 2-byte field is the encoding of its two's-complement reading. */
  lemma I16LEOfDecode(b: seq<byte>)
    requires |b| == 2
    ensures EncodeI16LE(DecodeI16LE(b)) == b
  {
  }

  /** Two's-complement reading of one byte (C's `int8_t`). */
  function AsInt8(b: byte): (v: int)
    ensures -0x80 <= v < 0x80
    ensures v > 0 <==> 0 < b < 0x80
  {
    if b >= 0x80 then b - 0x100 else b
  }
}

/** esp_err_t values used by the firmware (ESP-IDF numbering). */
module EspErr {
  const OK: int := 0
  const FAIL: int := -1
  const ERR_NO_MEM: int := 0x101
  const ERR_INVALID_ARG: int := 0x102
  const ERR_INVALID_STATE: int := 0x103
  const ERR_NOT_FOUND: int := 0x105
  const ERR_NOT_FINISHED: int := 0x10C
}

=== FILE: host_buzzer.dfy ===
/** The host's buzzer profile writer: every (note, length) entry becomes one
    8-byte record, the note's frequency in hertz and the length in
    milliseconds, each uint32 little-endian, written in order to the buzzer
    device. */
module HostBuzzer {
  import opened Bytes
  import opened Wrappers

  const RECORD_SIZE: nat := 8

  /** A frequency in hertz; every one fits the uint32 field. */
  type Hz = f: nat | f < 0x1_0000_0000

  /** The note table: F#3 up to D#8, and REST. */
  const NOTES: map<string, Hz> := map[
    "FS3" := 185, "G3" := 196, "GS3" := 208, "A3" := 220, "AS3" := 233, "B3" := 247,
    "C4" := 262, "CS4" := 277, "D4" := 294, "DS4" := 311, "E4" := 330, "F4" := 349,
    "FS4" := 370, "G4" := 392, "GS4" := 415, "A4" := 440, "AS4" := 466, "B4" := 494,
    "C5" := 523, "CS5" := 554, "D5" := 587, "DS5" := 622, "E5" := 659, "F5" := 698,
    "FS5" := 740, "G5" := 784, "GS5" := 831, "A5" := 880, "AS5" := 932, "B5" := 988,
    "C6" := 1047, "CS6" := 1109, "D6" := 1175, "DS6" := 1245, "E6" := 1319, "F6" := 1397,
    "FS6" := 1480, "G6" := 1568, "GS6" := 1661, "A6" := 1760, "AS6" := 1865, "B6" := 1976,
    "C7" := 2093, "CS7" := 2217, "D7" := 2349, "DS7" := 2489, "E7" := 2637, "F7" := 2794,
    "FS7" := 2960, "G7" := 3136, "GS7" := 3322, "A7" := 3520, "AS7" := 3729, "B7" := 3951,
    "C8" := 4186, "CS8" := 4435, "D8" := 4699, "DS8" := 4978, "REST" := 0
  ]

  /** `notes?.[note] ?? 0`: the table's frequency, 0 for any other name. */
  function Freq(note: string): Hz {
    if note in NOTES then NOTES[note] else 0
  }

  /** REST sounds nothing; D#8, the highest note, is 4978 Hz. */
  lemma TableScenarios()
    ensures Freq("REST") == 0
    ensures Freq("DS8") == 4978
  {
  }

  datatype Entry = Entry(note: string, length: int)

  /** One entry's record: frequency then length, uint32 little-endian. */
  function Record(e: Entry): (rec: seq<byte>)
    requires 0 <= e.length < 0x1_0000_0000
    ensures |rec| == RECORD_SIZE
    ensures rec[..4] == EncodeU32LE(Freq(e.note)) && rec[4..] == EncodeU32LE(e.length)
  {
    var rec := EncodeU32LE(Freq(e.note)) + EncodeU32LE(e.length);
    assert rec[..4] == EncodeU32LE(Freq(e.note)) && rec[4..] == EncodeU32LE(e.length);
    rec
  }

  /** runProfile: one record per entry, in input order. A length outside the
      uint32 range makes the encoder throw before any record is written. */
  function RunProfile(profile: seq<Entry>): (r: Option<seq<seq<byte>>>)
    ensures r.Some? <==> forall i :: 0 <= i < |profile| ==> 0 <= profile[i].length < 0x1_0000_0000
    ensures r.Some? ==> |r.value| == |profile|
    ensures r.Some? ==> forall i :: 0 <= i < |profile| ==>
              |r.value[i]| == RECORD_SIZE
              && r.value[i][..4] == EncodeU32LE(if profile[i].note in NOTES then NOTES[profile[i].note] else 0)
              && r.value[i][4..] == EncodeU32LE(profile[i].length)
  {
    if forall i :: 0 <= i < |profile| ==> 0 <= profile[i].length < 0x1_0000_0000 then
      Some(seq(|profile|, i requires 0 <= i < |profile| => Record(profile[i])))
    else None
  }

  /** A record's own reading: frequency and length. */
  function DecodeRecord(rec: seq<byte>): (e: (nat, nat))
    requires |rec| == RECORD_SIZE
    ensures e.0 < 0x1_0000_0000 && e.1 < 0x1_0000_0000
  {
    (DecodeU32LE(rec[..4]), DecodeU32LE(rec[4..]))
  }

  /** Reading the written records back gives, entry by entry, the note's
      frequency and the length. */
  lemma ProfileRoundTrip(profile: seq<Entry>)
    requires RunProfile(profile).Some?
    ensures forall i :: 0 <= i < |profile| ==>
              DecodeRecord(RunProfile(profile).value[i]) == (Freq(profile[i].note), profile[i].length)
  {
    forall i | 0 <= i < |profile|
      ensures DecodeRecord(RunProfile(profile).value[i]) == (Freq(profile[i].note), profile[i].length)
    {
      var rec := RunProfile(profile).value[i];
      assert rec[..4] == EncodeU32LE(Freq(profile[i].note));
      assert rec[4..] == EncodeU32LE(profile[i].length);
    }
  }
}

=== FILE: host_firmware.dfy ===
/** The host's firmware-info reader: a read of register 0x30 and the split
    of the 64-byte block into version, build date and build time. Bytes are
    decoded as UTF-8 after the cut; the model keeps them as bytes. */
module HostFirmware {
  import opened Bytes
  import opened Wrappers
  import I2cSlave

  const INFO_REGISTER: byte := 0x30
  const BLOCK_SIZE: nat := 64

  datatype Info = Info(version: seq<byte>, buildDate: seq<byte>, buildTime: seq<byte>)

  /** Node's `buf.toString(enc, start, end)` range: bounds past the end of
      the buffer are clamped to it. */
  function Window(b: seq<byte>, start: nat, end: nat): (w: seq<byte>)
    requires start <= end
    ensures end <= |b| ==> w == b[start..end]
    ensures |w| <= end - start
  {
    if |b| <= start then [] else if |b| <= end then b[start..] else b[start..end]
  }

  /** getInfo's split: each field is its window cut at the first NUL, the
      time window running to the end of the buffer. */
  function GetInfo(b: seq<byte>): (r: Info)
    ensures r.version == CutAtNul(Window(b, 0, 32))
    ensures r.buildDate == CutAtNul(Window(b, 32, 48))
    ensures |b| >= 48 ==> r.buildTime == CutAtNul(b[48..])
    ensures |r.version| <= 32 && |r.buildDate| <= 16
    ensures NulFree(r.version) && NulFree(r.buildDate) && NulFree(r.buildTime)
  {
    Info(CutAtNul(Window(b, 0, 32)), CutAtNul(Window(b, 32, 48)), CutAtNul(Window(b, 48, if |b| < 48 then 48 else |b|)))
  }

  /** A version or date that fills its whole window without a NUL is
      returned whole, and the next window's bytes never join it. */
  lemma FullWindowDoesNotSpill(b: seq<byte>)
    requires |b| == BLOCK_SIZE
    requires NulFree(b[0..32]) && NulFree(b[32..48])
    ensures GetInfo(b).version == b[0..32]
    ensures GetInfo(b).buildDate == b[32..48]
  {
    CutAtNulFree(b[0..32]);
    CutAtNulFree(b[32..48]);
  }

  /** The block the firmware prepares for these strings. */
  function BlockOf(version: seq<byte>, date: seq<byte>, time: seq<byte>): (info: I2cSlave.FirmwareInfo)
    requires |version| <= 32 && |date| <= 16 && |time| <= 16
    ensures I2cSlave.ValidInfo(info)
  {
    I2cSlave.FirmwareInfo(PadTo(version, 32), PadTo(date, 16), PadTo(time, 16))
  }

  /** Decoding the firmware's 64-byte block gives back NUL-free strings of
      at most 32, 16 and 16 bytes unchanged. */
  lemma InfoRoundTrip(version: seq<byte>, date: seq<byte>, time: seq<byte>)
    requires NulFree(version) && NulFree(date) && NulFree(time)
    requires |version| <= 32 && |date| <= 16 && |time| <= 16
    ensures GetInfo(I2cSlave.FirmwareBlock(BlockOf(version, date, time))) == Info(version, date, time)
  {
    var b := I2cSlave.FirmwareBlock(BlockOf(version, date, time));
    CutAtNulPadded(version, 32);
    CutAtNulPadded(date, 16);
    CutAtNulPadded(time, 16);
    assert b[48..] == b[48..64];
  }

  // ---- the read itself ---------------------------------------------------------------

  /** readRegister's receive buffer: `Buffer.alloc(length)` throws unless
      `length` is a non-negative number; a zero-filled buffer of that size is
      then filled with the bytes the device sends. */
  function ReadRegister(length: Option<int>, sent: seq<byte>): (r: Option<seq<byte>>)
    ensures r.Some? <==> length.Some? && length.value >= 0
    ensures r.Some? ==> |r.value| == length.value
    ensures r.Some? && |sent| >= length.value ==> r.value == sent[..length.value]
  {
    if length.None? || length.value < 0 then None
    else Some(PadTo(sent, length.value))
  }

  /** getInfo as written calls readRegister(0x30) without a length. */
  function GetInfoAsWritten(sent: seq<byte>): Option<Info> {
    match ReadRegister(None, sent)
    case Some(b) => Some(GetInfo(b))
    case None => None
  }

  /** Whatever the device would send, getInfo as written throws before the
      bus is read. */
  lemma GetInfoAlwaysThrows(sent: seq<byte>)
    ensures GetInfoAsWritten(sent) == None
  {
  }

  /** getInfo reading the 64-byte block. */
  function GetInfoFixed(sent: seq<byte>): (r: Option<Info>)
    ensures r.Some?
    ensures |sent| >= BLOCK_SIZE ==> r.value == GetInfo(sent[..BLOCK_SIZE])
  {
    match ReadRegister(Some(BLOCK_SIZE), sent)
    case Some(b) => Some(GetInfo(b))
    case None => None
  }

  /** With the length supplied, a device sending the firmware's block yields
      the strings the firmware was built with. */
  lemma FixedReadRoundTrip(version: seq<byte>, date: seq<byte>, time: seq<byte>)
    requires NulFree(version) && NulFree(date) && NulFree(time)
    requires |version| <= 32 && |date| <= 16 && |time| <= 16
    ensures GetInfoFixed(I2cSlave.FirmwareBlock(BlockOf(version, date, time))) == Some(Info(version, date, time))
  {
    var b := I2cSlave.FirmwareBlock(BlockOf(version, date, time));
    assert b[..BLOCK_SIZE] == b;
    InfoRoundTrip(version, date, time);
  }
}

=== FILE: host_motor.dfy ===
/** The host's motor payload encoders. They address register 0x10 with a
    sub-command byte and 4-byte records, a layout the firmware's register
    map does not have; the lemmas at the end state what the firmware does
    with these writes instead. */
module HostMotor {
  import opened Bytes
  import opened Wrappers
  import I2cSlave

  const MAX_MOVES: nat := 16
  const MOTOR_REGISTER: byte := 0x10
  const CMD_STOP: byte := 0x00
  const CMD_FREE_RUN: byte := 0x01
  const CMD_PROFILE: byte := 0x02

  datatype ProfileStep = ProfileStep(steps: int, delay: int)

  /** Node's writeInt16LE / writeUInt16LE accept exactly these ranges and
      throw otherwise. */
  predicate InRange(s: ProfileStep) {
    -0x8000 <= s.steps < 0x8000 && 0 <= s.delay < 0x1_0000
  }

  /** The 4-byte record of one step. */
  function EncodeStep(s: ProfileStep): (b: seq<byte>)
    requires InRange(s)
    ensures |b| == 4
    ensures DecodeI16LE(b[..2]) == s.steps && DecodeU16LE(b[2..]) == s.delay
  {
    var b := EncodeI16LE(s.steps) + EncodeU16LE(s.delay);
    assert b[..2] == EncodeI16LE(s.steps) && b[2..] == EncodeU16LE(s.delay);
    b
  }

  function Min(a: nat, b: nat): nat {
    if a < b then a else b
  }

  function EncodeSteps(profile: seq<ProfileStep>): (b: seq<byte>)
    requires forall i :: 0 <= i < |profile| ==> InRange(profile[i])
    ensures |b| == 4 * |profile|
    ensures forall i :: 0 <= i < |profile| ==>
              b[4 * i..4 * i + 4] == EncodeStep(profile[i])
  {
    if |profile| == 0 then []
    else
      assert InRange(profile[0]);
      var head := EncodeStep(profile[0]);
      var tail := EncodeSteps(profile[1..]);
      var b := head + tail;
      assert forall i :: 1 <= i < |profile| ==> b[4 * i..4 * i + 4] == tail[4 * (i - 1)..4 * (i - 1) + 4];
      b
  }

  /** runProfile: the first 16 steps, each int16-LE steps then uint16-LE
      delay, after [0x10, 0x02]. A step out of range among those 16 makes the
      encoder throw before anything is written. */
  function RunProfile(profile: seq<ProfileStep>): (r: Option<seq<byte>>)
    ensures r.Some? <==> forall i :: 0 <= i < Min(|profile|, MAX_MOVES) ==> InRange(profile[i])
    ensures r.Some? ==>
              && |r.value| == 2 + 4 * Min(|profile|, MAX_MOVES)
              && r.value[..2] == [MOTOR_REGISTER, CMD_PROFILE]
              && forall i :: 0 <= i < Min(|profile|, MAX_MOVES) ==>
                   r.value[2 + 4 * i..2 + 4 * i + 4] == EncodeStep(profile[i])
  {
    var used := profile[..Min(|profile|, MAX_MOVES)];
    if forall i :: 0 <= i < |used| ==> InRange(used[i]) then
      PrefixedRecords([MOTOR_REGISTER, CMD_PROFILE], used);
      Some([MOTOR_REGISTER, CMD_PROFILE] + EncodeSteps(used))
    else None
  }

  /** Behind a 2-byte header, record i sits at offset 2 + 4 * i. */
  lemma PrefixedRecords(header: seq<byte>, profile: seq<ProfileStep>)
    requires |header| == 2
    requires forall i :: 0 <= i < |profile| ==> InRange(profile[i])
    ensures forall i :: 0 <= i < |profile| ==>
              (header + EncodeSteps(profile))[2 + 4 * i..2 + 4 * i + 4] == EncodeStep(profile[i])
  {
    var body := EncodeSteps(profile);
    RecordsBehindHeader(header, body, profile);
  }

  lemma RecordsBehindHeader(header: seq<byte>, body: seq<byte>, profile: seq<ProfileStep>)
    requires |header| == 2 && |body| == 4 * |profile|
    requires forall i :: 0 <= i < |profile| ==> InRange(profile[i])
    requires forall i :: 0 <= i < |profile| ==> body[4 * i..4 * i + 4] == EncodeStep(profile[i])
    ensures forall i :: 0 <= i < |profile| ==> (header + body)[2 + 4 * i..2 + 4 * i + 4] == EncodeStep(profile[i])
  {
    forall i | 0 <= i < |profile|
      ensures (header + body)[2 + 4 * i..2 + 4 * i + 4] == EncodeStep(profile[i])
    {
      SliceOfConcat(header, body, 4 * i, 4 * i + 4);
    }
  }

  lemma SliceOfConcat<T>(h: seq<T>, body: seq<T>, lo: nat, hi: nat)
    requires lo <= hi <= |body|
    ensures (h + body)[|h| + lo..|h| + hi] == body[lo..hi]
  {
    forall j | 0 <= j < hi - lo ensures (h + body)[|h| + lo..|h| + hi][j] == body[lo..hi][j] {
      assert (h + body)[|h| + lo + j] == body[lo + j];
    }
  }

  lemma SliceOfSlice<T>(b: seq<T>, a: nat, c: nat, lo: nat, hi: nat)
    requires a <= c <= |b| && lo <= hi <= c - a
    ensures b[a..c][lo..hi] == b[a + lo..a + hi]
  {
    forall j | 0 <= j < hi - lo ensures b[a..c][lo..hi][j] == b[a + lo..a + hi][j] {
      assert b[a..c][lo + j] == b[a + lo + j];
    }
  }

  /** Reading the records back: the host format's own decoder. */
  function DecodeSteps(b: seq<byte>): (profile: seq<ProfileStep>)
    requires |b| % 4 == 0
    ensures |profile| == |b| / 4
    ensures forall i :: 0 <= i < |profile| ==> InRange(profile[i])
  {
    seq(|b| / 4, i requires 0 <= i < |b| / 4 => ProfileStep(DecodeI16LE(b[4 * i..4 * i + 2]), DecodeU16LE(b[4 * i + 2..4 * i + 4])))
  }

  /** The encoded records give back the first 16 steps. */
  lemma RunProfileRoundTrip(profile: seq<ProfileStep>)
    requires RunProfile(profile).Some?
    ensures var b := RunProfile(profile).value;
            |b[2..]| % 4 == 0 && DecodeSteps(b[2..]) == profile[..Min(|profile|, MAX_MOVES)]
  {
    var used := profile[..Min(|profile|, MAX_MOVES)];
    DecodeBehindHeader(RunProfile(profile).value, used);
  }

  /** Records written behind a 2-byte header decode back to their steps. */
  lemma DecodeBehindHeader(b: seq<byte>, used: seq<ProfileStep>)
    requires |b| == 2 + 4 * |used|
    requires forall i :: 0 <= i < |used| ==> InRange(used[i])
    requires forall i :: 0 <= i < |used| ==> b[2 + 4 * i..2 + 4 * i + 4] == EncodeStep(used[i])
    ensures |b[2..]| % 4 == 0 && DecodeSteps(b[2..]) == used
  {
    forall i | 0 <= i < |used|
      ensures DecodeSteps(b[2..])[i] == used[i]
    {
      var rec := b[2 + 4 * i..2 + 4 * i + 4];
      assert rec == EncodeStep(used[i]);
      SliceOfSlice(b, 2, |b|, 4 * i, 4 * i + 2);
      SliceOfSlice(b, 2, |b|, 4 * i + 2, 4 * i + 4);
      SliceOfSlice(b, 2 + 4 * i, 2 + 4 * i + 4, 0, 2);
      SliceOfSlice(b, 2 + 4 * i, 2 + 4 * i + 4, 2, 4);
      assert b[2..][4 * i..4 * i + 2] == rec[..2];
      assert b[2..][4 * i + 2..4 * i + 4] == rec[2..];
    }
  }

  /** freeRun: [0x10, 0x01, 0x01] for a positive direction, else
      [0x10, 0x01, 0xFF]. */
  function FreeRun(dir: int): (b: seq<byte>)
    ensures |b| == 3 && b[..2] == [MOTOR_REGISTER, CMD_FREE_RUN]
    ensures AsInt8(b[2]) > 0 <==> dir > 0
  {
    [MOTOR_REGISTER, CMD_FREE_RUN, if dir > 0 then 0x01 else 0xFF]
  }

  /** stop: [0x10, 0x00]. */
  function Stop(): (b: seq<byte>)
    ensures |b| == 2 && b[0] == MOTOR_REGISTER && b[1] == NUL
  {
    [MOTOR_REGISTER, CMD_STOP]
  }

  // ---- what the firmware makes of these writes ----------------------------------------

  /** The receive buffer holding `w` at its start. */
  predicate Received(rx: seq<byte>, w: seq<byte>) {
    I2cSlave.ValidRx(rx, |w|) && rx[..|w|] == w
  }

  /** A free-run write reaches the firmware's URL register and stores the
      two bytes after the register as the update URL. */
  lemma FreeRunSetsUrl(dir: int, rx: seq<byte>)
    requires Received(rx, FreeRun(dir))
    ensures I2cSlave.DecodeWrite(rx, 3) == I2cSlave.SetUrl(FreeRun(dir)[1..])
  {
    var w := FreeRun(dir);
    assert rx[1..3] == w[1..];
    CutAtNulFree(w[1..]);
  }

  /** A stop write is an empty URL, which the update component refuses. */
  lemma StopSetsEmptyUrl(rx: seq<byte>)
    requires Received(rx, Stop())
    ensures I2cSlave.DecodeWrite(rx, 2) == I2cSlave.SetUrl([])
  {
    assert rx[1..2] == [NUL];
  }

  /** No profile write that fits the receive buffer reaches the motor: the
      firmware reads it as a URL. Its length is 2 + 4k, never the full 64
      bytes, so the terminator store stays inside the buffer. */
  lemma ProfileNeverSubmits(profile: seq<ProfileStep>, rx: seq<byte>)
    requires RunProfile(profile).Some? && Received(rx, RunProfile(profile).value)
    ensures var c := I2cSlave.DecodeWrite(rx, |RunProfile(profile).value|);
            c.SetUrl? && c.url == CutAtNul(rx[1..|RunProfile(profile).value|])
  {
    var w := RunProfile(profile).value;
    assert rx[0] == w[0] == MOTOR_REGISTER;
    assert |w| == 2 + 4 * Min(|profile|, MAX_MOVES);
    assert |w| != I2cSlave.BUF_SIZE;
  }

  /** Only profiles of up to 15 steps fit: 16 steps make a 66-byte write,
      longer than the firmware's 64-byte receive buffer. */
  lemma FullProfileOverlong(profile: seq<ProfileStep>)
    requires RunProfile(profile).Some?
    ensures |RunProfile(profile).value| <= I2cSlave.BUF_SIZE <==> |profile| <= 15
  {
  }
}

=== FILE: host_ota.dfy ===
/** The host's OTA URL write, shared by the `setUrl` tool and the `otaURL`
    default export: a URL matching `^http[s]?:[/][/]\S+$` (ignoring case)
    is sent after the bytes 0x11, 0x00. */
module HostOta {
  import opened Bytes
  import opened Wrappers
  import I2cSlave

  const URL_REGISTER: byte := 0x11
  const URL_COMMAND: byte := 0x00

  /** ECMAScript white space and line terminators, the characters `\s`
      matches and `\S` does not. */
  predicate IsJsSpace(c: char) {
    || c == '\t' || c == '\n' || c == '\U{000B}' || c == '\U{000C}' || c == '\r' || c == ' '
    || c == '\U{00A0}' || c == '\U{1680}' || ('\U{2000}' <= c <= '\U{200A}')
    || c == '\U{2028}' || c == '\U{2029}' || c == '\U{202F}' || c == '\U{205F}'
    || c == '\U{3000}' || c == '\U{FEFF}'
  }

  /** ASCII lower-casing; under the `i` flag without `u`, a letter matches
      only its own ASCII case variants. */
  function Lower(c: char): char {
    if 'A' <= c <= 'Z' then (c as int + 32) as char else c
  }

  /** A character class of the pattern. */
  datatype Class = Ci(lower: char) | Exact(ch: char) | NonSpace

  predicate InClass(k: Class, c: char) {
    match k
    case Ci(l) => Lower(c) == l
    case Exact(e) => c == e
    case NonSpace => !IsJsSpace(c)
  }

  /** A pattern element: one character, an optional one, or one or more. */
  datatype Term = One(k: Class) | Optional(k: Class) | Plus(k: Class)

  /** Full (anchored) match of `u` against a sequence of terms, trying
      every way to split the input as a backtracking matcher does. */
  predicate Match(p: seq<Term>, u: string)
    decreases |u|, |p|
  {
    if |p| == 0 then |u| == 0
    else match p[0]
      case One(k) => |u| > 0 && InClass(k, u[0]) && Match(p[1..], u[1..])
      case Optional(k) => (|u| > 0 && InClass(k, u[0]) && Match(p[1..], u[1..])) || Match(p[1..], u)
      case Plus(k) => |u| > 0 && InClass(k, u[0]) && (Match(p[1..], u[1..]) || Match(p, u[1..]))
  }

  /** `^http[s]?:[/][/]\S+$` */
  const URL_PATTERN: seq<Term> := [
    One(Ci('h')), One(Ci('t')), One(Ci('t')), One(Ci('p')), Optional(Ci('s')),
    One(Exact(':')), One(Exact('/')), One(Exact('/')), Plus(NonSpace)
  ]

  predicate NoSpace(s: string) {
    forall i :: 0 <= i < |s| ==> !IsJsSpace(s[i])
  }

  /** `u` starts with `scheme` ignoring ASCII case (`scheme` is lower case)
      and continues with at least one character, none of them white space. */
  predicate HasScheme(u: string, scheme: string) {
    && |u| > |scheme|
    && (forall i :: 0 <= i < |scheme| ==> Lower(u[i]) == scheme[i])
    && NoSpace(u[|scheme|..])
  }

  /** The URLs the tools accept, stated plainly. */
  predicate IsHttpUrl(u: string) {
    HasScheme(u, "http://") || HasScheme(u, "https://")
  }

  /** `\S+$` matches exactly the non-empty strings without white space. */
  lemma {:induction false} PlusNonSpace(u: string)
    ensures Match([Plus(NonSpace)], u) <==> |u| > 0 && NoSpace(u)
    decreases |u|
  {
    if |u| > 0 {
      PlusNonSpace(u[1..]);
      assert Match([Plus(NonSpace)][1..], u[1..]) <==> |u| == 1;
      if NoSpace(u) {
        assert NoSpace(u[1..]) by {
          forall i | 0 <= i < |u[1..]| ensures !IsJsSpace(u[1..][i]) {
            assert u[1..][i] == u[i + 1];
          }
        }
      }
      if !IsJsSpace(u[0]) && NoSpace(u[1..]) {
        forall i | 0 <= i < |u| ensures !IsJsSpace(u[i]) {
          if i > 0 {
            assert u[i] == u[1..][i - 1];
          }
        }
      }
    }
  }

  /** One unfolding of a `One` term. */
  lemma MatchOne(p: seq<Term>, u: string)
    requires |p| > 0 && p[0].One?
    ensures Match(p, u) <==> |u| > 0 && InClass(p[0].k, u[0]) && Match(p[1..], u[1..])
  {
  }

  /** After the optional `s`: `://` and one or more non-space characters. */
  lemma SchemeTail(w: string)
    ensures Match(URL_PATTERN[5..], w) <==>
              |w| > 3 && w[0] == ':' && w[1] == '/' && w[2] == '/' && NoSpace(w[3..])
  {
    var p := URL_PATTERN[5..];
    MatchOne(p, w);
    if |w| >= 1 {
      MatchOne(p[1..], w[1..]);
    }
    if |w| >= 2 {
      MatchOne(p[1..][1..], w[1..][1..]);
    }
    assert p[1..][1..][1..] == [Plus(NonSpace)];
    if |w| >= 3 {
      assert w[1..][1..][1..] == w[3..];
      PlusNonSpace(w[3..]);
    }
  }

  /** From the optional `s` on. */
  lemma OptionalS(v: string)
    ensures Match(URL_PATTERN[4..], v) <==>
              || (|v| > 0 && Lower(v[0]) == 's' && Match(URL_PATTERN[5..], v[1..]))
              || Match(URL_PATTERN[5..], v)
  {
    assert URL_PATTERN[4..][1..] == URL_PATTERN[5..];
  }

  /** The leading `http`, ignoring case. */
  lemma HttpPrefix(u: string)
    ensures Match(URL_PATTERN, u) <==>
              && |u| >= 4
              && Lower(u[0]) == 'h' && Lower(u[1]) == 't' && Lower(u[2]) == 't' && Lower(u[3]) == 'p'
              && Match(URL_PATTERN[4..], u[4..])
  {
    var p := URL_PATTERN;
    MatchOne(p, u);
    if |u| >= 1 {
      MatchOne(p[1..], u[1..]);
    }
    if |u| >= 2 {
      MatchOne(p[1..][1..], u[1..][1..]);
    }
    if |u| >= 3 {
      MatchOne(p[1..][1..][1..], u[1..][1..][1..]);
    }
    assert p[1..][1..][1..][1..] == p[4..];
    if |u| >= 4 {
      assert u[1..][1..][1..][1..] == u[4..];
    }
  }

  /** `c` lower-cases to a punctuation character only if it is that character. */
  lemma LowerPunct(c: char, e: char)
    requires e == ':' || e == '/'
    ensures Lower(c) == e <==> c == e
  {
  }

  /** The pattern accepts exactly the http:// and https:// URLs. */
  lemma UrlPatternIsHttpUrl(u: string)
    ensures Match(URL_PATTERN, u) <==> IsHttpUrl(u)
  {
    HttpPrefix(u);
    if |u| >= 4 {
      var v := u[4..];
      OptionalS(v);
      SchemeTail(v);
      if |v| >= 1 {
        SchemeTail(v[1..]);
      }
      if |u| > 7 {
        assert v[3..] == u[7..];
        LowerPunct(u[4], ':');
        LowerPunct(u[5], '/');
        LowerPunct(u[6], '/');
      }
      if |u| > 8 {
        assert v[1..][3..] == u[8..];
        LowerPunct(u[5], ':');
        LowerPunct(u[6], '/');
        LowerPunct(u[7], '/');
      }
    }
  }

  /** setUrl / otaURL: an empty or non-matching URL is refused with no
      write; otherwise 0x11, 0x00 and the URL's UTF-8 bytes (`utf8`, the
      encoder) are written. */
  function SetUrl(url: string, utf8: string -> seq<byte>): (r: Option<seq<byte>>)
    ensures r.Some? <==> IsHttpUrl(url)
    ensures r.Some? ==> r.value == [URL_REGISTER, URL_COMMAND] + utf8(url) && |r.value| == 2 + |utf8(url)|
  {
    UrlPatternIsHttpUrl(url);
    if |url| == 0 || !Match(URL_PATTERN, url) then None
    else Some([URL_REGISTER, URL_COMMAND] + utf8(url))
  }

  /** The empty string is refused. */
  lemma EmptyUrlRefused(utf8: string -> seq<byte>)
    ensures SetUrl("", utf8) == None
  {
  }

  /** Scenario: the scheme is matched ignoring case. */
  lemma UpperCaseSchemeAccepted(utf8: string -> seq<byte>)
    ensures SetUrl("HTTPS://h/fw.bin", utf8).Some?
  {
    assert HasScheme("HTTPS://h/fw.bin", "https://");
  }

  /** Scenario: white space after the scheme is refused. */
  lemma SpaceRefused()
    ensures !IsHttpUrl("http://a b")
  {
    var u := "http://a b";
    assert u[7..][1] == ' ';
    assert u[8..][0] == ' ';
  }

  /** The firmware's register 0x11 is the update trigger: this write starts
      an OTA update instead of storing the URL. */
  lemma SetUrlTriggersUpdate(url: string, utf8: string -> seq<byte>, rx: seq<byte>)
    requires SetUrl(url, utf8).Some?
    requires var w := SetUrl(url, utf8).value;
             I2cSlave.ValidRx(rx, |w|) && rx[..|w|] == w
    ensures I2cSlave.DecodeWrite(rx, |SetUrl(url, utf8).value|) == I2cSlave.TriggerOta
  {
    assert rx[0] == rx[..|SetUrl(url, utf8).value|][0];
  }
}

=== FILE: host_wifi.dfy ===
/** The host's credentials write: register 0x40 carrying the SSID, a NUL,
    the password and a NUL. Strings are taken as their UTF-8 bytes. */
module HostWifi {
  import opened Bytes
  import opened Wrappers
  import I2cSlave
  import Wifi
  import EspErr

  const CREDENTIALS_REGISTER: byte := 0x40
  /** Longest payload the host sends: SSID, password and both NULs. */
  const MAX_PAYLOAD: nat := 63

  /** setCredentials: nothing is written for an empty SSID or when the
      payload would exceed 63 bytes; otherwise the register byte and
      `ssid NUL password NUL` go out in one write. */
  function SetCredentials(ssid: seq<byte>, password: seq<byte>): (r: Option<seq<byte>>)
    ensures r.Some? <==> |ssid| > 0 && |ssid| + |password| + 2 <= MAX_PAYLOAD
    ensures r.Some? ==>
              && |r.value| == 3 + |ssid| + |password| <= I2cSlave.BUF_SIZE
              && r.value[0] == CREDENTIALS_REGISTER
              && r.value[1..1 + |ssid|] == ssid && r.value[1 + |ssid|] == NUL
              && r.value[2 + |ssid|..|r.value| - 1] == password && r.value[|r.value| - 1] == NUL
  {
    if |ssid| == 0 then None
    else if |ssid| + |password| + 2 > MAX_PAYLOAD then None
    else Some([CREDENTIALS_REGISTER] + ssid + [NUL] + password + [NUL])
  }

  /** Whatever the receive buffer held beyond the write, the firmware's
      decoder recovers exactly the SSID and password the host sent. */
  lemma CredentialsRoundTrip(ssid: seq<byte>, password: seq<byte>, rx: seq<byte>)
    requires NulFree(ssid) && NulFree(password)
    requires SetCredentials(ssid, password).Some?
    requires var w := SetCredentials(ssid, password).value;
             |rx| == I2cSlave.BUF_SIZE && rx[..|w|] == w
    ensures var w := SetCredentials(ssid, password).value;
            I2cSlave.DecodeWrite(rx, |w|) == I2cSlave.SetCredentials(ssid, password)
  {
    var w := SetCredentials(ssid, password).value;
    var len := |w|;
    assert rx[1..len] == ssid + [NUL] + (password + [NUL]);
    CutAtNulTerminated(ssid, password + [NUL]);
    assert rx[2 + |ssid|..] == password + [NUL] + rx[len..];
    CutAtNulTerminated(password, rx[len..]);
  }

  /** What the host accepts and the Wi-Fi manager then stores: an SSID of up
      to 31 bytes is adopted as sent, a longer one (which still fits the
      host's 63-byte payload) is refused with ESP_ERR_INVALID_ARG. */
  lemma HostCredentialsStored(w: Wifi.Wifi, ssid: seq<byte>, password: seq<byte>, current: Wifi.StaConfig)
    requires NulFree(ssid) && NulFree(password) && Wifi.ValidConfig(current)
    requires SetCredentials(ssid, password).Some?
    ensures var r := Wifi.SetCredentials(w, Some(ssid), Some(password), current, EspErr.OK);
            && (r.err == EspErr.OK <==> |ssid| < Wifi.SSID_FIELD)
            && (r.err == EspErr.OK ==> CutAtNul(r.w.config.ssid) == ssid && CutAtNul(r.w.config.password) == password)
  {
  }
}

=== FILE: i2c_slave.dfy ===
/** The register protocol the device speaks as an I2C target. A bus write
    selects a register by its first byte and, when it carries a payload,
    acts on it; a bus read is answered in two transfers, first the length
    of the response and then its bytes. The driver's 64-byte receive buffer
    is part of each receive event: the bytes past the received length are
    whatever the buffer held before. */
module I2cSlave {
  import opened Bytes
  import opened Wrappers
  import opened MotorCommon
  import EspErr
  import Motor
  import Ota
  import Wifi

  const BUF_SIZE: nat := 64
  const DEVICE_ID: byte := 0xA5
  const INVALID_REGISTER: byte := 0xFF

  const REG_OTA_URL: byte := 0x10
  const REG_OTA_TRIGGER: byte := 0x11
  const REG_OTA_STATUS: byte := 0x12
  const REG_OTA_RESET_STATUS: byte := 0x13
  const REG_MOTOR_CONFIG: byte := 0x20
  const REG_MOTOR_STOP: byte := 0x21
  const REG_MOTOR_FREE_RUN: byte := 0x22
  const REG_MOTOR_PROFILE: byte := 0x23
  const REG_MOTOR_HOLD: byte := 0x24
  const REG_MOTOR_RELEASE: byte := 0x25
  const REG_MOTOR_RESET: byte := 0x26
  const REG_FIRMWARE_INFO: byte := 0x30
  const REG_WIFI_CREDENTIALS: byte := 0x40
  const REG_DEVICE_ID: byte := 0xF0
  const REG_DEVICE_RESTART: byte := 0xF1

  /** The motor-state read register is used by the handler but its number is
      declared nowhere; it is a parameter, required to differ from every
      declared register. */
  predicate Undeclared(reg: byte) {
    reg !in {REG_OTA_URL, REG_OTA_TRIGGER, REG_OTA_STATUS, REG_OTA_RESET_STATUS,
             REG_MOTOR_CONFIG, REG_MOTOR_STOP, REG_MOTOR_FREE_RUN, REG_MOTOR_PROFILE,
             REG_MOTOR_HOLD, REG_MOTOR_RELEASE, REG_MOTOR_RESET, REG_FIRMWARE_INFO,
             REG_WIFI_CREDENTIALS, REG_DEVICE_ID, REG_DEVICE_RESTART}
  }

  // ---- writes ---------------------------------------------------------------------

  /** What a write with a payload asks for. */
  datatype Command =
    | Restart
    | SetUrl(url: seq<byte>) | BadUrl | OverrunUrl
    | TriggerOta | ResetOtaStatus
    | ResetMotorQueue
    | SubmitMoves(moves: seq<Move>) | BadProfile
    | SetCredentials(ssid: seq<byte>, password: seq<byte>) | BadCredentials
    | UnknownWrite(reg: byte)

  /** A receive event: the driver's buffer and the number of bytes received
      into it. */
  predicate ValidRx(rx: seq<byte>, len: nat) {
    |rx| == BUF_SIZE && len <= BUF_SIZE
  }

  /** The outcome of the URL write's terminator store, as written. */
  datatype UrlWrite = UrlRejected | UrlAccepted(url: seq<byte>) | UrlOverrun

  /** The URL write as written: accepted when 0 < len - 1 < 64; the
      terminator goes to index len of the 64-byte buffer, which is past its
      end when len is 64. */
  function DecodeUrlAsWritten(rx: seq<byte>, len: nat): (r: UrlWrite)
    requires ValidRx(rx, len) && len >= 2
    ensures r.UrlOverrun? <==> len == BUF_SIZE
    ensures r.UrlAccepted? ==> r.url == CutAtNul(rx[1..len])
  {
    var urlLength := len - 1;
    if !(0 < urlLength < BUF_SIZE) then UrlRejected
    else if len >= |rx| then UrlOverrun
    else UrlAccepted(TerminatedUrl(rx, len))
  }

  /** The string read from index 1 after the terminator store at `len`. */
  function TerminatedUrl(rx: seq<byte>, len: nat): (url: seq<byte>)
    requires 1 <= len < |rx|
    ensures url == CutAtNul(rx[1..len])
  {
    var buf := rx[len := NUL];
    assert buf[1..] == rx[1..len] + [NUL] + rx[len + 1..];
    CutAtNulBeforeTerminator(rx[1..len], rx[len + 1..]);
    CutAtNul(buf[1..])
  }

  /** A URL write filling the whole buffer passes the length check and the
      terminator store then writes one byte past the buffer. */
  lemma UrlOverrunAtFullBuffer(rx: seq<byte>)
    requires |rx| == BUF_SIZE
    ensures DecodeUrlAsWritten(rx, BUF_SIZE) == UrlOverrun
  {
  }

  /** The URL write with the length check tightened so the terminator stays
      inside the buffer: a URL of 1..62 bytes. */
  function DecodeUrl(rx: seq<byte>, len: nat): (r: UrlWrite)
    requires ValidRx(rx, len) && len >= 2
    ensures !r.UrlOverrun?
    ensures r.UrlAccepted? <==> len < BUF_SIZE
    ensures r.UrlAccepted? ==> r.url == CutAtNul(rx[1..len])
  {
    if len < BUF_SIZE then UrlAccepted(TerminatedUrl(rx, len)) else UrlRejected
  }

  /** The tightened check agrees with the written one everywhere except the
      one length whose terminator falls outside the buffer. */
  lemma DecodeUrlAgreesBelowFull(rx: seq<byte>, len: nat)
    requires ValidRx(rx, len) && len >= 2
    ensures len < BUF_SIZE ==> DecodeUrl(rx, len) == DecodeUrlAsWritten(rx, len)
  {
  }

  /** One 6-byte profile record: int16 degrees, uint16 delay, uint16 rpm,
      little-endian, run as a FIXED move that coasts at the end. */
  function DecodeRecord(b: seq<byte>): (mv: Move)
    requires |b| == 6
    ensures mv.moveType == Fixed && mv.endAction == Coast
    ensures -0x8000 <= mv.degrees < 0x8000 && 0 <= mv.rpm < 0x1_0000 && mv.delayMs < 0x1_0000
  {
    Move(DecodeI16LE(b[0..2]), DecodeU16LE(b[4..6]), DecodeU16LE(b[2..4]), Coast, Fixed)
  }

  function DecodeProfile(data: seq<byte>): (moves: seq<Move>)
    requires |data| % 6 == 0
    ensures |moves| == |data| / 6
    ensures forall i :: 0 <= i < |moves| ==> moves[i] == DecodeRecord(data[6 * i..6 * i + 6])
  {
    seq(|data| / 6, i requires 0 <= i < |data| / 6 => DecodeRecord(data[6 * i..6 * i + 6]))
  }

  /** A move the 6-byte record can carry. */
  predicate Encodable(mv: Move) {
    && -0x8000 <= mv.degrees < 0x8000 && 0 <= mv.rpm < 0x1_0000 && mv.delayMs < 0x1_0000
    && mv.moveType == Fixed && mv.endAction == Coast
  }

  /** The record layout written out: the inverse of the decoder. */
  function EncodeRecord(mv: Move): (b: seq<byte>)
    requires Encodable(mv)
    ensures |b| == 6 && DecodeRecord(b) == mv
  {
    var b := EncodeI16LE(mv.degrees) + EncodeU16LE(mv.delayMs) + EncodeU16LE(mv.rpm);
    assert b[0..2] == EncodeI16LE(mv.degrees) && b[2..4] == EncodeU16LE(mv.delayMs) && b[4..6] == EncodeU16LE(mv.rpm);
    b
  }

  function EncodeProfile(moves: seq<Move>): (data: seq<byte>)
    requires forall i :: 0 <= i < |moves| ==> Encodable(moves[i])
    ensures |data| == 6 * |moves|
    ensures forall i :: 0 <= i < |moves| ==> data[6 * i..6 * i + 6] == EncodeRecord(moves[i])
  {
    if |moves| == 0 then []
    else
      var head := EncodeRecord(moves[0]);
      var tail := EncodeProfile(moves[1..]);
      var data := head + tail;
      assert forall i :: 1 <= i < |moves| ==> data[6 * i..6 * i + 6] == tail[6 * (i - 1)..6 * (i - 1) + 6];
      data
  }

  /** Profiles of FIXED, COAST moves in the record's ranges survive encoding
      and decoding. */
  lemma ProfileRoundTrip(moves: seq<Move>)
    requires forall i :: 0 <= i < |moves| ==> Encodable(moves[i])
    ensures DecodeProfile(EncodeProfile(moves)) == moves
  {
    var data := EncodeProfile(moves);
    assert |data| / 6 == |moves|;
    var decoded := DecodeProfile(data);
    forall i | 0 <= i < |moves|
      ensures decoded[i] == moves[i]
    {
      var r := EncodeRecord(moves[i]);
      assert data[6 * i..6 * i + 6] == r;
      assert decoded[i] == DecodeRecord(r);
    }
  }

  /** And every profile payload is the encoding of what it decodes to. */
  lemma ProfileBytesRoundTrip(data: seq<byte>)
    requires |data| % 6 == 0
    ensures var moves := DecodeProfile(data);
            (forall i :: 0 <= i < |moves| ==> Encodable(moves[i])) && EncodeProfile(moves) == data
  {
    var moves := DecodeProfile(data);
    var e := EncodeProfile(moves);
    forall i | 0 <= i < |moves|
      ensures e[6 * i..6 * i + 6] == data[6 * i..6 * i + 6]
    {
      var r := data[6 * i..6 * i + 6];
      I16LEOfDecode(r[0..2]);
      U16LEOfDecode(r[2..4]);
      U16LEOfDecode(r[4..6]);
      assert moves[i] == DecodeRecord(r);
      assert EncodeRecord(moves[i])
          == EncodeI16LE(DecodeI16LE(r[0..2])) + EncodeU16LE(DecodeU16LE(r[2..4])) + EncodeU16LE(DecodeU16LE(r[4..6]));
      assert r == r[0..2] + r[2..4] + r[4..6];
    }
    forall k | 0 <= k < |data|
      ensures e[k] == data[k]
    {
      var i := k / 6;
      assert e[6 * i..6 * i + 6][k - 6 * i] == data[6 * i..6 * i + 6][k - 6 * i];
    }
  }

  /** The credentials payload: an SSID, its NUL, and the password, which is
      read as a C string from the byte after that NUL. */
  function DecodeCredentials(rx: seq<byte>, len: nat): (c: Command)
    requires ValidRx(rx, len) && len >= 2
    ensures c.SetCredentials? || c == BadCredentials
    ensures c.SetCredentials? <==>
              2 < len - 1 < BUF_SIZE && |CutAtNul(rx[1..len])| < len - 2
    ensures c.SetCredentials? ==>
              && c.ssid == CutAtNul(rx[1..len]) && rx[1 + |c.ssid|] == NUL
              && c.password == CutAtNul(rx[2 + |c.ssid|..])
  {
    var dataLength := len - 1;
    if !(2 < dataLength < BUF_SIZE) then BadCredentials
    else
      var ssid := CutAtNul(rx[1..len]);
      if |ssid| < dataLength - 1 then SetCredentials(ssid, CutAtNul(rx[2 + |ssid|..]))
      else BadCredentials
  }

  /** The command a write of `len >= 2` bytes carries. */
  function DecodeWrite(rx: seq<byte>, len: nat): (c: Command)
    requires ValidRx(rx, len) && len >= 2
    ensures rx[0] == REG_OTA_URL ==>
              && (c == OverrunUrl <==> len == BUF_SIZE)
              && (c.SetUrl? <==> len < BUF_SIZE)
              && (c.SetUrl? ==> c.url == CutAtNul(rx[1..len]))
    ensures rx[0] == REG_MOTOR_PROFILE ==>
              (c.SubmitMoves? <==> (len - 1) % 6 == 0 && len - 1 <= 60)
              && (c.SubmitMoves? ==> c.moves == DecodeProfile(rx[1..len]) && |c.moves| <= 10)
    ensures rx[0] == REG_MOTOR_FREE_RUN ==>
              c == SubmitMoves([Move(if AsInt8(rx[1]) > 0 then 1 else -1, 0, 0, Hold, Free)])
    ensures rx[0] == REG_MOTOR_STOP ==> c == SubmitMoves([Move(0, 0, 0, Coast, Stop)])
    ensures rx[0] == REG_MOTOR_HOLD ==> c == SubmitMoves([Move(0, 0, 0, Coast, HoldMove)])
    ensures rx[0] == REG_MOTOR_RELEASE ==> c == SubmitMoves([Move(0, 0, 0, Coast, Release)])
    ensures rx[0] == REG_WIFI_CREDENTIALS ==> c == DecodeCredentials(rx, len)
    ensures Undeclared(rx[0]) || rx[0] in {REG_OTA_STATUS, REG_MOTOR_CONFIG, REG_FIRMWARE_INFO, REG_DEVICE_ID} ==>
              c == UnknownWrite(rx[0])
  {
    var reg := rx[0];
    if reg == REG_DEVICE_RESTART then Restart
    else if reg == REG_OTA_URL then
      match DecodeUrlAsWritten(rx, len)
      case UrlAccepted(url) => SetUrl(url)
      case UrlOverrun => OverrunUrl
      case UrlRejected => BadUrl
    else if reg == REG_OTA_TRIGGER then TriggerOta
    else if reg == REG_OTA_RESET_STATUS then ResetOtaStatus
    else if reg == REG_MOTOR_RESET then ResetMotorQueue
    else if reg == REG_MOTOR_STOP then SubmitMoves([Move(0, 0, 0, Coast, Stop)])
    else if reg == REG_MOTOR_HOLD then SubmitMoves([Move(0, 0, 0, Coast, HoldMove)])
    else if reg == REG_MOTOR_RELEASE then SubmitMoves([Move(0, 0, 0, Coast, Release)])
    else if reg == REG_MOTOR_FREE_RUN then
      SubmitMoves([Move(if AsInt8(rx[1]) > 0 then 1 else -1, 0, 0, Hold, Free)])
    else if reg == REG_MOTOR_PROFILE then
      var dataLength := len - 1;
      if dataLength % 6 == 0 && dataLength <= 60 then SubmitMoves(DecodeProfile(rx[1..len])) else BadProfile
    else if reg == REG_WIFI_CREDENTIALS then DecodeCredentials(rx, len)
    else UnknownWrite(reg)
  }

  // ---- the device the protocol drives --------------------------------------------------

  datatype ReadState = WaitingForAddr | SentLength

  /** The protocol task's locals: the selected register, the read phase,
      and the prepared response (its length and the 64-byte buffer). */
  datatype Slave = Slave(lastAddr: byte, readState: ReadState, dataLength: byte, dataBuffer: seq<byte>)

  datatype Device = Device(slave: Slave, motor: Motor.Motor, ota: Ota.Ota, wifi: Wifi.Wifi)

  predicate ValidDevice(d: Device) {
    && |d.slave.dataBuffer| == BUF_SIZE && d.slave.dataLength <= BUF_SIZE
    && Ota.ValidStatus(d.ota.status)
  }

  /** The task's starting locals; the response buffer starts with whatever
      the stack held. */
  function NewSlave(garbage: seq<byte>): (s: Slave)
    requires |garbage| == BUF_SIZE
    ensures s.readState == WaitingForAddr && s.lastAddr == 0 && s.dataLength == 0
  {
    Slave(0, WaitingForAddr, 0, garbage)
  }

  /** Results of the calls a write leads to. */
  datatype RxEnv = RxEnv(nvsErr: int, currentWifiConfig: Wifi.StaConfig, wifiApplyErr: int)

  /** How a receive event ends: the task carries on, the device restarts,
      or the URL write stores its terminator past the receive buffer, after
      which the program's behaviour is undefined. */
  datatype Outcome = Continue | Rebooted | Overrun

  /** Submitting the first `k` moves one after another, whatever each
      returns. */
  function SubmitPrefix(m: Motor.Motor, moves: seq<Move>, k: nat): Motor.Motor
    requires k <= |moves|
  {
    if k == 0 then m else Motor.Submit(SubmitPrefix(m, moves, k - 1), moves[k - 1]).1
  }

  /** Each of the first `k` submits returned ESP_OK. */
  predicate AllAccepted(m: Motor.Motor, moves: seq<Move>, k: nat)
    requires k <= |moves|
  {
    k == 0 || (AllAccepted(m, moves, k - 1) && Motor.Submit(SubmitPrefix(m, moves, k - 1), moves[k - 1]).0 == EspErr.OK)
  }

  lemma {:induction false} AllAcceptedEach(m: Motor.Motor, moves: seq<Move>, k: nat, i: nat)
    requires k <= |moves| && AllAccepted(m, moves, k) && i < k
    ensures Motor.Submit(SubmitPrefix(m, moves, i), moves[i]).0 == EspErr.OK
  {
    if i < k - 1 {
      AllAcceptedEach(m, moves, k - 1, i);
    }
  }

  /** Submitting a profile, defined move by move from the front: a refused
      move ends the profile, keeping what that submit changed. */
  function SubmitAll(m: Motor.Motor, moves: seq<Move>): Motor.Motor
    decreases |moves|
  {
    if moves == [] then m
    else
      var (err, m1) := Motor.Submit(m, moves[0]);
      if err != EspErr.OK then m1 else SubmitAll(m1, moves[1..])
  }

  /** The profile loop: submit in order and stop after the first rejected
      move, which keeps whatever that submit changed (the id it used). */
  method SubmitProfile(m: Motor.Motor, moves: seq<Move>) returns (accepted: nat, m': Motor.Motor)
    ensures m' == SubmitAll(m, moves)
    ensures accepted <= |moves|
    ensures AllAccepted(m, moves, accepted)
    ensures accepted < |moves| ==> Motor.Submit(SubmitPrefix(m, moves, accepted), moves[accepted]).0 != EspErr.OK
    ensures m' == SubmitPrefix(m, moves, if accepted < |moves| then accepted + 1 else accepted)
  {
    accepted := 0;
    m' := m;
    while accepted < |moves|
      invariant accepted <= |moves|
      invariant m' == SubmitPrefix(m, moves, accepted)
      invariant AllAccepted(m, moves, accepted)
      invariant SubmitAll(m, moves) == SubmitAll(m', moves[accepted..])
    {
      assert moves[accepted..][1..] == moves[accepted + 1..];
      var r := Motor.Submit(m', moves[accepted]);
      m' := r.1;
      if r.0 != EspErr.OK {
        return;
      }
      accepted := accepted + 1;
    }
  }

  /** Every prefix of submits keeps the coordinator's invariant. */
  lemma {:induction false} SubmitPrefixPreservesInv(m: Motor.Motor, moves: seq<Move>, k: nat)
    requires k <= |moves| && Motor.Inv(m)
    ensures Motor.Inv(SubmitPrefix(m, moves, k))
  {
    if k > 0 {
      SubmitPrefixPreservesInv(m, moves, k - 1);
      Motor.SubmitPreservesInv(SubmitPrefix(m, moves, k - 1), moves[k - 1]);
    }
  }

  /** A write: any write selects its first byte as the register and restarts
      the read exchange; one with a payload is also acted on. */
  method HandleRx(d: Device, rx: seq<byte>, len: nat, env: RxEnv) returns (d': Device, outcome: Outcome)
    requires ValidRx(rx, len) && ValidDevice(d) && Wifi.ValidConfig(env.currentWifiConfig)
    ensures ValidDevice(d')
    ensures len == 0 ==> d' == d && outcome == Continue
    ensures len > 0 ==> d'.slave == d.slave.(lastAddr := rx[0], readState := WaitingForAddr)
    ensures len == 1 ==> d' == d.(slave := d'.slave) && outcome == Continue
    ensures outcome == Rebooted ==> len >= 2 && rx[0] in {REG_DEVICE_RESTART, REG_OTA_TRIGGER}
    ensures outcome == Overrun <==> len == BUF_SIZE && rx[0] == REG_OTA_URL
    ensures Motor.Inv(d.motor) ==> Motor.Inv(d'.motor)
    ensures len >= 2 && rx[0] == REG_DEVICE_RESTART ==> outcome == Rebooted
    ensures len >= 2 && DecodeWrite(rx, len).SetUrl? ==>
              d'.ota == Ota.SetOtaUrl(d.ota, Some(DecodeWrite(rx, len).url), env.nvsErr).1
    ensures len >= 2 && DecodeWrite(rx, len).SetUrl? && env.nvsErr == EspErr.OK && DecodeWrite(rx, len).url != [] ==>
              d'.ota.url == Some(DecodeWrite(rx, len).url)
    ensures len >= 2 && rx[0] == REG_OTA_TRIGGER ==>
              && d'.ota == Ota.TriggerOtaUpdate(d.ota, env.nvsErr).1
              && (outcome == Rebooted <==> env.nvsErr == EspErr.OK)
              && (outcome == Rebooted ==> Ota.IsOtaModePending(d'.ota))
              && (outcome != Rebooted ==> d'.ota == d.ota)
    ensures len >= 2 && rx[0] == REG_OTA_RESET_STATUS ==> d'.ota == Ota.ResetStatus(d.ota)
    ensures len >= 2 && rx[0] == REG_MOTOR_RESET ==>
              d'.motor == Motor.ResetQueueAsWritten(d.motor).1 && (d.motor.hasQueue ==> d'.motor.queue == [])
    ensures len >= 2 && DecodeWrite(rx, len).SubmitMoves? ==>
              d'.motor == SubmitAll(d.motor, DecodeWrite(rx, len).moves)
    ensures len >= 2 && DecodeWrite(rx, len).SetCredentials? ==>
              var c := DecodeWrite(rx, len);
              d'.wifi == Wifi.SetCredentials(d.wifi, Some(c.ssid), Some(c.password), env.currentWifiConfig, env.wifiApplyErr).w
    ensures len >= 2 && !DecodeWrite(rx, len).SubmitMoves? && !DecodeWrite(rx, len).ResetMotorQueue? ==>
              d'.motor == d.motor
    ensures len >= 2 && !DecodeWrite(rx, len).SetCredentials? ==> d'.wifi == d.wifi
    ensures len >= 2 && !(rx[0] in {REG_OTA_URL, REG_OTA_TRIGGER, REG_OTA_RESET_STATUS}) ==> d'.ota == d.ota
  {
    if len == 0 {
      return d, Continue;
    }
    d' := d.(slave := d.slave.(lastAddr := rx[0], readState := WaitingForAddr));
    outcome := Continue;
    if len == 1 {
      return;
    }
    WriteRegisters(rx, len);
    d', outcome := Dispatch(d', DecodeWrite(rx, len), env);
  }

  /** Which register each command comes from. */
  lemma WriteRegisters(rx: seq<byte>, len: nat)
    requires ValidRx(rx, len) && len >= 2
    ensures var c := DecodeWrite(rx, len);
            && (c == Restart <==> rx[0] == REG_DEVICE_RESTART)
            && (c == TriggerOta <==> rx[0] == REG_OTA_TRIGGER)
            && (c == ResetOtaStatus <==> rx[0] == REG_OTA_RESET_STATUS)
            && (c == ResetMotorQueue <==> rx[0] == REG_MOTOR_RESET)
            && (c == OverrunUrl <==> len == BUF_SIZE && rx[0] == REG_OTA_URL)
            && (c.SetUrl? ==> rx[0] == REG_OTA_URL)
  {
  }

  /** Acting on a decoded write: each command reaches exactly one part of
      the device, and only a restart or a successful OTA trigger reboots. */
  method Dispatch(d: Device, c: Command, env: RxEnv) returns (d': Device, outcome: Outcome)
    requires ValidDevice(d) && Wifi.ValidConfig(env.currentWifiConfig)
    requires c.SetUrl? ==> NulFree(c.url)
    requires c.SetCredentials? ==> NulFree(c.ssid) && NulFree(c.password)
    ensures ValidDevice(d') && d'.slave == d.slave
    ensures outcome == Rebooted <==> c == Restart || (c == TriggerOta && env.nvsErr == EspErr.OK)
    ensures outcome == Overrun <==> c == OverrunUrl
    ensures Motor.Inv(d.motor) ==> Motor.Inv(d'.motor)
    ensures c.SetUrl? ==> d'.ota == Ota.SetOtaUrl(d.ota, Some(c.url), env.nvsErr).1
    ensures c.SetUrl? && env.nvsErr == EspErr.OK && c.url != [] ==> d'.ota.url == Some(c.url)
    ensures c == TriggerOta ==>
              && d'.ota == Ota.TriggerOtaUpdate(d.ota, env.nvsErr).1
              && (outcome == Rebooted ==> Ota.IsOtaModePending(d'.ota))
              && (outcome != Rebooted ==> d'.ota == d.ota)
    ensures c == ResetOtaStatus ==> d'.ota == Ota.ResetStatus(d.ota)
    ensures c == ResetMotorQueue ==>
              d'.motor == Motor.ResetQueueAsWritten(d.motor).1 && (d.motor.hasQueue ==> d'.motor.queue == [])
    ensures c.SubmitMoves? ==> d'.motor == SubmitAll(d.motor, c.moves)
    ensures c.SetCredentials? ==>
              d'.wifi == Wifi.SetCredentials(d.wifi, Some(c.ssid), Some(c.password), env.currentWifiConfig, env.wifiApplyErr).w
    ensures !c.SubmitMoves? && !c.ResetMotorQueue? ==> d'.motor == d.motor
    ensures !c.SetCredentials? ==> d'.wifi == d.wifi
    ensures !(c.SetUrl? || c == TriggerOta || c == ResetOtaStatus) ==> d'.ota == d.ota
  {
    d' := d;
    outcome := Continue;
    match c
    case Restart =>
      outcome := Rebooted;
    case SetUrl(url) =>
      d' := d'.(ota := Ota.SetOtaUrl(d'.ota, Some(url), env.nvsErr).1);
    case TriggerOta =>
      var (o, ota) := Ota.TriggerOtaUpdate(d'.ota, env.nvsErr);
      d' := d'.(ota := ota);
      if o == Ota.Rebooted {
        outcome := Rebooted;
      }
    case ResetOtaStatus =>
      d' := d'.(ota := Ota.ResetStatus(d'.ota));
    case ResetMotorQueue =>
      var (_, motor) := Motor.ResetQueueAsWritten(d'.motor);
      d' := d'.(motor := motor);
    case SubmitMoves(moves) =>
      var accepted, motor := SubmitProfile(d'.motor, moves);
      if Motor.Inv(d'.motor) {
        SubmitPrefixPreservesInv(d'.motor, moves, if accepted < |moves| then accepted + 1 else accepted);
      }
      d' := d'.(motor := motor);
    case OverrunUrl =>
      outcome := Overrun;
    case SetCredentials(ssid, password) =>
      var r := Wifi.SetCredentials(d'.wifi, Some(ssid), Some(password), env.currentWifiConfig, env.wifiApplyErr);
      d' := d'.(wifi := r.w);
    case _ =>
  }

  // ---- reads ----------------------------------------------------------------------------

  /** The application descriptor's text fields (32, 16 and 16 bytes). */
  datatype FirmwareInfo = FirmwareInfo(version: seq<byte>, date: seq<byte>, time: seq<byte>)

  predicate ValidInfo(info: FirmwareInfo) {
    |info.version| == 32 && |info.date| == 16 && |info.time| == 16
  }

  /** The firmware-info block: a zeroed 64-byte buffer holding each field's
      string at offsets 0, 32 and 48. */
  function FirmwareBlock(info: FirmwareInfo): (b: seq<byte>)
    requires ValidInfo(info)
    ensures |b| == BUF_SIZE
    ensures b[0..32] == PadTo(CutAtNul(info.version), 32)
    ensures b[32..48] == PadTo(CutAtNul(info.date), 16)
    ensures b[48..64] == PadTo(CutAtNul(info.time), 16)
    ensures CutAtNul(b[0..32]) == CutAtNul(info.version)
    ensures CutAtNul(b[32..48]) == CutAtNul(info.date)
    ensures CutAtNul(b[48..64]) == CutAtNul(info.time)
  {
    var v := CutAtNul(info.version);
    var d := CutAtNul(info.date);
    var t := CutAtNul(info.time);
    var b := PadTo(v, 32) + PadTo(d, 16) + PadTo(t, 16);
    assert b[0..32] == PadTo(v, 32) && b[32..48] == PadTo(d, 16) && b[48..64] == PadTo(t, 16);
    CutAtNulPadded(v, 32);
    CutAtNulPadded(d, 16);
    CutAtNulPadded(t, 16);
    b
  }

  /** Results of the calls a read leads to. */
  datatype TxEnv = TxEnv(urlNvsErr: int, info: FirmwareInfo)

  /** The response the first read transfer prepares for the selected
      register: its length and the new buffer. */
  function Respond(d: Device, motorStateReg: byte, env: TxEnv): (r: (byte, seq<byte>))
    requires ValidDevice(d) && Undeclared(motorStateReg) && ValidInfo(env.info)
    ensures |r.1| == BUF_SIZE && r.0 <= BUF_SIZE
    ensures var reg := d.slave.lastAddr;
            var data := r.1[..r.0];
            && (reg == REG_DEVICE_ID ==> data == [DEVICE_ID])
            && (reg == motorStateReg ==> data == [Motor.GetState(d.motor)])
            && (reg == REG_OTA_STATUS ==> data == Ota.EncodeStatus(d.ota.status))
            && (reg == REG_FIRMWARE_INFO ==> data == FirmwareBlock(env.info))
            && (reg == REG_OTA_URL ==>
                  var u := Ota.GetOtaUrl(d.ota, BUF_SIZE, env.urlNvsErr);
                  data == if u.err == EspErr.OK then u.bytes else [NUL])
            && (reg !in {REG_DEVICE_ID, motorStateReg, REG_OTA_STATUS, REG_FIRMWARE_INFO, REG_OTA_URL} ==>
                  data == [INVALID_REGISTER])
  {
    var reg := d.slave.lastAddr;
    var buf := d.slave.dataBuffer;
    if reg == REG_DEVICE_ID then (1, [DEVICE_ID] + buf[1..])
    else if reg == REG_OTA_URL then
      var u := Ota.GetOtaUrl(d.ota, BUF_SIZE, env.urlNvsErr);
      if u.err == EspErr.OK then (u.size, u.bytes + buf[u.size..]) else (1, [NUL] + buf[1..])
    else if reg == REG_OTA_STATUS then
      var s := Ota.EncodeStatus(d.ota.status);
      (Ota.STATUS_SIZE, s + buf[Ota.STATUS_SIZE..])
    else if reg == motorStateReg then (1, [Motor.GetState(d.motor)] + buf[1..])
    else if reg == REG_FIRMWARE_INFO then (64, FirmwareBlock(env.info))
    else (1, [INVALID_REGISTER] + buf[1..])
  }

  /** A read transfer: the first after a write sends the prepared length,
      the next sends that many bytes of the prepared buffer. */
  function HandleTx(d: Device, motorStateReg: byte, env: TxEnv): (r: (Device, seq<byte>))
    requires ValidDevice(d) && Undeclared(motorStateReg) && ValidInfo(env.info)
    ensures ValidDevice(r.0) && r.0 == d.(slave := r.0.slave)
    ensures r.0.slave.lastAddr == d.slave.lastAddr
    ensures d.slave.readState == WaitingForAddr ==>
              && r.0.slave.readState == SentLength
              && r.1 == [r.0.slave.dataLength]
              && r.0.slave.dataLength == Respond(d, motorStateReg, env).0
              && r.0.slave.dataBuffer == Respond(d, motorStateReg, env).1
    ensures d.slave.readState == SentLength ==>
              && r.0.slave == d.slave.(readState := WaitingForAddr)
              && r.1 == d.slave.dataBuffer[..d.slave.dataLength]
  {
    if d.slave.readState == WaitingForAddr then
      var (n, buf) := Respond(d, motorStateReg, env);
      (d.(slave := d.slave.(dataLength := n, dataBuffer := buf, readState := SentLength)), [n])
    else
      (d.(slave := d.slave.(readState := WaitingForAddr)), d.slave.dataBuffer[..d.slave.dataLength])
  }

  /** A read of a register: after the write selecting it, two transfers send
      the response's length and then exactly that many bytes, the response
      the register promises, and leave the exchange ready for the next
      read. */
  lemma ReadTransaction(d: Device, motorStateReg: byte, env: TxEnv)
    requires ValidDevice(d) && Undeclared(motorStateReg) && ValidInfo(env.info)
    requires d.slave.readState == WaitingForAddr
    ensures var (d1, first) := HandleTx(d, motorStateReg, env);
            var (d2, second) := HandleTx(d1, motorStateReg, env);
            && first == [|second| as byte]
            && second == Respond(d, motorStateReg, env).1[..Respond(d, motorStateReg, env).0]
            && d2.slave.readState == WaitingForAddr
            && d2.motor == d.motor && d2.ota == d.ota && d2.wifi == d.wifi
  {
  }
}

=== FILE: motor.dfy ===
/** The command coordinator: a bounded FIFO of moves, the submit rules, and
    the task that runs one move at a time. The task is a step function: each
    call performs the task's next action, or leaves the state unchanged while
    the task is blocked (empty queue, no notification pending). Interrupts
    and the STOP request reach the task as a pending notification. */
module Motor {
  import opened MotorCommon
  import opened MotorHal
  import opened Wrappers
  import StepMode
  import EspErr

  const QUEUE_DEPTH: nat := 8
  const ID_MODULUS: nat := 0x1_0000_0000

  /** FreeRTOS's pdPASS, which the queue reset call returns on success. */
  const PD_PASS: int := 1

  datatype QueuedCmd = QueuedCmd(mv: Move, id: nat)

  /** Where the task is: before its loop exists, at the top of its loop,
      blocked on the queue, in the pre-move delay, waiting for a
      notification while a move runs, or stopped by an aborting check. */
  datatype Phase =
    | NoTask | LoopHead | WaitingQueue
    | Delaying(cmd: QueuedCmd) | Running(cmd: QueuedCmd)
    | Halted

  datatype Motor = Motor(
    initialized: bool,
    hasQueue: bool,
    queue: seq<QueuedCmd>,
    state: MotorState,
    stopRequested: bool,
    notified: bool,
    nextId: nat,
    hal: Hal,
    log: seq<HwAction>,
    phase: Phase,
    starts: nat,
    stops: nat)

  /** The coordinator before init: no queue, no task, IDLE, ids from 1. The
      board's enable and direction levels are inputs; the step mode is the
      default one. */
  function NewMotor(enActiveHigh: bool, dirCwHigh: bool): (m: Motor)
    ensures Inv(m) && m.state == Idle && m.nextId == 1 && !m.hasQueue
  {
    var cfg := MotorHal.Config(StepMode.Default().modeBits, enActiveHigh, dirCwHigh);
    Motor(false, false, [], Idle, false, false, 1, NewHal(cfg), [], NoTask, 0, 0)
  }

  /** What every reachable coordinator satisfies. A running FIXED move has a
      plan, nothing ever enables the pulse counter, and a halted task was
      halted by the move it had started. */
  predicate Inv(m: Motor) {
    && |m.queue| <= QUEUE_DEPTH
    && (!m.hasQueue ==> m.queue == [])
    && (m.phase != NoTask ==> m.hasQueue)
    && (m.initialized ==> m.phase != NoTask)
    && (m.phase == NoTask ==> m.state == Idle)
    && (m.phase.WaitingQueue? ==> m.state == Idle)
    && (m.phase.Delaying? ==> m.state == Delayed)
    && (m.phase.Running? ==> m.state == Started && m.hal.lastMove == m.phase.cmd.mv)
    && (m.phase.Running? && m.phase.cmd.mv.moveType == Fixed ==> |m.hal.segments| > 0)
    && !m.hal.pcnt.enabled
    && m.starts == m.stops + (if m.phase.Running? || m.phase.Halted? then 1 else 0)
  }

  /** What the corrected coordinator keeps besides: the running FIXED move's
      segment index is inside its plan, and the task is never halted. */
  predicate InvCorrected(m: Motor) {
    && Inv(m)
    && (m.phase.Running? && m.phase.cmd.mv.moveType == Fixed ==> m.hal.index < |m.hal.segments|)
    && !m.phase.Halted?
  }

  /** getState: the published state's numeric code. */
  function GetState(m: Motor): (code: int)
    ensures 0 <= code <= 3
    ensures code == 0 <==> m.state == Idle
  {
    StateCode(m.state)
  }

  /** init: a second call does nothing; otherwise the queue is created (its
      allocation result is an input), the driver pins are brought up, the
      task is created and the coordinator is marked initialized. */
  function Init(m: Motor, queueAllocated: bool, halErr: int): (r: (int, Motor))
    ensures m.initialized ==> r == (EspErr.OK, m)
    ensures !m.initialized && !m.hasQueue && !queueAllocated ==> r == (EspErr.ERR_NO_MEM, m)
    ensures r.0 == EspErr.OK <==> r.1.initialized
    ensures !m.initialized && r.0 == EspErr.OK ==> r.1.hasQueue && r.1.phase != NoTask
    ensures r.1.queue == m.queue && r.1.state == m.state
  {
    if m.initialized then (EspErr.OK, m)
    else if !m.hasQueue && !queueAllocated then (EspErr.ERR_NO_MEM, m)
    else
      var m1 := m.(hasQueue := true);
      if halErr != EspErr.OK then (halErr, m1)
      else
        var m2 := m1.(log := m1.log + InitDriverGpio(m1.hal.cfg));
        var m3 := if m2.phase == NoTask then m2.(phase := LoopHead) else m2;
        (EspErr.OK, m3.(initialized := true))
  }

  /** resetQueue as written: without a queue INVALID_STATE, otherwise the
      queue is emptied and the queue call's own result (pdPASS) is returned. */
  function ResetQueueAsWritten(m: Motor): (r: (int, Motor))
    ensures !m.hasQueue ==> r == (EspErr.ERR_INVALID_STATE, m)
    ensures m.hasQueue ==> r.1 == m.(queue := []) && r.0 == PD_PASS
  {
    if !m.hasQueue then (EspErr.ERR_INVALID_STATE, m) else (PD_PASS, m.(queue := []))
  }

  /** resetQueue returning ESP_OK when it has emptied the queue. */
  function ResetQueue(m: Motor): (r: (int, Motor))
    ensures r.0 == EspErr.OK <==> m.hasQueue
    ensures m.hasQueue ==> r.1 == m.(queue := [])
    ensures !m.hasQueue ==> r == (EspErr.ERR_INVALID_STATE, m)
  {
    if !m.hasQueue then (EspErr.ERR_INVALID_STATE, m) else (EspErr.OK, m.(queue := []))
  }

  /** On a coordinator with a queue the reset as written reports a value
      other than ESP_OK although it succeeded. */
  lemma ResetQueueReportsFailure(m: Motor)
    requires m.hasQueue
    ensures ResetQueueAsWritten(m).0 != EspErr.OK
    ensures ResetQueueAsWritten(m).1 == ResetQueue(m).1
  {
  }

  // ---- submit --------------------------------------------------------------------

  /** The FIXED move a FREE move schedules to back off half a turn, opposite
      to its direction, holding at the end. */
  function BackOff(mv: Move): (b: Move)
    ensures b.moveType == Fixed && b.endAction == Hold && b.delayMs == 0
    ensures b.degrees == 180 || b.degrees == -180
    ensures b.degrees < 0 <==> mv.degrees > 0
  {
    var dir := if mv.degrees > 0 then 1 else -1;
    Move(-dir * 180, 0, 0, Hold, Fixed)
  }

  /** Taking the next id and trying to append to the queue without waiting:
      a full queue refuses with ESP_ERR_NO_MEM, but the id is used up. */
  function Enqueue(m: Motor, mv: Move): (r: (int, Motor))
    ensures r.1 == m.(nextId := r.1.nextId, queue := r.1.queue)
    ensures r.1.nextId == (m.nextId + 1) % ID_MODULUS
    ensures |m.queue| >= QUEUE_DEPTH ==> r.0 == EspErr.ERR_NO_MEM && r.1.queue == m.queue
    ensures |m.queue| < QUEUE_DEPTH ==> r.0 == EspErr.OK && r.1.queue == m.queue + [QueuedCmd(mv, m.nextId)]
  {
    var m1 := m.(nextId := (m.nextId + 1) % ID_MODULUS);
    if |m.queue| >= QUEUE_DEPTH then (EspErr.ERR_NO_MEM, m1)
    else (EspErr.OK, m1.(queue := m.queue + [QueuedCmd(mv, m.nextId)]))
  }

  /** submit(mv): HOLD and RELEASE act at once, only while IDLE; STOP empties
      the queue and flags a running move; anything else is queued, a FREE
      move followed by its back-off move, and clears the stop flag. */
  function Submit(m: Motor, mv: Move): (r: (int, Motor))
    ensures r.1 == m.(queue := r.1.queue, nextId := r.1.nextId, log := r.1.log,
                      stopRequested := r.1.stopRequested, notified := r.1.notified)
    ensures r.1.queue == m.queue || r.1.queue == []
            || (|r.1.queue| > |m.queue| && r.1.queue[..|m.queue|] == m.queue)
    ensures r.1.queue == [] && m.queue != [] ==> mv.moveType == Stop
    ensures (mv.moveType == Fixed || mv.moveType == Free) && r.0 == EspErr.OK ==>
              && !r.1.stopRequested && |r.1.queue| > |m.queue|
              && r.1.queue[|m.queue|] == QueuedCmd(mv, m.nextId)
    ensures r.1.notified && !m.notified ==> mv.moveType == Stop && m.state == Started
    ensures r.1.log != m.log ==> (mv.moveType == HoldMove || mv.moveType == Release) && r.0 == EspErr.OK
  {
    var isIdle := m.state == Idle;
    if mv.moveType == HoldMove || mv.moveType == Release then
      if isIdle then (EspErr.OK, m.(log := m.log + HoldOrRelease(m.hal, mv.moveType == HoldMove)))
      else (EspErr.ERR_INVALID_STATE, m)
    else if !m.hasQueue then (EspErr.ERR_INVALID_STATE, m)
    else if mv.moveType == Stop then
      var running := m.state == Started;
      (EspErr.OK, m.(queue := [], stopRequested := m.stopRequested || running, notified := m.notified || running))
    else
      var (err, m1) := Enqueue(m, mv);
      if err != EspErr.OK then (err, m1)
      else
        var m2 := if mv.moveType == Free then Enqueue(m1, BackOff(mv)).1 else m1;
        (EspErr.OK, m2.(stopRequested := false))
  }

  /** HOLD and RELEASE succeed exactly when IDLE, touching only the enable
      pin; otherwise they return INVALID_STATE and change nothing. */
  lemma SubmitHoldRelease(m: Motor, mv: Move)
    requires mv.moveType == HoldMove || mv.moveType == Release
    ensures var (err, m') := Submit(m, mv);
            && (err == EspErr.OK <==> m.state == Idle)
            && (err != EspErr.OK ==> err == EspErr.ERR_INVALID_STATE && m' == m)
            && m'.queue == m.queue && m'.stopRequested == m.stopRequested
            && (err == EspErr.OK ==> LevelOf(m'.log, En) == Some((mv.moveType == HoldMove) == m.hal.cfg.enActiveHigh))
  {
    var (err, m') := Submit(m, mv);
    if err == EspErr.OK {
      LastWrite(m'.log, |m'.log| - 1, En, (mv.moveType == HoldMove) == m.hal.cfg.enActiveHigh);
    }
  }

  /** STOP always empties the queue and returns ESP_OK (once a queue
      exists); it raises the stop flag and the notification only for a
      STARTED move. */
  lemma SubmitStop(m: Motor, mv: Move)
    requires mv.moveType == Stop && m.hasQueue
    ensures var (err, m') := Submit(m, mv);
            && err == EspErr.OK && m'.queue == []
            && (m.state == Started ==> m'.stopRequested && m'.notified)
            && (m.state != Started ==> m'.stopRequested == m.stopRequested && m'.notified == m.notified)
            && m'.state == m.state && m'.phase == m.phase
  {
  }

  /** A FIXED or FREE submit into a full queue returns ESP_ERR_NO_MEM and
      leaves the queue alone, but the id counter still advances. */
  lemma SubmitIntoFullQueue(m: Motor, mv: Move)
    requires mv.moveType == Fixed || mv.moveType == Free
    requires m.hasQueue && |m.queue| == QUEUE_DEPTH
    ensures var (err, m') := Submit(m, mv);
            err == EspErr.ERR_NO_MEM && m'.queue == m.queue && m'.nextId == (m.nextId + 1) % ID_MODULUS
  {
  }

  /** An accepted FREE move is queued with the next id, followed (room
      permitting) by its back-off move; either way the call reports ESP_OK
      and clears the stop flag. */
  lemma SubmitFree(m: Motor, mv: Move)
    requires mv.moveType == Free && m.hasQueue && |m.queue| < QUEUE_DEPTH
    ensures var (err, m') := Submit(m, mv);
            var first := QueuedCmd(mv, m.nextId);
            && err == EspErr.OK && !m'.stopRequested
            && (|m.queue| + 1 < QUEUE_DEPTH ==>
                  m'.queue == m.queue + [first, QueuedCmd(BackOff(mv), (m.nextId + 1) % ID_MODULUS)])
            && (|m.queue| + 1 == QUEUE_DEPTH ==> m'.queue == m.queue + [first])
  {
  }

  lemma SubmitPreservesInv(m: Motor, mv: Move)
    requires Inv(m)
    ensures Inv(Submit(m, mv).1)
  {
  }

  // ---- the task --------------------------------------------------------------------

  /** Taking the layer's start result for a dequeued move: STARTED and
      running on success, ERRORED and back at the loop head otherwise. */
  function Launch(m: Motor, c: QueuedCmd, r: (Hal, Outcome)): Motor
  {
    var m1 := m.(hal := r.0, log := m.log + r.1.log);
    if r.1.err != EspErr.OK then m1.(state := Errored, phase := LoopHead)
    else m1.(state := Started, phase := Running(c), starts := m.starts + 1)
  }

  /** Starting a dequeued move with the layer's startMove as written, which
      leaves the segment index where the previous FIXED move left it. */
  function Start(m: Motor, c: QueuedCmd, env: StartEnv): (m': Motor)
    ensures m'.queue == m.queue && m'.stopRequested == m.stopRequested
    ensures m'.state == Started <==> StartMove(m.hal, c.mv, env).1.err == EspErr.OK
    ensures m'.state == Started <==> m'.phase == Running(c)
    ensures m'.state == Started || (m'.state == Errored && m'.phase == LoopHead)
    ensures m'.starts == m.starts + (if m'.state == Started then 1 else 0) && m'.stops == m.stops
    ensures m'.hal.index == m.hal.index && m'.hal.pcnt == m.hal.pcnt && m'.hal.lastMove == c.mv
    ensures m' == m.(hal := m'.hal, log := m'.log, state := m'.state, phase := m'.phase, starts := m'.starts)
  {
    Launch(m, c, StartMove(m.hal, c.mv, env))
  }

  /** Starting a dequeued move with the segment index reset to the new
      plan's first segment. */
  function StartCorrected(m: Motor, c: QueuedCmd, env: StartEnv): (m': Motor)
    ensures m'.queue == m.queue && m'.stopRequested == m.stopRequested
    ensures m'.state == Started <==> StartMove(m.hal, c.mv, env).1.err == EspErr.OK
    ensures m'.state == Started || (m'.state == Errored && m'.phase == LoopHead)
    ensures m'.state == Started && c.mv.moveType == Fixed ==> m'.hal.index == 0 < |m'.hal.segments|
    ensures m' == m.(hal := m'.hal, log := m'.log, state := m'.state, phase := m'.phase, starts := m'.starts)
  {
    Launch(m, c, StartMoveFixed(m.hal, c.mv, env))
  }

  /** Taking the layer's stop result: back at the loop head after a normal
      return, halted after an abort. */
  function Settle(m: Motor, o: StopResult): Motor
  {
    match o
    case Stopped(h, l) => m.(hal := h, log := m.log + l, phase := LoopHead, stops := m.stops + 1)
    case Aborted(l) => m.(log := m.log + l, phase := Halted)
  }

  /** Ending a move with stopMove as written: back to the top of the loop,
      or halted when one of its checked counter calls is refused. A FIXED
      move without a plan (which no start produces) halts on the empty
      plan's missing last element. */
  function Finish(m: Motor): (m': Motor)
    ensures m' == m.(hal := m'.hal, log := m'.log, phase := m'.phase, stops := m'.stops)
    ensures m'.phase == LoopHead || m'.phase == Halted
    ensures m'.phase == Halted ==> m.hal.lastMove.moveType == Fixed
    ensures m'.phase == LoopHead ==> m'.stops == m.stops + 1
    ensures m.hal.lastMove.moveType == Fixed && !m.hal.pcnt.enabled ==> m'.phase == Halted
    ensures m.hal.lastMove.moveType != Fixed ==>
              m'.phase == LoopHead && m'.hal == m.hal && m'.log == m.log + StopMove(m.hal).log
  {
    if m.hal.lastMove.moveType == Fixed && |m.hal.segments| == 0 then m.(phase := Halted)
    else Settle(m, StopMove(m.hal))
  }

  /** Ending a move with the teardown that releases only what the counter
      driver holds. */
  function FinishCorrected(m: Motor): (m': Motor)
    ensures m' == m.(hal := m'.hal, log := m'.log, phase := m'.phase, stops := m'.stops)
    ensures m'.phase == LoopHead || m'.phase == Halted
    ensures m'.phase == Halted ==> m.hal.lastMove.moveType == Fixed
    ensures m.hal.lastMove.moveType != Fixed || |m.hal.segments| > 0 ==>
              m'.phase == LoopHead && m'.stops == m.stops + 1
    ensures m.hal.lastMove.moveType != Fixed ==> m' == Finish(m)
  {
    if m.hal.lastMove.moveType == Fixed && |m.hal.segments| == 0 then m.(phase := Halted)
    else Settle(m, StopMovePaired(m.hal))
  }

  function EndMove(m: Motor, corrected: bool): (m': Motor)
    ensures m' == m.(hal := m'.hal, log := m'.log, phase := m'.phase, stops := m'.stops)
    ensures m'.phase == Halted ==> m.hal.lastMove.moveType == Fixed
  {
    if corrected then FinishCorrected(m) else Finish(m)
  }

  /** One action of the task loop, on the layer as written or on the
      corrected start and stop. */
  function Step(m: Motor, env: StartEnv, corrected: bool): (m': Motor)
    ensures m'.nextId == m.nextId && m'.hasQueue == m.hasQueue && m'.initialized == m.initialized
    ensures m'.stopRequested == m.stopRequested
    ensures m'.queue == m.queue || (m.queue != [] && m'.queue == m.queue[1..])
    ensures m.phase == NoTask || m.phase == Halted ==> m' == m
    ensures m'.phase.Halted? && !m.phase.Halted? ==>
              m.phase.Running? && m.notified
              && (m.phase.cmd.mv.moveType == Fixed || m.hal.lastMove.moveType == Fixed)
  {
    match m.phase
    case NoTask => m
    case Halted => m
    case LoopHead => m.(state := Idle, phase := WaitingQueue)
    case WaitingQueue =>
      if m.queue == [] then m
      else
        var c := m.queue[0];
        var m1 := m.(queue := m.queue[1..]);
        if c.mv.delayMs != 0 then m1.(state := Delayed, phase := Delaying(c))
        else if corrected then StartCorrected(m1, c, env) else Start(m1, c, env)
    case Delaying(c) => if corrected then StartCorrected(m, c, env) else Start(m, c, env)
    case Running(c) =>
      if !m.notified then m
      else
        var m1 := m.(notified := false);
        if m1.stopRequested || c.mv.moveType != Fixed then EndMove(m1, corrected)
        else match NextSegment(m1.hal)
          case Abort => m1.(phase := Halted)
          case Done(h) => EndMove(m1.(hal := h), corrected)
          case Continue(h, l) => m1.(hal := h, log := m1.log + l)
  }

  /** One action of the task loop as written. The task is halted only by a
      running FIXED move on a notification: its segment index past the plan
      or a refused counter call in stopMove. */
  function TaskStep(m: Motor, env: StartEnv): (m': Motor)
    ensures m'.nextId == m.nextId && m'.hasQueue == m.hasQueue && m'.initialized == m.initialized
    ensures m'.stopRequested == m.stopRequested
    ensures m'.queue == m.queue || (m.queue != [] && m'.queue == m.queue[1..])
    ensures m.phase == NoTask || m.phase == Halted ==> m' == m
    ensures m'.phase.Halted? && !m.phase.Halted? ==>
              m.phase.Running? && m.notified
              && (m.phase.cmd.mv.moveType == Fixed || m.hal.lastMove.moveType == Fixed)
  {
    Step(m, env, false)
  }

  /** One action of the corrected task loop. */
  function TaskStepCorrected(m: Motor, env: StartEnv): (m': Motor)
    ensures m'.nextId == m.nextId && m'.hasQueue == m.hasQueue && m'.initialized == m.initialized
    ensures m'.stopRequested == m.stopRequested
    ensures m'.queue == m.queue || (m.queue != [] && m'.queue == m.queue[1..])
    ensures m.phase == NoTask || m.phase == Halted ==> m' == m
    ensures m'.phase.Halted? && !m.phase.Halted? ==>
              m.phase.Running? && m.notified
              && (m.phase.cmd.mv.moveType == Fixed || m.hal.lastMove.moveType == Fixed)
  {
    Step(m, env, true)
  }

  /** An interrupt (or STOP) giving the task a notification. */
  function Notify(m: Motor): (m': Motor)
    ensures m'.phase != NoTask ==> m'.notified
    ensures m' == m.(notified := m'.notified)
  {
    if m.phase == NoTask then m else m.(notified := true)
  }

  /** The loop's state publication rules: every iteration publishes IDLE
      before taking a command; DELAYED only for a non-zero delay; STARTED
      only on a successful start; the queue gives up its head in order. */
  lemma TaskStepStates(m: Motor, env: StartEnv)
    requires Inv(m)
    ensures var m' := TaskStep(m, env);
            && (m.phase == LoopHead ==> m'.state == Idle && m'.phase == WaitingQueue && m'.queue == m.queue)
            && (m.phase == WaitingQueue && m.queue == [] ==> m' == m)
            && (m.phase == WaitingQueue && m.queue != [] ==>
                  m'.queue == m.queue[1..]
                  && (m'.state == Delayed <==> m.queue[0].mv.delayMs != 0)
                  && (m'.state == Delayed ==> m'.phase == Delaying(m.queue[0])))
            && (m'.state == Delayed && m.state != Delayed ==> m.phase == WaitingQueue)
            && (m'.state == Started && !m.phase.Running? && !m.phase.Halted? ==> m'.starts == m.starts + 1 && m'.phase.Running?)
  {
  }

  /** While a move runs, a notification ends a non-FIXED move at once with
      one stopMove. A FIXED move ends only in a halt: a raised stop flag, or
      the last segment done, leads to stopMove, whose counter calls the
      driver refuses because nothing enabled the counter; an index past the
      plan aborts on the segment lookup. Otherwise it advances one segment.
      Without a notification the task stays blocked. */
  lemma RunningWake(m: Motor, env: StartEnv)
    requires Inv(m) && m.phase.Running?
    ensures var m' := TaskStep(m, env);
            var c := m.phase.cmd;
            && (!m.notified ==> m' == m)
            && (m.notified && c.mv.moveType != Fixed ==>
                  m'.phase == LoopHead && m'.stops == m.stops + 1 && m'.hal == m.hal
                  && m'.log == m.log + StopMove(m.hal).log)
            && (m.notified && c.mv.moveType == Fixed ==>
                  (m'.phase.Halted? <==> m.stopRequested || m.hal.index + 1 >= |m.hal.segments|))
            && (m.notified && c.mv.moveType == Fixed && !m'.phase.Halted? ==>
                  m'.phase == m.phase && m'.hal.index == m.hal.index + 1)
  {
  }

  lemma TaskStepPreservesInv(m: Motor, env: StartEnv)
    requires Inv(m)
    ensures Inv(TaskStep(m, env))
  {
    if m.phase.Running? {
      RunningPreservesInv(m, env, false);
    } else if m.phase.WaitingQueue? || m.phase.Delaying? {
      StartPreservesInv(m, env, false);
    }
  }

  /** Taking a command, or starting the delayed one, keeps the invariant on
      either layer. */
  lemma StartPreservesInv(m: Motor, env: StartEnv, corrected: bool)
    requires Inv(m) && (m.phase.WaitingQueue? || m.phase.Delaying?)
    ensures Inv(Step(m, env, corrected))
    ensures corrected && InvCorrected(m) ==> InvCorrected(Step(m, env, corrected))
  {
    if m.phase.WaitingQueue? && m.queue == [] {
    } else if m.phase.WaitingQueue? && m.queue[0].mv.delayMs != 0 {
    } else {
      var c := if m.phase.Delaying? then m.phase.cmd else m.queue[0];
      var m1 := if m.phase.Delaying? then m else m.(queue := m.queue[1..]);
      if corrected {
        var r := StartMoveFixed(m1.hal, c.mv, env);
        LaunchKeepsInv(m1, c, r, true);
        assert Step(m, env, corrected) == Launch(m1, c, r);
      } else {
        var r := StartMove(m1.hal, c.mv, env);
        LaunchKeepsInv(m1, c, r, false);
        assert Step(m, env, corrected) == Launch(m1, c, r);
      }
    }
  }

  /** Whatever the layer's start reports, the coordinator taking it keeps the
      invariant, provided the start records the move, leaves the counter
      alone and gives a FIXED move a plan (and, corrected, a first segment). */
  lemma LaunchKeepsInv(m: Motor, c: QueuedCmd, r: (Hal, Outcome), corrected: bool)
    requires |m.queue| <= QUEUE_DEPTH && m.hasQueue && !m.hal.pcnt.enabled && m.starts == m.stops
    requires r.0.lastMove == c.mv && r.0.pcnt == m.hal.pcnt
    requires c.mv.moveType == Fixed ==> |r.0.segments| > 0 && (corrected ==> r.0.index < |r.0.segments|)
    ensures Inv(Launch(m, c, r))
    ensures corrected ==> InvCorrected(Launch(m, c, r))
  {
  }

  /** A wake of a running move keeps the invariant on either layer. */
  lemma RunningPreservesInv(m: Motor, env: StartEnv, corrected: bool)
    requires Inv(m) && m.phase.Running?
    ensures Inv(Step(m, env, corrected))
    ensures corrected && InvCorrected(m) ==> InvCorrected(Step(m, env, corrected))
  {
  }

  lemma InitPreservesInv(m: Motor, queueAllocated: bool, halErr: int)
    requires Inv(m)
    ensures Inv(Init(m, queueAllocated, halErr).1)
  {
  }

  /** Every successfully started move is stopped exactly once or halts the
      task: between moves the start and stop counts agree, and a halt comes
      only from a running FIXED move taking a notification. */
  lemma StartsMatchStops(m: Motor, env: StartEnv)
    requires Inv(m)
    ensures var m' := TaskStep(m, env);
            && (!m'.phase.Running? && !m'.phase.Halted? ==> m'.starts == m'.stops)
            && (m'.phase.Running? || m'.phase.Halted? ==> m'.starts == m'.stops + 1)
            && (m'.phase.Halted? && !m.phase.Halted? ==>
                  m.phase.Running? && m.phase.cmd.mv.moveType == Fixed && m.notified)
  {
    TaskStepPreservesInv(m, env);
  }

  /** From an idle task, a FIXED move submitted and started, then a STOP:
      the STOP's notification ends the move in stopMove, and the refused
      counter stop halts the task. */
  lemma FixedMoveThenStopHalts(m: Motor, mv: Move, env: StartEnv)
    requires Inv(m) && m.phase == WaitingQueue && m.queue == []
    requires mv.moveType == Fixed && mv.delayMs == 0
    ensures var m1 := TaskStep(Submit(m, mv).1, env);
            var m2 := Submit(m1, Move(0, 0, 0, Coast, Stop)).1;
            var m3 := TaskStep(m2, env);
            && m1.phase.Running? && m1.state == Started
            && m2.stopRequested && m2.notified
            && m3.phase == Halted && PcntStop in m3.log
  {
    var m0 := Submit(m, mv).1;
    SubmitPreservesInv(m, mv);
    var m1 := TaskStep(m0, env);
    TaskStepPreservesInv(m0, env);
    var m2 := Submit(m1, Move(0, 0, 0, Coast, Stop)).1;
    SubmitPreservesInv(m1, Move(0, 0, 0, Coast, Stop));
    var m3 := TaskStep(m2, env);
    var o := StopMove(m2.hal);
    assert m3.log == m2.log + o.log;
  }

  /** The corrected coordinator keeps its invariant. */
  lemma TaskStepCorrectedPreservesInv(m: Motor, env: StartEnv)
    requires InvCorrected(m)
    ensures InvCorrected(TaskStepCorrected(m, env))
  {
    if m.phase.Running? {
      RunningPreservesInv(m, env, true);
    } else if m.phase.WaitingQueue? || m.phase.Delaying? {
      StartPreservesInv(m, env, true);
    }
  }

  /** In the corrected coordinator every started move is stopped exactly
      once and the task never halts; a notification advances a FIXED move
      by one segment and ends it, with one stop, after its last. */
  lemma CorrectedStartsMatchStops(m: Motor, env: StartEnv)
    requires InvCorrected(m)
    ensures var m' := TaskStepCorrected(m, env);
            && !m'.phase.Halted?
            && (!m'.phase.Running? ==> m'.starts == m'.stops)
            && (m'.phase.Running? ==> m'.starts == m'.stops + 1)
            && (m.phase.Running? && m.notified && !m.stopRequested && m.phase.cmd.mv.moveType == Fixed ==>
                  m'.hal.index == m.hal.index + 1
                  && (m'.phase == LoopHead <==> m'.hal.index == |m.hal.segments|)
                  && (m'.phase == LoopHead ==> m'.stops == m.stops + 1))
  {
    TaskStepCorrectedPreservesInv(m, env);
  }

  /** A STOP that arrives while the dequeued move is still in its pre-move
      delay raises no stop flag: the move starts once the delay is over, and
      only the moves still queued are dropped. */
  lemma StopDuringDelayStillStarts(m: Motor, env: StartEnv)
    requires Inv(m) && m.phase.Delaying? && !m.stopRequested
    requires StartMove(m.hal, m.phase.cmd.mv, env).1.err == EspErr.OK
    ensures var m1 := Submit(m, Move(0, 0, 0, Coast, Stop)).1;
            var m2 := TaskStep(m1, env);
            && m1.queue == [] && !m1.stopRequested
            && m2.state == Started && m2.phase == Running(m.phase.cmd)
  {
  }

  /** A submit accepted after a STOP clears the stop flag the STOP raised
      for the running move: the running FIXED move then keeps stepping
      through its segments on its next notification instead of stopping. */
  lemma LaterSubmitCancelsStop(m: Motor, mv: Move, env: StartEnv)
    requires Inv(m) && m.phase.Running? && m.phase.cmd.mv.moveType == Fixed
    requires m.hal.index + 1 < |m.hal.segments|
    requires mv.moveType == Fixed
    ensures var m1 := Submit(m, Move(0, 0, 0, Coast, Stop)).1;
            var m2 := Submit(m1, mv).1;
            var m3 := TaskStep(m2, env);
            && m1.stopRequested && m1.notified
            && !m2.stopRequested && m2.queue == [QueuedCmd(mv, m.nextId)]
            && m3.phase == m.phase && m3.hal.index == m.hal.index + 1
  {
  }
}

=== FILE: motor_common.dfy ===
/** Types shared by the motion subsystem: moves, plan segments, task state. */
module MotorCommon {

  const STEPS_PER_REVOLUTION: int := 200
  const BASE_PERIOD_US: int := 3072

  datatype EndAction = Hold | Coast
  datatype MoveType = Fixed | Free | Stop | HoldMove | Release

  /** A motion request. `degrees` is signed (its sign is the direction); `rpm`
      is the target speed of a FIXED move. A default-constructed move is a
      FIXED, COAST move of 0 degrees with no delay. */
  datatype Move = Move(degrees: int, rpm: int, delayMs: nat, endAction: EndAction, moveType: MoveType)

  /** The coordinator's published state; its numeric value is what the register
      protocol reports. */
  datatype MotorState = Idle | Delayed | Started | Errored

  function StateCode(s: MotorState): int {
    match s
    case Idle => 0
    case Delayed => 1
    case Started => 2
    case Errored => 3
  }

  /** One run of step pulses at a fixed period. */
  datatype Segment = Segment(steps: int, periodUs: int)

  /** Sum of the signed step counts of a plan. */
  function SumSteps(plan: seq<Segment>): int {
    if |plan| == 0 then 0 else SumSteps(plan[..|plan| - 1]) + plan[|plan| - 1].steps
  }

  lemma {:induction false} SumStepsAppend(a: seq<Segment>, b: seq<Segment>)
    ensures SumSteps(a + b) == SumSteps(a) + SumSteps(b)
    decreases |b|
  {
    if |b| == 0 {
      assert a + b == a;
    } else {
      assert (a + b)[..|a + b| - 1] == a + b[..|b| - 1];
      SumStepsAppend(a, b[..|b| - 1]);
    }
  }

  /** A plan whose segments all step `k` has step sum `k` times its length. */
  lemma {:induction false} SumStepsUniform(plan: seq<Segment>, k: int)
    requires forall i :: 0 <= i < |plan| ==> plan[i].steps == k
    ensures SumSteps(plan) == k * |plan|
  {
    if |plan| > 0 {
      SumStepsUniform(plan[..|plan| - 1], k);
    }
  }

  function Abs(x: int): nat {
    if x < 0 then -x else x
  }
}

=== FILE: motor_hal.dfy ===
/** The hardware layer's decision logic. Peripheral calls are recorded as
    actions in a log instead of being performed; the results of the SDK
    calls that can fail are inputs. */
module MotorHal {
  import opened MotorCommon
  import opened Wrappers
  import opened StepMode
  import EspErr

  /** The driver's control pins. */
  datatype Pin = Stby | En | M0 | M1 | M2 | M3

  /** One peripheral operation, in the order the layer issues them. */
  datatype HwAction =
    | SetLevel(pin: Pin, high: bool)
    | DelayUs(us: nat)
    | PcntClear | PcntAddWatch(target: int) | PcntRemoveWatch(target: int)
    | PcntEnable | PcntStart | PcntStop | PcntDisable
    | LedcTimerConfig(freqHz: int) | LedcChannelConfig
    | LedcSetFreq(freqHz: int) | LedcSetDuty(ticks: int) | LedcUpdateDuty | LedcPause
    | StopperIsrAdd | StopperIntrEnable | StopperIntrDisable | StopperIsrRemove

  /** The board configuration the layer reads: the mode-select value, the
      level that enables the outputs and the level of clockwise rotation. */
  datatype Config = Config(modeBits: int, enActiveHigh: bool, dirCwHigh: bool)

  /** The pulse counter unit as its driver tracks it: whether it is enabled
      and which watch points are set. The unit is created disabled with no
      watch point. The driver refuses, with an error, to stop or disable a
      unit that is not enabled and to remove a watch point that was not
      added; adding a watch point that is already set changes nothing. */
  datatype Pcnt = Pcnt(enabled: bool, watches: set<int>)

  /** Layer state: the configuration, the last move started, the segment
      plan, the index of the segment being run and the pulse counter. */
  datatype Hal = Hal(cfg: Config, lastMove: Move, segments: seq<Segment>, index: nat, pcnt: Pcnt)

  /** A non-empty segment plan. */
  type Plan = s: seq<Segment> | |s| > 0 witness [Segment(0, 0)]

  function NewHal(cfg: Config): (h: Hal)
    ensures h.index == 0 && h.segments == [] && h.cfg == cfg
    ensures !h.pcnt.enabled && h.pcnt.watches == {}
  {
    Hal(cfg, Move(0, 0, 0, Coast, Fixed), [], 0, Pcnt(false, {}))
  }

  /** getMicrostepFactor: 1, 2, ..., 128 for the eight modes, 1 otherwise. */
  function MicrostepFactor(cfg: Config): (f: nat)
    ensures IsFactor(f)
    ensures forall m: Mode :: cfg.modeBits == Bits(m) ==> f == Pow2(Bits(m) - 8)
    ensures (forall m: Mode :: cfg.modeBits != Bits(m)) ==> f == 1
  {
    forall m: Mode ensures cfg.modeBits == Bits(m) ==> FactorOfBits(cfg.modeBits) == Pow2(Bits(m) - 8) {
      EncodingIsLog2Factor(m);
    }
    assert (forall m: Mode :: cfg.modeBits != Bits(m)) ==>
      && cfg.modeBits != Bits(FixedHalf) && cfg.modeBits != Bits(FixedQuarter)
      && cfg.modeBits != Bits(FixedEighth) && cfg.modeBits != Bits(FixedSixteenth)
      && cfg.modeBits != Bits(FixedThirtySecond) && cfg.modeBits != Bits(FixedSixtyFourth)
      && cfg.modeBits != Bits(FixedOneTwentyEighth);
    FactorOfBits(cfg.modeBits)
  }

  // ---- power-up ----------------------------------------------------------------

  /** The level last written to `pin` in `log`, if any. */
  function LevelOf(log: seq<HwAction>, pin: Pin): (o: Option<bool>)
  {
    if |log| == 0 then None
    else if log[|log| - 1].SetLevel? && log[|log| - 1].pin == pin then Some(log[|log| - 1].high)
    else LevelOf(log[..|log| - 1], pin)
  }

  /** The level of a pin is the one its last write in the log set. */
  lemma {:induction false} LastWrite(log: seq<HwAction>, i: nat, pin: Pin, high: bool)
    requires i < |log| && log[i] == SetLevel(pin, high)
    requires forall j :: i < j < |log| ==> !(log[j].SetLevel? && log[j].pin == pin)
    ensures LevelOf(log, pin) == Some(high)
    decreases |log|
  {
    if i < |log| - 1 {
      var init := log[..|log| - 1];
      assert init[i] == log[i];
      LastWrite(init, i, pin, high);
    }
  }

  function Bit(v: int, k: nat): bool {
    (v / Pow2(k)) % 2 == 1
  }

  /** At a point of the log the mode pins carry bits 0..3 of `bits`. */
  predicate ModePinsHold(log: seq<HwAction>, bits: int) {
    && LevelOf(log, M0) == Some(Bit(bits, 0))
    && LevelOf(log, M1) == Some(Bit(bits, 1))
    && LevelOf(log, M2) == Some(Bit(bits, 2))
    && LevelOf(log, M3) == Some(Bit(bits, 3))
  }

  /** initDriverGPIO after a successful pin configuration: standby and
      outputs disabled, mode pins prepared, standby released (latching the
      mode), and only then M3 repurposed as the clockwise direction. */
  function InitDriverGpio(cfg: Config): (log: seq<HwAction>)
    ensures exists r :: 0 <= r < |log| && StandbyReleasedAt(log, r, cfg)
    ensures forall r :: 0 <= r < |log| && log[r] == SetLevel(Stby, true) ==> StandbyReleasedAt(log, r, cfg)
    ensures LevelOf(log, M3) == Some(cfg.dirCwHigh)
    ensures LevelOf(log, En) == Some(!cfg.enActiveHigh)
    ensures LevelOf(log, Stby) == Some(true)
  {
    var log := InitSequence(cfg);
    BeforeRelease(cfg);
    FinalLevels(cfg);
    assert StandbyReleasedAt(log, 7, cfg);
    assert forall r :: 0 <= r < |log| && r != 7 ==> log[r] != SetLevel(Stby, true);
    log
  }

  /** After the sequence M3 holds the clockwise level, the outputs are
      disabled and standby is released. */
  lemma FinalLevels(cfg: Config)
    ensures LevelOf(InitSequence(cfg), M3) == Some(cfg.dirCwHigh)
    ensures LevelOf(InitSequence(cfg), En) == Some(!cfg.enActiveHigh)
    ensures LevelOf(InitSequence(cfg), Stby) == Some(true)
  {
    var log := InitSequence(cfg);
    LastWrite(log, 1, En, !cfg.enActiveHigh);
    LastWrite(log, 7, Stby, true);
    LastWrite(log, 9, M3, cfg.dirCwHigh);
  }

  /** The writes initDriverGPIO issues, in order. */
  function InitSequence(cfg: Config): seq<HwAction> {
    var bits := cfg.modeBits;
    [SetLevel(Stby, false), SetLevel(En, !cfg.enActiveHigh),
     SetLevel(M0, Bit(bits, 0)), SetLevel(M1, Bit(bits, 1)),
     SetLevel(M2, Bit(bits, 2)), SetLevel(M3, Bit(bits, 3)),
     DelayUs(100), SetLevel(Stby, true), DelayUs(200), SetLevel(M3, cfg.dirCwHigh)]
  }

  /** Just before standby is released, standby is low, the outputs are
      disabled and the mode pins hold the mode. */
  lemma BeforeRelease(cfg: Config)
    ensures var pre := InitSequence(cfg)[..7];
            && LevelOf(pre, Stby) == Some(false)
            && LevelOf(pre, En) == Some(!cfg.enActiveHigh)
            && ModePinsHold(pre, cfg.modeBits)
  {
    var bits := cfg.modeBits;
    var pre := InitSequence(cfg)[..7];
    LastWrite(pre, 0, Stby, false);
    LastWrite(pre, 1, En, !cfg.enActiveHigh);
    LastWrite(pre, 2, M0, Bit(bits, 0));
    LastWrite(pre, 3, M1, Bit(bits, 1));
    LastWrite(pre, 4, M2, Bit(bits, 2));
    LastWrite(pre, 5, M3, Bit(bits, 3));
  }

  /** `log[r]` releases standby while standby was low, the outputs were
      disabled and the mode pins held the configured mode. */
  predicate StandbyReleasedAt(log: seq<HwAction>, r: nat, cfg: Config)
    requires r < |log|
  {
    && log[r] == SetLevel(Stby, true)
    && LevelOf(log[..r], Stby) == Some(false)
    && LevelOf(log[..r], En) == Some(!cfg.enActiveHigh)
    && ModePinsHold(log[..r], cfg.modeBits)
  }

  // ---- per-move setup ----------------------------------------------------------

  /** setupDirection: the level written to M3. */
  function DirectionLevel(cfg: Config, degrees: int): (high: bool)
    ensures high == cfg.dirCwHigh <==> degrees >= 0
  {
    if degrees >= 0 then cfg.dirCwHigh else !cfg.dirCwHigh
  }

  /** setupPCNT: clear, watch the magnitude of the step count, enable, start. */
  function SetupPcnt(steps: int): (log: seq<HwAction>)
    ensures |log| == 4 && log[1].PcntAddWatch?
    ensures log[1].target >= 0 && (log[1].target == steps || log[1].target == -steps)
  {
    [PcntClear, PcntAddWatch(Abs(steps)), PcntEnable, PcntStart]
  }

  const PERIOD_TICKS: int := 0x4000

  /** Duty ticks of a 14-bit timer for `highUs` out of `periodUs`, clamped
      into [1, 16383]. */
  function DutyTicks(highUs: nat, periodUs: nat): (d: int)
    requires periodUs > 0
    ensures 1 <= d < PERIOD_TICKS
    ensures 1 <= highUs * PERIOD_TICKS / periodUs < PERIOD_TICKS ==> d * periodUs <= highUs * PERIOD_TICKS < (d + 1) * periodUs
    ensures highUs * PERIOD_TICKS / periodUs == 0 ==> d == 1
    ensures highUs * PERIOD_TICKS / periodUs >= PERIOD_TICKS ==> d == PERIOD_TICKS - 1
  {
    var raw := highUs * PERIOD_TICKS / periodUs;
    if raw == 0 then 1 else if raw >= PERIOD_TICKS then PERIOD_TICKS - 1 else raw
  }

  /** An operation's outcome: the error it returns and the actions issued. */
  datatype Outcome = Outcome(err: int, log: seq<HwAction>)

  /** setupLEDC(period, high): argument validation, timer and channel
      configuration (whose SDK results are inputs), then the duty. */
  function SetupLedc(periodUs: nat, highUs: nat, timerErr: int, chanErr: int): (o: Outcome)
    ensures (periodUs == 0 || highUs == 0 || highUs >= periodUs) ==> o == Outcome(EspErr.ERR_INVALID_ARG, [])
    ensures 0 < highUs < periodUs && timerErr != EspErr.OK ==> o == Outcome(timerErr, [])
    ensures 0 < highUs < periodUs && timerErr == EspErr.OK && chanErr != EspErr.OK ==>
              o == Outcome(chanErr, [LedcTimerConfig(1000000 / periodUs)])
    ensures o.err == EspErr.OK <==> 0 < highUs < periodUs && timerErr == EspErr.OK && chanErr == EspErr.OK
    ensures o.err == EspErr.OK ==>
              o.log == [LedcTimerConfig(1000000 / periodUs), LedcChannelConfig,
                        LedcSetDuty(DutyTicks(highUs, periodUs)), LedcUpdateDuty]
  {
    if periodUs == 0 || highUs == 0 || highUs >= periodUs then Outcome(EspErr.ERR_INVALID_ARG, [])
    else
      var freq := 1000000 / periodUs;
      if timerErr != EspErr.OK then Outcome(timerErr, [])
      else if chanErr != EspErr.OK then Outcome(chanErr, [LedcTimerConfig(freq)])
      else Outcome(EspErr.OK, [LedcTimerConfig(freq), LedcChannelConfig,
                               LedcSetDuty(DutyTicks(highUs, periodUs)), LedcUpdateDuty])
  }

  /** For arguments that pass validation the raw duty is below the timer
      period, so the upper clamp never applies. */
  lemma DutyUpperClampUnreachable(highUs: nat, periodUs: nat)
    requires 0 < highUs < periodUs
    ensures highUs * PERIOD_TICKS / periodUs < PERIOD_TICKS
    ensures highUs * PERIOD_TICKS / periodUs == 0 <==> highUs * PERIOD_TICKS < periodUs
  {
    var raw := highUs * PERIOD_TICKS / periodUs;
    assert raw * periodUs <= highUs * PERIOD_TICKS;
  }

  /** holdOrRelease: drive EN to its active level to hold, inactive to
      release. */
  function HoldOrRelease(h: Hal, doHold: bool): (log: seq<HwAction>)
    ensures log == [SetLevel(En, doHold == h.cfg.enActiveHigh)]
    ensures LevelOf(log, En) == Some(if doHold then h.cfg.enActiveHigh else !h.cfg.enActiveHigh)
  {
    [SetLevel(En, if doHold then h.cfg.enActiveHigh else !h.cfg.enActiveHigh)]
  }

  /** SDK results the start of a move depends on, and the segment plan the
      float first-draft planner produces (that planner is not modelled; it
      always yields at least one segment). */
  datatype StartEnv = StartEnv(
    plan: Plan, startPeriodUs: nat, stopperErr: int, timerErr: int, chanErr: int)

  /** startMove as written: records the move, sets the direction; a FIXED
      move installs its plan, a FREE move arms the stopper and starts the
      pulse output at period START_PERIOD_US / factor with an eighth high;
      finally the outputs are enabled. The segment index is left as it was,
      and the pulse counter is not touched: the FIXED branch's pulse and
      counter setup is commented out in this revision. */
  function StartMove(h: Hal, mv: Move, env: StartEnv): (r: (Hal, Outcome))
    ensures r.0.lastMove == mv && r.0.index == h.index && r.0.cfg == h.cfg && r.0.pcnt == h.pcnt
    ensures mv.moveType == Fixed ==> r.0.segments == env.plan && r.1.err == EspErr.OK
    ensures mv.moveType != Fixed ==> r.0.segments == h.segments
    ensures |r.1.log| > 0 && r.1.log[0] == SetLevel(M3, DirectionLevel(h.cfg, mv.degrees))
    ensures r.1.err == EspErr.OK <==> r.1.log[|r.1.log| - 1] == SetLevel(En, h.cfg.enActiveHigh)
    ensures mv.moveType == Free && env.startPeriodUs / MicrostepFactor(h.cfg) < 8 && env.stopperErr == EspErr.OK ==>
              r.1.err == EspErr.ERR_INVALID_ARG
    ensures mv.moveType == Free && env.stopperErr != EspErr.OK ==>
              r.1.err == env.stopperErr && StopperIsrAdd !in r.1.log
    ensures mv.moveType == Free && env.stopperErr == EspErr.OK ==>
              var period := env.startPeriodUs / MicrostepFactor(h.cfg);
              var ledc := SetupLedc(period, period / 8, env.timerErr, env.chanErr);
              && r.1.err == ledc.err
              && |r.1.log| >= 3 + |ledc.log|
              && r.1.log[1..3] == [StopperIsrAdd, StopperIntrEnable]
              && r.1.log[3..3 + |ledc.log|] == ledc.log
    ensures mv.moveType != Free ==> r.1.log == [r.1.log[0], SetLevel(En, h.cfg.enActiveHigh)]
    ensures PcntEnable !in r.1.log && (forall t :: PcntAddWatch(t) !in r.1.log)
  {
    var h1 := h.(lastMove := mv);
    var dir := SetLevel(M3, DirectionLevel(h.cfg, mv.degrees));
    var enable := SetLevel(En, h.cfg.enActiveHigh);
    if mv.moveType == Fixed then
      (h1.(segments := env.plan), Outcome(EspErr.OK, [dir, enable]))
    else if mv.moveType == Free then (h1, StartFree(h.cfg, dir, env))
    else (h1, Outcome(EspErr.OK, [dir, enable]))
  }

  /** startMove's FREE branch after the direction write `dir`: arm the
      stopper, start the pulse output, enable the outputs. */
  function StartFree(cfg: Config, dir: HwAction, env: StartEnv): (o: Outcome)
    requires dir.SetLevel? && dir.pin == M3
    ensures |o.log| > 0 && o.log[0] == dir
    ensures o.err == EspErr.OK <==> o.log[|o.log| - 1] == SetLevel(En, cfg.enActiveHigh)
    ensures env.startPeriodUs / MicrostepFactor(cfg) < 8 && env.stopperErr == EspErr.OK ==>
              o.err == EspErr.ERR_INVALID_ARG
    ensures env.stopperErr != EspErr.OK ==> o == Outcome(env.stopperErr, [dir])
    ensures env.stopperErr == EspErr.OK ==>
              var period := env.startPeriodUs / MicrostepFactor(cfg);
              var ledc := SetupLedc(period, period / 8, env.timerErr, env.chanErr);
              && o.err == ledc.err
              && |o.log| >= 3 + |ledc.log|
              && o.log[1..3] == [StopperIsrAdd, StopperIntrEnable]
              && o.log[3..3 + |ledc.log|] == ledc.log
    ensures PcntEnable !in o.log && (forall t :: PcntAddWatch(t) !in o.log)
  {
    if env.stopperErr != EspErr.OK then Outcome(env.stopperErr, [dir])
    else
      var period := env.startPeriodUs / MicrostepFactor(cfg);
      var ledc := SetupLedc(period, period / 8, env.timerErr, env.chanErr);
      var armed := [dir, StopperIsrAdd, StopperIntrEnable];
      assert (armed + ledc.log)[1..3] == [StopperIsrAdd, StopperIntrEnable];
      assert (armed + ledc.log)[3..3 + |ledc.log|] == ledc.log;
      if ledc.err != EspErr.OK then Outcome(ledc.err, armed + ledc.log)
      else
        var log := armed + ledc.log + [SetLevel(En, cfg.enActiveHigh)];
        assert log[1..3] == [StopperIsrAdd, StopperIntrEnable];
        assert log[3..3 + |ledc.log|] == ledc.log;
        Outcome(EspErr.OK, log)
  }

  /** How stopMove ends: with ESP_OK and the layer's new state, or in the
      abort of a failed ESP_ERROR_CHECK, after the actions issued so far. */
  datatype StopResult = Stopped(hal: Hal, log: seq<HwAction>) | Aborted(log: seq<HwAction>)

  /** The actions stopMove issues before its per-type teardown: the pulse
      output is paused and silenced, and the outputs are disabled only after
      a COAST move. */
  function Silence(h: Hal): (log: seq<HwAction>)
    ensures |log| >= 3 && log[..3] == [LedcPause, LedcSetDuty(0), LedcUpdateDuty]
    ensures SetLevel(En, !h.cfg.enActiveHigh) in log <==> h.lastMove.endAction == Coast
    ensures forall a :: a in log ==> !a.PcntStop? && !a.PcntRemoveWatch? && !a.StopperIsrRemove?
  {
    var silence := [LedcPause, LedcSetDuty(0), LedcUpdateDuty];
    var coast := if h.lastMove.endAction == Coast then [SetLevel(En, !h.cfg.enActiveHigh)] else [];
    assert (silence + coast)[..3] == silence;
    silence + coast
  }

  /** stopMove: after a FIXED move the counter is stopped and disabled and
      the last segment's watch point removed; after a FREE move the stopper
      interrupt is disarmed. Every SDK call is wrapped in ESP_ERROR_CHECK, so
      a refusal by the counter driver aborts the firmware; the pulse and GPIO
      calls are taken to succeed. */
  function StopMove(h: Hal): (o: StopResult)
    requires h.lastMove.moveType == Fixed ==> |h.segments| > 0
    ensures |o.log| >= 3 && o.log[..3] == [LedcPause, LedcSetDuty(0), LedcUpdateDuty]
    ensures SetLevel(En, !h.cfg.enActiveHigh) in o.log <==> h.lastMove.endAction == Coast
    ensures o.Aborted? <==>
              h.lastMove.moveType == Fixed
              && (!h.pcnt.enabled || h.segments[|h.segments| - 1].steps !in h.pcnt.watches)
    ensures h.lastMove.moveType == Fixed ==> PcntStop in o.log
    ensures (exists t :: PcntRemoveWatch(t) in o.log) ==> h.lastMove.moveType == Fixed
    ensures h.lastMove.moveType == Fixed && o.Stopped? ==>
              var t := h.segments[|h.segments| - 1].steps;
              PcntRemoveWatch(t) in o.log && o.hal == h.(pcnt := Pcnt(false, h.pcnt.watches - {t}))
    ensures h.lastMove.moveType != Fixed ==> o.Stopped? && o.hal == h
    ensures StopperIsrRemove in o.log <==> h.lastMove.moveType == Free
  {
    var pre := Silence(h);
    if h.lastMove.moveType == Fixed then
      var t := h.segments[|h.segments| - 1].steps;
      if !h.pcnt.enabled then Aborted(pre + [PcntStop])
      else
        var log := pre + [PcntStop, PcntDisable, PcntRemoveWatch(t)];
        if t !in h.pcnt.watches then Aborted(log)
        else Stopped(h.(pcnt := Pcnt(false, h.pcnt.watches - {t})), log)
    else if h.lastMove.moveType == Free then
      var log := pre + [StopperIntrDisable, StopperIsrRemove];
      assert log[|log| - 1] == StopperIsrRemove;
      Stopped(h, log)
    else Stopped(h, pre)
  }

  /** stopMove tearing down only what the driver holds: the counter is
      stopped and disabled only when it is enabled, and the watch point
      removed only when it is set. */
  function StopMovePaired(h: Hal): (o: StopResult)
    requires h.lastMove.moveType == Fixed ==> |h.segments| > 0
    ensures o.Stopped?
    ensures |o.log| >= 3 && o.log[..3] == [LedcPause, LedcSetDuty(0), LedcUpdateDuty]
    ensures SetLevel(En, !h.cfg.enActiveHigh) in o.log <==> h.lastMove.endAction == Coast
    ensures PcntStop in o.log <==> h.lastMove.moveType == Fixed && h.pcnt.enabled
    ensures h.lastMove.moveType == Fixed ==>
              var t := h.segments[|h.segments| - 1].steps;
              o.hal == h.(pcnt := Pcnt(false, h.pcnt.watches - {t}))
    ensures h.lastMove.moveType != Fixed ==> o == StopMove(h)
  {
    var pre := Silence(h);
    if h.lastMove.moveType == Fixed then
      var t := h.segments[|h.segments| - 1].steps;
      var stop := if h.pcnt.enabled then [PcntStop, PcntDisable] else [];
      var remove := if t in h.pcnt.watches then [PcntRemoveWatch(t)] else [];
      assert h.pcnt.enabled ==> (pre + stop + remove)[|pre|] == PcntStop;
      Stopped(h.(pcnt := Pcnt(false, h.pcnt.watches - {t})), pre + stop + remove)
    else StopMove(h)
  }

  /** Start and stop of a FREE move pair up: a start that gets past the
      stopper setup arms the stopper interrupt, and the stop disarms it and
      returns normally. */
  lemma FreeStartStopPair(h: Hal, mv: Move, env: StartEnv)
    requires mv.moveType == Free && env.stopperErr == EspErr.OK
    ensures var (h', o) := StartMove(h, mv, env);
            && StopperIsrAdd in o.log && StopperIntrEnable in o.log
            && StopMove(h').Stopped? && StopperIsrRemove in StopMove(h').log && StopperIntrDisable in StopMove(h').log
  {
    var (h', o) := StartMove(h, mv, env);
    assert o.log[1] == StopperIsrAdd && o.log[2] == StopperIntrEnable;
    var s := StopMove(h');
    assert s.log == Silence(h') + [StopperIntrDisable, StopperIsrRemove];
    assert s.log[|s.log| - 2] == StopperIntrDisable;
  }

  /** Start and stop of a FIXED move do not pair up: the start enables no
      counter and adds no watch point, yet the stop stops the counter and
      removes a watch point under ESP_ERROR_CHECK. On a counter nothing has
      enabled the stop therefore aborts; with the paired teardown it
      returns. */
  lemma FixedStartStopUnpaired(h: Hal, mv: Move, env: StartEnv)
    requires mv.moveType == Fixed && !h.pcnt.enabled
    ensures var (h', o) := StartMove(h, mv, env);
            && PcntEnable !in o.log && (forall t :: PcntAddWatch(t) !in o.log)
            && StopMove(h').Aborted? && PcntStop in StopMove(h').log
            && StopMovePaired(h').Stopped? && PcntStop !in StopMovePaired(h').log
  {
  }

  // ---- segment stepping --------------------------------------------------------

  /** Result of one nextSegment call: an out-of-range `at()` aborts the
      firmware; otherwise the move is done or has moved to the next segment. */
  datatype Next = Abort | Done(hal: Hal) | Continue(hal: Hal, log: seq<HwAction>)

  /** nextSegment: the index advances by exactly one; while it is still in
      range the pulse period, duty and counter watch are switched to the new
      segment. Its SDK results are ignored: the watch set becomes whatever
      the driver accepted, and the counter stays as enabled as it was. */
  function NextSegment(h: Hal): (n: Next)
    ensures n.Abort? <==> h.index >= |h.segments|
    ensures n.Done? ==> n.hal == h.(index := h.index + 1) && n.hal.index == |h.segments|
    ensures n.Continue? ==> n.hal.index == h.index + 1 && n.hal.index < |h.segments|
    ensures n.Continue? ==>
              n.hal == h.(index := h.index + 1, pcnt := Pcnt(h.pcnt.enabled,
                h.pcnt.watches - {h.segments[h.index].steps} + {h.segments[h.index + 1].steps}))
    ensures n.Continue? ==>
      var cur := h.segments[h.index + 1];
      && |n.log| == 7
      && (cur.periodUs > 0 ==> n.log[0] == LedcSetFreq(1000000 / cur.periodUs))
      && n.log[1] == LedcSetDuty(cur.periodUs / 8)
      && n.log[2] == LedcUpdateDuty
      && n.log[3] == PcntStop
      && n.log[4] == PcntRemoveWatch(h.segments[h.index].steps)
      && n.log[5] == PcntAddWatch(cur.steps)
      && n.log[6] == PcntStart
  {
    if h.index >= |h.segments| then Abort
    else
      var finished := h.segments[h.index];
      var h' := h.(index := h.index + 1);
      if h'.index < |h.segments| then
        var cur := h.segments[h'.index];
        var freq := if cur.periodUs == 0 then 0 else 1000000 / cur.periodUs;
        var pcnt := Pcnt(h.pcnt.enabled, h.pcnt.watches - {finished.steps} + {cur.steps});
        Continue(h'.(pcnt := pcnt), [LedcSetFreq(freq), LedcSetDuty(cur.periodUs / 8), LedcUpdateDuty,
                      PcntStop, PcntRemoveWatch(finished.steps), PcntAddWatch(cur.steps), PcntStart])
      else Done(h')
  }

  /** startMove with the segment index reset to the start of the new plan. */
  function StartMoveFixed(h: Hal, mv: Move, env: StartEnv): (r: (Hal, Outcome))
    ensures r.1 == StartMove(h, mv, env).1
    ensures r.0 == StartMove(h, mv, env).0.(index := 0)
    ensures mv.moveType == Fixed ==> r.0.index < |r.0.segments|
  {
    var (h', o) := StartMove(h, mv, env);
    (h'.(index := 0), o)
  }

  /** Running a started FIXED plan of k segments to completion: k - 1 calls
      continue and the k-th reports done, with no abort. */
  function RunToDone(h: Hal, fuel: nat): (r: Option<Hal>)
    decreases fuel
  {
    if fuel == 0 then None
    else match NextSegment(h)
      case Abort => None
      case Done(h') => Some(h')
      case Continue(h', _) => RunToDone(h', fuel - 1)
  }

  lemma {:induction false} RunFromIndex(h: Hal, fuel: nat)
    requires h.index < |h.segments|
    requires fuel >= |h.segments| - h.index
    ensures RunToDone(h, fuel).Some?
    ensures var v := RunToDone(h, fuel).value;
            && v.index == |h.segments| && v.segments == h.segments
            && v.cfg == h.cfg && v.lastMove == h.lastMove && v.pcnt.enabled == h.pcnt.enabled
    decreases fuel
  {
    if h.index + 1 < |h.segments| {
      var h' := NextSegment(h).hal;
      RunToDoneStep(h, fuel);
      RunFromIndex(h', fuel - 1);
    } else {
      var n := NextSegment(h);
      assert n.Done?;
      assert RunToDone(h, fuel) == Some(n.hal);
    }
  }

  /** A call inside the plan continues with the next segment. */
  lemma RunToDoneStep(h: Hal, fuel: nat)
    requires fuel > 0 && h.index + 1 < |h.segments|
    ensures NextSegment(h).Continue?
    ensures var h' := NextSegment(h).hal;
            && RunToDone(h, fuel) == RunToDone(h', fuel - 1)
            && h'.index == h.index + 1 && h'.segments == h.segments
            && h'.cfg == h.cfg && h'.lastMove == h.lastMove && h'.pcnt.enabled == h.pcnt.enabled
  {
  }

  /** With the corrected start every FIXED move runs through its whole plan:
      after any earlier history of the index, |plan| calls reach done. */
  lemma CorrectedStartRunsWholePlan(h: Hal, mv: Move, env: StartEnv)
    requires mv.moveType == Fixed
    ensures var h' := StartMoveFixed(h, mv, env).0;
            && RunToDone(h', |env.plan|).Some?
            && RunToDone(h', |env.plan|).value.index == |env.plan|
            && RunToDone(h', |env.plan|).value.segments == env.plan
  {
    var h' := StartMoveFixed(h, mv, env).0;
    RunFromIndex(h', |env.plan|);
  }

  /** As written, the index is never reset: after one FIXED move of a
      single segment has run to done, starting a second FIXED move and
      taking its first notification aborts on the out-of-range `at()`. */
  lemma SecondFixedMoveAborts(cfg: Config, mv: Move, env: StartEnv)
    requires mv.moveType == Fixed && |env.plan| == 1
    ensures var h1 := StartMove(NewHal(cfg), mv, env).0;
            var n1 := NextSegment(h1);
            && n1.Done?
            && NextSegment(StartMove(n1.hal, mv, env).0).Abort?
  {
  }
}

=== FILE: move_planner.dfy ===
/** The bisection planner: given a total move time and step count, it
    searches for the exponent `beta` that spreads the time over the profile
    entries with weights profile[i]^-beta so that the estimated step count
    matches. Only `pow` is left abstract; float arithmetic is taken as exact
    real arithmetic. */
module MovePlanner {
  import opened MotorCommon
  import opened Rounding

  const BETA_LO: real := -10.0
  const BETA_HI: real := 10.0
  const MAX_ITER: nat := 100
  const TOLERANCE: real := 0.00001

  type PosReal = r: real | r > 0.0 witness 1.0

  /** `std::pow` on the profile's positive bases: an opaque positive function. */
  type Pow = (real, real) -> PosReal

  /** The raw profile the planner is built from, fastest entry last. */
  const RawProfile: seq<real> := [
    1.0, 0.95, 0.9, 0.85, 0.8, 0.75, 0.7, 0.65,
    0.6, 0.55, 0.5, 0.45, 0.4, 0.35, 0.3, 0.25
  ]

  /** The planner object: its inputs, its bisection bracket and its
      normalised profile. */
  datatype Planner = Planner(
    baseTimeUs: nat, totalTimeUs: nat, totalSteps: nat,
    lo: real, hi: real, profile: seq<real>)

  /** What every constructed planner satisfies: a non-empty profile of
      positive entries and a positive base time. */
  predicate Valid(p: Planner) {
    && p.baseTimeUs > 0
    && |p.profile| > 0
    && (forall i :: 0 <= i < |p.profile| ==> p.profile[i] > 0.0)
  }

  /** Every profile entry divided by the first one. */
  function Normalize(raw: seq<real>): (r: seq<real>)
    requires |raw| > 0 && raw[0] > 0.0
    ensures |r| == |raw| && r[0] == 1.0
    ensures forall i :: 0 <= i < |raw| ==> r[i] * raw[0] == raw[i]
  {
    seq(|raw|, i requires 0 <= i < |raw| => raw[i] / raw[0])
  }

  /** The constructor: the bracket starts at [-10, 10] and the profile is
      normalised so that its first entry is 1. */
  function New(baseTimeUs: nat, totalTimeUs: nat, totalSteps: nat): (p: Planner)
    requires baseTimeUs > 0
    ensures Valid(p)
    ensures p.profile[0] == 1.0 && |p.profile| == |RawProfile|
    ensures p.lo == BETA_LO && p.hi == BETA_HI
    ensures p.baseTimeUs == baseTimeUs && p.totalTimeUs == totalTimeUs && p.totalSteps == totalSteps
  {
    var prof := Normalize(RawProfile);
    assert forall i :: 0 <= i < |prof| ==> prof[i] * 1.0 == RawProfile[i];
    Planner(baseTimeUs, totalTimeUs, totalSteps, BETA_LO, BETA_HI, prof)
  }

  // ---- the step estimator ---------------------------------------------------

  function SumReal(s: seq<real>): real {
    if |s| == 0 then 0.0 else SumReal(s[..|s| - 1]) + s[|s| - 1]
  }

  lemma {:induction false} SumPositive(s: seq<real>)
    requires |s| > 0
    requires forall i :: 0 <= i < |s| ==> s[i] > 0.0
    ensures SumReal(s) > 0.0
  {
    if |s| > 1 {
      SumPositive(s[..|s| - 1]);
    }
  }

  /** Scaling every element scales the sum. */
  lemma {:induction false} SumScaled(s: seq<real>, t: seq<real>, c: real)
    requires |t| == |s|
    requires forall i :: 0 <= i < |s| ==> t[i] == c * s[i]
    ensures SumReal(t) == c * SumReal(s)
  {
    if |s| > 0 {
      SumScaled(s[..|s| - 1], t[..|t| - 1], c);
    }
  }

  /** w[i] = pow(profile[i], -beta). */
  function Weights(p: Planner, pow: Pow, beta: real): (w: seq<real>)
    ensures |w| == |p.profile|
    ensures forall i :: 0 <= i < |w| ==> w[i] == pow(p.profile[i], -beta) as real
  {
    seq(|p.profile|, i requires 0 <= i < |p.profile| => pow(p.profile[i], -beta) as real)
  }

  function TotalWeight(p: Planner, pow: Pow, beta: real): (wt: real)
    requires Valid(p)
    ensures wt > 0.0
  {
    var w := Weights(p, pow, beta);
    SumPositive(w);
    SumReal(w)
  }

  /** Share of the total time given to entry `i`: T * w[i] / W. */
  function SegmentTimes(p: Planner, pow: Pow, beta: real): (t: seq<real>)
    requires Valid(p)
    ensures |t| == |p.profile|
  {
    var w := Weights(p, pow, beta);
    var wt := TotalWeight(p, pow, beta);
    seq(|w|, i requires 0 <= i < |w| => p.totalTimeUs as real * w[i] / wt)
  }

  /** estimateSteps(beta): each entry's time share divided by its period. */
  function EstimateSteps(p: Planner, pow: Pow, beta: real): real
    requires Valid(p)
  {
    var t := SegmentTimes(p, pow, beta);
    SumReal(seq(|t|, i requires 0 <= i < |t| => t[i] / (p.profile[i] * p.baseTimeUs as real)))
  }

  /** The time shares always add up to the whole move time, whatever beta. */
  lemma SegmentTimesCoverTotal(p: Planner, pow: Pow, beta: real)
    requires Valid(p)
    ensures SumReal(SegmentTimes(p, pow, beta)) == p.totalTimeUs as real
  {
    var w := Weights(p, pow, beta);
    var wt := TotalWeight(p, pow, beta);
    var c := p.totalTimeUs as real / wt;
    var t := SegmentTimes(p, pow, beta);
    forall i | 0 <= i < |w|
      ensures t[i] == c * w[i]
    {
    }
    SumScaled(w, t, c);
  }

  // ---- feasibility -----------------------------------------------------------

  /** `(int)x`: truncation toward zero. */
  function Trunc(x: real): (r: int)
    ensures x >= 0.0 ==> r >= 0 && r as real <= x < r as real + 1.0
    ensures x < 0.0 ==> r <= 0 && r as real - 1.0 < x <= r as real
  {
    if x >= 0.0 then x.Floor else -((-x).Floor)
  }

  /** The integer residual (int)estimateSteps(beta) - total_steps. */
  function Residual(p: Planner, pow: Pow, beta: real): (r: int)
    requires Valid(p)
    ensures var exact := EstimateSteps(p, pow, beta) - p.totalSteps as real;
            exact - 1.0 < r as real < exact + 1.0
    ensures EstimateSteps(p, pow, beta) >= 0.0 ==> r + p.totalSteps >= 0
  {
    Trunc(EstimateSteps(p, pow, beta)) - p.totalSteps
  }

  predicate TimeInRange(p: Planner)
    requires Valid(p)
  {
    var n := p.totalSteps as real;
    var base := p.baseTimeUs as real;
    && p.totalTimeUs as real >= n * p.profile[|p.profile| - 1] * base
    && p.totalTimeUs as real <= n * p.profile[0] * base
  }

  /** The value a 32-bit int holds after a two's-complement wrap of `x`. */
  function Int32(x: int): (r: int)
    ensures -0x8000_0000 <= r < 0x8000_0000
    ensures (x - r) % 0x1_0000_0000 == 0
    ensures -0x8000_0000 <= x < 0x8000_0000 ==> r == x
  {
    (x + 0x8000_0000) % 0x1_0000_0000 - 0x8000_0000
  }

  /** isFeasible: the time fits between all-fastest and all-slowest, and the
      residuals at the two ends of the bracket, held in 32-bit ints, have a
      negative product. The product is a 32-bit multiply; its overflow is
      taken to wrap. */
  function IsFeasible(p: Planner, pow: Pow): (ok: bool)
    requires Valid(p)
    ensures ok ==> TimeInRange(p)
    ensures var fLo := Int32(Residual(p, pow, p.lo));
            var fHi := Int32(Residual(p, pow, p.hi));
            -46340 <= fLo <= 46340 && -46340 <= fHi <= 46340 ==>
              (ok <==> TimeInRange(p) && (fLo < 0 < fHi || fHi < 0 < fLo))
  {
    var fLo := Int32(Residual(p, pow, p.lo));
    var fHi := Int32(Residual(p, pow, p.hi));
    var ok := TimeInRange(p) && Int32(fLo * fHi) < 0;
    if -46340 <= fLo <= 46340 && -46340 <= fHi <= 46340 then
      SmallProduct(fLo, fHi);
      SignOfProduct(fLo, fHi);
      ok
    else ok
  }

  lemma SmallProduct(a: int, b: int)
    requires -46340 <= a <= 46340 && -46340 <= b <= 46340
    ensures -0x8000_0000 <= a * b < 0x8000_0000
  {
    var x := if a < 0 then -a else a;
    var y := if b < 0 then -b else b;
    NonNegativeProduct(46340 - x, y);
    assert 46340 * y - x * y == (46340 - x) * y;
    assert x * y <= 46340 * 46340;
    NonNegativeProduct(x, y);
    if a < 0 {
      assert a * b == -(x * b);
    }
    if b < 0 {
      assert x * b == -(x * y);
    }
  }

  lemma NonNegativeProduct(a: int, b: int)
    requires a >= 0 && b >= 0
    ensures a * b >= 0
  {
  }

  /** The sign test as written misreads residuals whose product leaves the
      32-bit range: residuals of opposite signs about -57000 and +54000 (a
      move of 100000 steps in 40000 us at a 1 us base) read as "cannot
      converge", and two equal positive residuals of 50000 read as "can". */
  lemma ProductSignMisread()
    ensures Int32(-56988 * 54401) > 0
    ensures Int32(50000 * 50000) < 0
  {
  }

  /** isFeasible with the product widened to 64 bits: any two 32-bit
      residuals of opposite signs pass the test, and no others. */
  function IsFeasibleCorrected(p: Planner, pow: Pow): (ok: bool)
    requires Valid(p)
    ensures ok <==>
      && TimeInRange(p)
      && var fLo := Int32(Residual(p, pow, p.lo));
         var fHi := Int32(Residual(p, pow, p.hi));
         (fLo < 0 < fHi || fHi < 0 < fLo)
  {
    var fLo := Int32(Residual(p, pow, p.lo));
    var fHi := Int32(Residual(p, pow, p.hi));
    assert fLo * fHi < 0 <==> (fLo < 0 < fHi || fHi < 0 < fLo) by {
      SignOfProduct(fLo, fHi);
    }
    TimeInRange(p) && fLo * fHi < 0
  }

  lemma SignOfProduct(a: int, b: int)
    ensures a * b < 0 <==> (a < 0 < b || b < 0 < a)
  {
    if a > 0 && b > 0 {
      assert a * b > 0;
    } else if a < 0 && b < 0 {
      assert a * b == (-a) * (-b);
      assert (-a) * (-b) > 0;
    } else if a < 0 && b > 0 {
      assert (-a) * b > 0;
    } else if a > 0 && b < 0 {
      assert a * (-b) > 0;
    }
  }

  // ---- bisection -------------------------------------------------------------

  /** The real residual the bisection tests against its tolerance. */
  function Gap(p: Planner, pow: Pow, beta: real): real
    requires Valid(p)
  {
    EstimateSteps(p, pow, beta) - p.totalSteps as real
  }

  function Pow2(k: nat): (r: real)
    ensures r >= 1.0
  {
    if k == 0 then 1.0 else 2.0 * Pow2(k - 1)
  }

  function AbsReal(x: real): real {
    if x < 0.0 then -x else x
  }

  /** The outcome of one bisection step on bracket [lo, hi]: the midpoint
      and the bracket it leaves, or the midpoint alone when it is within
      tolerance. */
  datatype Step = Converged(beta: real) | Narrowed(beta: real, lo: real, hi: real)

  function BisectStep(p: Planner, pow: Pow, lo: real, hi: real): (s: Step)
    requires Valid(p)
    ensures s.beta == (lo + hi) / 2.0
    ensures s.Converged? <==> AbsReal(Gap(p, pow, s.beta)) <= TOLERANCE
    ensures s.Narrowed? ==> hi - lo == 2.0 * (s.hi - s.lo)
    ensures s.Narrowed? && Gap(p, pow, s.beta) > 0.0 ==> s.lo == lo && s.hi == s.beta
    ensures s.Narrowed? && Gap(p, pow, s.beta) <= 0.0 ==> s.lo == s.beta && s.hi == hi
  {
    var beta := 0.5 * (lo + hi);
    var fMid := Gap(p, pow, beta);
    if AbsReal(fMid) <= TOLERANCE then Converged(beta)
    else if fMid > 0.0 then Narrowed(beta, lo, beta)
    else Narrowed(beta, beta, hi)
  }

  /** getBeta: at most MAX_ITER halvings of the planner's own bracket,
      stopping early at a midpoint within tolerance. The planner comes back
      with its narrowed bracket, which a later call starts from. */
  method GetBeta(p: Planner, pow: Pow) returns (beta: real, p': Planner, halvings: nat)
    requires Valid(p)
    ensures halvings <= MAX_ITER
    ensures p' == p.(lo := p'.lo, hi := p'.hi)
    ensures p'.hi - p'.lo == (p.hi - p.lo) / Pow2(halvings)
    ensures p.lo <= p.hi ==> p.lo <= p'.lo <= beta <= p'.hi <= p.hi
    ensures halvings < MAX_ITER ==> AbsReal(Gap(p, pow, beta)) <= TOLERANCE
    ensures Gap(p, pow, p.lo) <= 0.0 < Gap(p, pow, p.hi) ==> Gap(p, pow, p'.lo) <= 0.0 < Gap(p, pow, p'.hi)
  {
    var lo, hi := p.lo, p.hi;
    var bracketed := Gap(p, pow, p.lo) <= 0.0 < Gap(p, pow, p.hi);
    beta := 0.0;
    halvings := 0;
    var done := false;
    while halvings < MAX_ITER && !done
      invariant halvings <= MAX_ITER
      invariant hi - lo == (p.hi - p.lo) / Pow2(halvings)
      invariant p.lo <= p.hi ==> p.lo <= lo <= hi <= p.hi
      invariant p.lo <= p.hi && (halvings > 0 || done) ==> lo <= beta <= hi
      invariant done ==> AbsReal(Gap(p, pow, beta)) <= TOLERANCE
      invariant bracketed ==> Gap(p, pow, lo) <= 0.0 < Gap(p, pow, hi)
      decreases MAX_ITER - halvings, if done then 0 else 1
    {
      var s := BisectStep(p, pow, lo, hi);
      beta := s.beta;
      if s.Converged? {
        done := true;
      } else {
        HalveWidth(p.hi - p.lo, hi - lo, s.hi - s.lo, halvings);
        lo, hi := s.lo, s.hi;
        halvings := halvings + 1;
      }
    }
    p' := p.(lo := lo, hi := hi);
  }

  lemma HalveWidth(width0: real, width: real, width': real, k: nat)
    requires width == width0 / Pow2(k)
    requires width == 2.0 * width'
    ensures width' == width0 / Pow2(k + 1)
  {
    var q := Pow2(k);
    assert width' == width0 / q / 2.0;
  }

  // ---- segment generation ----------------------------------------------------

  /** period_us = round(base * profile[i]), which does not involve beta. */
  function Period(p: Planner, i: nat): int
    requires Valid(p) && i < |p.profile|
  {
    RoundReal(p.baseTimeUs as real * p.profile[i])
  }

  predicate PeriodsPositive(p: Planner)
    requires Valid(p)
  {
    forall i :: 0 <= i < |p.profile| ==> Period(p, i) > 0
  }

  /** `s` runs the nearest whole number of steps to time share `t`: a
      non-negative count within half a period of it. */
  predicate RoundsShare(s: Segment, t: real) {
    var per := s.periodUs as real;
    s.steps >= 0 && per * (s.steps as real - 0.5) <= t < per * (s.steps as real + 0.5)
  }

  /** generateSegments: one segment per profile entry, running round(share /
      period) steps at the entry's rounded period, with the shares taken at
      the beta the bisection returns. */
  method GenerateSegments(p: Planner, pow: Pow) returns (segs: seq<Segment>, p': Planner, beta: real)
    requires Valid(p) && PeriodsPositive(p)
    ensures |segs| == |p.profile|
    ensures p' == p.(lo := p'.lo, hi := p'.hi)
    ensures forall i :: 0 <= i < |segs| ==> segs[i].periodUs == Period(p, i)
    ensures forall i :: 0 <= i < |segs| ==> RoundsShare(segs[i], SegmentTimes(p, pow, beta)[i])
    ensures p.lo <= p.hi ==> p.lo <= p'.lo <= beta <= p'.hi <= p.hi
    ensures AbsReal(Gap(p, pow, beta)) > TOLERANCE ==> p'.hi - p'.lo == (p.hi - p.lo) / Pow2(MAX_ITER)
    ensures Gap(p, pow, p.lo) <= 0.0 < Gap(p, pow, p.hi) ==> Gap(p, pow, p'.lo) <= 0.0 < Gap(p, pow, p'.hi)
  {
    var halvings;
    beta, p', halvings := GetBeta(p, pow);
    var times := SegmentTimes(p, pow, beta);
    segs := [];
    var i := 0;
    while i < |p.profile|
      invariant 0 <= i <= |p.profile|
      invariant |segs| == i
      invariant forall j :: 0 <= j < i ==> segs[j].periodUs == Period(p, j)
      invariant forall j :: 0 <= j < i ==> RoundsShare(segs[j], times[j])
    {
      ShareNonNegative(p, pow, beta, i);
      segs := segs + [SegmentFor(p, i, times[i])];
      i := i + 1;
    }
  }

  /** The segment of profile entry `i` for time share `t`. */
  function SegmentFor(p: Planner, i: nat, t: real): (s: Segment)
    requires Valid(p) && PeriodsPositive(p) && i < |p.profile| && t >= 0.0
    ensures s.periodUs == Period(p, i) && RoundsShare(s, t)
  {
    var period := Period(p, i);
    var steps := RoundReal(t / period as real);
    StepsFromQuotient(t, period as real, steps);
    Segment(steps, period)
  }

  lemma ShareNonNegative(p: Planner, pow: Pow, beta: real, i: nat)
    requires Valid(p) && i < |p.profile|
    ensures SegmentTimes(p, pow, beta)[i] >= 0.0
  {
    var w := Weights(p, pow, beta);
    assert w[i] > 0.0;
  }

  /** Rounding a non-negative quotient q = t / per to n bounds t by the
      periods of n - 1/2 and n + 1/2 steps. */
  lemma StepsFromQuotient(t: real, per: real, n: int)
    requires t >= 0.0 && per > 0.0
    requires n == RoundReal(t / per)
    ensures n >= 0
    ensures per * (n as real - 0.5) <= t
    ensures t < per * (n as real + 0.5)
  {
    var q := t / per;
    assert per * q == t;
    assert n as real - 0.5 <= q < n as real + 0.5;
    MulWeak(per, n as real - 0.5, q);
    MulStrict(per, q, n as real + 0.5);
    var hiBound := per * (n as real + 0.5);
    assert per * q < hiBound;
    assert t < hiBound;
  }

  lemma MulStrict(a: real, x: real, y: real)
    requires a > 0.0 && x < y
    ensures a * x < a * y
  {
    assert a * y - a * x == a * (y - x);
  }

  lemma MulWeak(a: real, x: real, y: real)
    requires a > 0.0 && x <= y
    ensures a * x <= a * y
  {
    assert a * y - a * x == a * (y - x);
  }

  /** Two planners that differ only in their bracket produce the same
      periods: the period of a segment never depends on beta. */
  lemma PeriodsIndependentOfBracket(p: Planner, q: Planner, i: nat)
    requires Valid(p) && i < |p.profile|
    requires q == p.(lo := q.lo, hi := q.hi)
    ensures Valid(q) && Period(q, i) == Period(p, i)
  {
  }
}

=== FILE: ota.dfy ===
/** The firmware-update component's bookkeeping: the persisted status
    record and its recovery after a reboot, the stored update URL, the
    progress arithmetic and the order of states an update walks through.
    Storage and the SDK calls are inputs; a call that reboots the device
    ends in a `Rebooted` outcome. */
module Ota {
  import opened Bytes
  import opened Wrappers
  import EspErr

  /** ESP_ERR_NVS_NOT_FOUND: no value stored under the key. */
  const ERR_NVS_NOT_FOUND: int := 0x1102

  // state codes, as persisted and reported
  const UNKNOWN: byte := 0
  const IDLE: byte := 1
  const DOWNLOADING: byte := 2
  const VERIFYING: byte := 3
  const FLASHING: byte := 4
  const COMPLETE: byte := 5
  const ERROR: byte := 6

  const FUNCTION_FIELD: nat := 32
  const STATUS_SIZE: nat := 42

  /** The packed status record. The state is a raw byte because it is
      loaded from storage without range checking; the function name is the
      raw 32-byte field. */
  datatype Status = Status(
    state: byte, progress: byte, errorCode: int, bytesDownloaded: nat, errorFunction: seq<byte>)

  predicate ValidStatus(s: Status) {
    && -0x8000_0000 <= s.errorCode < 0x8000_0000
    && s.bytesDownloaded < 0x1_0000_0000
    && |s.errorFunction| == FUNCTION_FIELD
  }

  /** The default-constructed record: IDLE, no progress, ESP_OK, no bytes,
      empty function name. */
  function DefaultStatus(): (s: Status)
    ensures ValidStatus(s) && s.state == IDLE && s.errorCode == EspErr.OK
    ensures CutAtNul(s.errorFunction) == []
  {
    Status(IDLE, 0, EspErr.OK, 0, Zeros(FUNCTION_FIELD))
  }

  /** "interrupted_by_reboot" */
  const INTERRUPTED_BY_REBOOT: seq<byte> :=
    [0x69, 0x6e, 0x74, 0x65, 0x72, 0x72, 0x75, 0x70, 0x74, 0x65, 0x64, 0x5f,
     0x62, 0x79, 0x5f, 0x72, 0x65, 0x62, 0x6f, 0x6f, 0x74]

  /** The stale-state rule applied to the record loaded at boot. */
  function RecoverAfterReboot(s: Status): (r: Status)
    requires ValidStatus(s)
    ensures ValidStatus(r)
    ensures s.state in {DOWNLOADING, VERIFYING, FLASHING} ==>
              && r.state == ERROR && r.progress == s.progress && r.bytesDownloaded == s.bytesDownloaded
              && (s.errorCode == EspErr.OK ==>
                    r.errorCode == EspErr.ERR_INVALID_STATE && CutAtNul(r.errorFunction) == INTERRUPTED_BY_REBOOT)
              && (s.errorCode != EspErr.OK ==> r.errorCode == s.errorCode && r.errorFunction == s.errorFunction)
    ensures s.state == COMPLETE ==> r == DefaultStatus()
    ensures s.state !in {DOWNLOADING, VERIFYING, FLASHING, COMPLETE} ==> r == s
  {
    if s.state in {DOWNLOADING, VERIFYING, FLASHING} then
      if s.errorCode == EspErr.OK then
        var f := Strncpy(s.errorFunction, INTERRUPTED_BY_REBOOT, FUNCTION_FIELD - 1);
        StrncpyReadsBack(s.errorFunction, INTERRUPTED_BY_REBOOT, FUNCTION_FIELD - 1);
        s.(state := ERROR, errorCode := EspErr.ERR_INVALID_STATE, errorFunction := f)
      else s.(state := ERROR)
    else if s.state == COMPLETE then DefaultStatus()
    else s
  }

  /** Recovery is idempotent: a recovered record never holds an in-flight
      or completed state, so recovering it again changes nothing. */
  lemma RecoverIdempotent(s: Status)
    requires ValidStatus(s)
    ensures RecoverAfterReboot(RecoverAfterReboot(s)) == RecoverAfterReboot(s)
    ensures RecoverAfterReboot(s).state !in {DOWNLOADING, VERIFYING, FLASHING, COMPLETE}
  {
  }

  /** The component: whether init completed, the status record, the stored
      URL and the stored update-mode flag. */
  datatype Ota = Ota(initialized: bool, status: Status, url: Option<seq<byte>>, modeFlag: Option<byte>)

  /** init: a second call is a no-op; otherwise the record loaded from
      storage is recovered, and if the running image awaits verification
      the rollback handler's result is returned without completing init. */
  function Init(o: Ota, loaded: Status, pendingVerify: bool, rollbackErr: int): (r: (int, Ota))
    requires ValidStatus(loaded)
    ensures o.initialized ==> r == (EspErr.OK, o)
    ensures !o.initialized ==> r.1.status == RecoverAfterReboot(loaded) && r.1.url == o.url
    ensures !o.initialized ==> (r.1.initialized <==> !pendingVerify)
    ensures !o.initialized && pendingVerify ==> r.0 == rollbackErr
    ensures !o.initialized && !pendingVerify ==> r.0 == EspErr.OK
  {
    if o.initialized then (EspErr.OK, o)
    else
      var o1 := o.(status := RecoverAfterReboot(loaded));
      if pendingVerify then (rollbackErr, o1) else (EspErr.OK, o1.(initialized := true))
  }

  /** A second init after a successful one returns ESP_OK and changes
      nothing, whatever storage holds. */
  lemma InitTwice(o: Ota, loaded: Status, loaded2: Status, rollbackErr: int)
    requires ValidStatus(loaded) && ValidStatus(loaded2)
    ensures var (err, o1) := Init(o, loaded, false, rollbackErr);
            Init(o1, loaded2, true, rollbackErr) == (EspErr.OK, o1) && err == EspErr.OK
  {
  }

  // ---- the update URL -------------------------------------------------------------

  /** set_ota_url: a missing or empty URL is refused with INVALID_ARG;
      otherwise the URL is stored unless storage fails (`nvsErr`). */
  function SetOtaUrl(o: Ota, url: Option<seq<byte>>, nvsErr: int): (r: (int, Ota))
    requires url.Some? ==> NulFree(url.value)
    ensures (url.None? || url.value == []) ==> r == (EspErr.ERR_INVALID_ARG, o)
    ensures url.Some? && url.value != [] && nvsErr == EspErr.OK ==> r == (EspErr.OK, o.(url := url))
    ensures url.Some? && url.value != [] && nvsErr != EspErr.OK ==> r == (nvsErr, o)
  {
    if url.None? || url.value == [] then (EspErr.ERR_INVALID_ARG, o)
    else if nvsErr != EspErr.OK then (nvsErr, o)
    else (EspErr.OK, o.(url := url))
  }

  /** get_ota_url's result: the error, the size it reports back and the
      bytes it wrote into the caller's buffer. */
  datatype UrlRead = UrlRead(err: int, size: nat, bytes: seq<byte>)

  /** get_ota_url(buffer of `bufferSize` bytes): the stored URL with its NUL
      when it fits; NO_MEM when it does not; NOT_FOUND without a URL. */
  function GetOtaUrl(o: Ota, bufferSize: nat, nvsErr: int): (r: UrlRead)
    ensures nvsErr != EspErr.OK ==> r == UrlRead(nvsErr, bufferSize, [])
    ensures nvsErr == EspErr.OK && o.url.None? ==> r.err == ERR_NVS_NOT_FOUND && r.size == bufferSize
    ensures nvsErr == EspErr.OK && o.url.Some? ==>
              && (r.err == EspErr.OK <==> |o.url.value| + 1 <= bufferSize)
              && (r.err == EspErr.OK ==> r.size == |o.url.value| + 1 && r.bytes == o.url.value + [NUL])
              && (r.err != EspErr.OK ==> r.err == EspErr.ERR_NO_MEM && r.size == bufferSize && r.bytes == [])
  {
    if nvsErr != EspErr.OK then UrlRead(nvsErr, bufferSize, [])
    else if o.url.None? then UrlRead(ERR_NVS_NOT_FOUND, bufferSize, [])
    else
      var required := |o.url.value| + 1;
      if required <= bufferSize then UrlRead(EspErr.OK, required, o.url.value + [NUL])
      else UrlRead(EspErr.ERR_NO_MEM, bufferSize, [])
  }

  /** A URL stored by set_ota_url reads back whole through any buffer with
      room for it and its terminator. */
  lemma UrlRoundTrip(o: Ota, url: seq<byte>, bufferSize: nat)
    requires NulFree(url) && url != [] && |url| < bufferSize
    ensures var o1 := SetOtaUrl(o, Some(url), EspErr.OK).1;
            var r := GetOtaUrl(o1, bufferSize, EspErr.OK);
            r.err == EspErr.OK && CutAtNul(r.bytes) == url
  {
    CutAtNulTerminated(url, []);
    assert url + [NUL] == url + [NUL] + [];
  }

  // ---- progress and errors --------------------------------------------------------

  /** The status's progress after a data chunk: total * 100 / length,
      truncated to the 8-bit field, when the length is known (positive);
      otherwise unchanged. The int arithmetic must not overflow. */
  function Progress(prev: byte, totalWritten: nat, contentLength: int): (p: byte)
    requires totalWritten * 100 < 0x8000_0000
    ensures contentLength <= 0 ==> p == prev
    ensures 0 < contentLength && totalWritten <= contentLength ==>
              p <= 100 && p * contentLength <= totalWritten * 100 < (p + 1) * contentLength
  {
    if contentLength > 0 then
      Percent(totalWritten, contentLength);
      (totalWritten * 100 / contentLength) % 256
    else prev
  }

  /** The truncated percentage brackets the exact one and stays within 100
      while the count stays within the length. */
  lemma Percent(t: nat, c: int)
    requires c > 0
    ensures var q := t * 100 / c;
            q * c <= t * 100 < (q + 1) * c && (t <= c ==> 0 <= q <= 100)
  {
    var n := t * 100;
    var q := n / c;
    assert n == c * q + n % c;
    if t <= c && q > 100 {
      ScaleLe(101, q, c);
    }
  }

  /** Progress never goes down while the download grows within the
      announced length. */
  lemma ProgressMonotone(prev: byte, a: nat, b: nat, contentLength: int)
    requires 0 < contentLength && a <= b <= contentLength
    requires b * 100 < 0x8000_0000
    ensures Progress(prev, a, contentLength) <= Progress(prev, b, contentLength)
  {
    var pa := Progress(prev, a, contentLength);
    var pb := Progress(prev, b, contentLength);
    if pa > pb {
      ScaleLe(pb + 1, pa, contentLength);
    }
  }

  lemma ScaleLe(x: int, y: int, c: int)
    requires x <= y && c > 0
    ensures x * c <= y * c
  {
  }

  /** set_error: state ERROR, the code, and at most 31 bytes of the
      function name with a terminator in the last byte of the field. */
  function SetError(s: Status, err: int, fn: seq<byte>): (r: Status)
    requires ValidStatus(s) && NulFree(fn) && -0x8000_0000 <= err < 0x8000_0000
    ensures ValidStatus(r) && r.state == ERROR && r.errorCode == err
    ensures r.progress == s.progress && r.bytesDownloaded == s.bytesDownloaded
    ensures r.errorFunction[FUNCTION_FIELD - 1] == NUL
    ensures |fn| < FUNCTION_FIELD ==> CutAtNul(r.errorFunction) == fn
    ensures |fn| >= FUNCTION_FIELD - 1 ==> CutAtNul(r.errorFunction) == fn[..FUNCTION_FIELD - 1]
  {
    s.(state := ERROR, errorCode := err, errorFunction := CopyCString(s.errorFunction, fn))
  }

  /** reset_status: the default record. */
  function ResetStatus(o: Ota): (r: Ota)
    ensures r.status.state == IDLE && r == o.(status := DefaultStatus())
  {
    o.(status := DefaultStatus())
  }

  // ---- the update sequence ------------------------------------------------------------

  /** Results of the steps of an update, as reported by storage, the network
      and the flash layer. */
  datatype UpdateEnv = UpdateEnv(
    urlErr: int, wifiErr: int, partitionFound: bool, beginErr: int,
    performErr: int, otaSuccess: bool, endErr: int, bootErr: int)

  datatype Outcome = Returned(err: int) | Rebooted

  /** The update gets as far as the download: the URL is read, WiFi is up,
      an update partition exists and the flash update has begun. */
  predicate ReachesDownload(env: UpdateEnv) {
    && env.urlErr == EspErr.OK && env.wifiErr == EspErr.OK
    && env.partitionFound && env.beginErr == EspErr.OK
  }

  /** perform_ota_mode_update: the states it records, in order, and how it
      ends. Failures before the download return; everything after the
      download attempt reboots. */
  function PerformUpdate(env: UpdateEnv): (r: (seq<byte>, Outcome))
    ensures |r.0| >= 1 && r.0[0] == DOWNLOADING
    ensures forall i, j :: 0 <= i < j < |r.0| ==> r.0[i] < r.0[j]
    ensures r.0[|r.0| - 1] == COMPLETE || r.0[|r.0| - 1] == ERROR
    ensures r.0[|r.0| - 1] == COMPLETE <==>
              && env.urlErr == EspErr.OK && env.wifiErr == EspErr.OK && env.partitionFound
              && env.beginErr == EspErr.OK && env.performErr == EspErr.OK && env.otaSuccess
              && env.endErr == EspErr.OK && env.bootErr == EspErr.OK
    ensures r.1 == Rebooted <==> ReachesDownload(env)
    ensures env.urlErr != EspErr.OK ==> r == ([DOWNLOADING, ERROR], Returned(EspErr.ERR_NOT_FOUND))
    ensures env.urlErr == EspErr.OK && env.wifiErr != EspErr.OK ==>
              r == ([DOWNLOADING, ERROR], Returned(env.wifiErr))
    ensures env.urlErr == EspErr.OK && env.wifiErr == EspErr.OK && !env.partitionFound ==>
              r == ([DOWNLOADING, ERROR], Returned(EspErr.ERR_NOT_FOUND))
    ensures env.urlErr == EspErr.OK && env.wifiErr == EspErr.OK && env.partitionFound && env.beginErr != EspErr.OK ==>
              r == ([DOWNLOADING, ERROR], Returned(env.beginErr))
    ensures ReachesDownload(env) && (env.performErr != EspErr.OK || !env.otaSuccess) ==>
              r.0 == [DOWNLOADING, ERROR]
    ensures ReachesDownload(env) && env.performErr == EspErr.OK && env.otaSuccess && env.endErr != EspErr.OK ==>
              r.0 == [DOWNLOADING, VERIFYING, ERROR]
    ensures ReachesDownload(env) && env.performErr == EspErr.OK && env.otaSuccess && env.endErr == EspErr.OK
            && env.bootErr != EspErr.OK ==>
              r.0 == [DOWNLOADING, VERIFYING, FLASHING, ERROR]
  {
    if env.urlErr != EspErr.OK then ([DOWNLOADING, ERROR], Returned(EspErr.ERR_NOT_FOUND))
    else if env.wifiErr != EspErr.OK then ([DOWNLOADING, ERROR], Returned(env.wifiErr))
    else if !env.partitionFound then ([DOWNLOADING, ERROR], Returned(EspErr.ERR_NOT_FOUND))
    else if env.beginErr != EspErr.OK then ([DOWNLOADING, ERROR], Returned(env.beginErr))
    else if env.performErr != EspErr.OK || !env.otaSuccess then ([DOWNLOADING, ERROR], Rebooted)
    else if env.endErr != EspErr.OK then ([DOWNLOADING, VERIFYING, ERROR], Rebooted)
    else if env.bootErr != EspErr.OK then ([DOWNLOADING, VERIFYING, FLASHING, ERROR], Rebooted)
    else ([DOWNLOADING, VERIFYING, FLASHING, COMPLETE], Rebooted)
  }

  /** What the next boot finds: a successful update clears the stored
      record (so the default is loaded), any other ending leaves ERROR in
      it. Either way no in-flight state survives the reboot: recovery
      yields IDLE after success and ERROR after any failure. */
  lemma UpdateThenReboot(env: UpdateEnv, s: Status)
    requires ValidStatus(s)
    ensures var trace := PerformUpdate(env).0;
            var last := trace[|trace| - 1];
            var stored := if last == COMPLETE then DefaultStatus() else s.(state := last);
            RecoverAfterReboot(stored).state == if last == COMPLETE then IDLE else ERROR
  {
  }

  // ---- the download's data handler ------------------------------------------------

  /** "esp_ota_write" */
  const ESP_OTA_WRITE: seq<byte> :=
    [0x65, 0x73, 0x70, 0x5f, 0x6f, 0x74, 0x61, 0x5f, 0x77, 0x72, 0x69, 0x74, 0x65]

  /** One data event of the download: the chunk's length and what the
      flash write of it returned. */
  datatype Chunk = Chunk(len: nat, writeErr: int)

  /** The download context: the success flag, the bytes written, the
      announced length and the status record it writes through. `failed`
      is not in the firmware's context: only the corrected handler keeps
      it, to remember that a write has failed. */
  datatype Download = Download(
    success: bool, failed: bool, totalWritten: nat, contentLength: int, status: Status)

  predicate Written(c: Chunk) { c.len > 0 && c.writeErr == EspErr.OK }

  predicate WriteFails(c: Chunk) { c.len > 0 && c.writeErr != EspErr.OK }

  predicate AllEmpty(cs: seq<Chunk>) { forall i :: 0 <= i < |cs| ==> cs[i].len == 0 }

  predicate NoFailure(cs: seq<Chunk>) { forall i :: 0 <= i < |cs| ==> !WriteFails(cs[i]) }

  predicate SomeWritten(cs: seq<Chunk>) { exists i :: 0 <= i < |cs| && Written(cs[i]) }

  /** The last non-empty chunk was written. */
  predicate LastWriteOk(cs: seq<Chunk>) {
    exists i :: 0 <= i < |cs| && Written(cs[i]) && AllEmpty(cs[i + 1..])
  }

  function TotalLen(cs: seq<Chunk>): nat {
    if cs == [] then 0 else cs[0].len + TotalLen(cs[1..])
  }

  /** Chunks the handler can take from context `d`: the error codes are
      32-bit and the percentage stays in range however many are written. */
  predicate Fits(d: Download, cs: seq<Chunk>) {
    && ValidStatus(d.status)
    && (forall i :: 0 <= i < |cs| ==> -0x8000_0000 <= cs[i].writeErr < 0x8000_0000)
    && (d.totalWritten + TotalLen(cs)) * 100 < 0x8000_0000
  }

  /** The context perform_ota_mode_update hands to the HTTP client: not yet
      successful, nothing written, and the length the headers announce. */
  function StartDownload(contentLength: int, s: Status): (d: Download)
    ensures !d.success && !d.failed && d.totalWritten == 0 && d.status == s
  {
    Download(false, false, 0, contentLength, s)
  }

  /** The data event handler as written. An empty chunk is ignored. A failed
      write clears the success flag and records ERROR with the code and
      "esp_ota_write", and the handler returns ESP_FAIL. A good write counts
      the bytes, sets the success flag whatever happened before, and records
      the byte count and progress, leaving the state alone. */
  function OnData(d: Download, c: Chunk): (r: (Download, int))
    requires ValidStatus(d.status) && -0x8000_0000 <= c.writeErr < 0x8000_0000
    requires (d.totalWritten + c.len) * 100 < 0x8000_0000
    ensures ValidStatus(r.0.status) && r.0.contentLength == d.contentLength && r.0.failed == d.failed
    ensures r.1 == (if WriteFails(c) then EspErr.FAIL else EspErr.OK)
    ensures c.len == 0 ==> r.0 == d
    ensures WriteFails(c) ==>
              && !r.0.success && r.0.totalWritten == d.totalWritten
              && r.0.status.state == ERROR && r.0.status.errorCode == c.writeErr
              && CutAtNul(r.0.status.errorFunction) == ESP_OTA_WRITE
              && r.0.status.progress == d.status.progress
              && r.0.status.bytesDownloaded == d.status.bytesDownloaded
    ensures Written(c) ==>
              && r.0.success && r.0.totalWritten == d.totalWritten + c.len
              && r.0.status.state == d.status.state && r.0.status.errorCode == d.status.errorCode
              && r.0.status.bytesDownloaded == r.0.totalWritten
              && r.0.status.progress == Progress(d.status.progress, r.0.totalWritten, d.contentLength)
  {
    if c.len == 0 then (d, EspErr.OK)
    else if c.writeErr != EspErr.OK then
      StrncpyReadsBack(d.status.errorFunction, ESP_OTA_WRITE, FUNCTION_FIELD - 1);
      var s := d.status.(state := ERROR, errorCode := c.writeErr,
                         errorFunction := Strncpy(d.status.errorFunction, ESP_OTA_WRITE, FUNCTION_FIELD - 1));
      (d.(success := false, status := s), EspErr.FAIL)
    else
      var total := d.totalWritten + c.len;
      var s := d.status.(bytesDownloaded := total, progress := Progress(d.status.progress, total, d.contentLength));
      (d.(success := true, totalWritten := total, status := s), EspErr.OK)
  }

  /** The handler with the failure kept: the same writes to the record, but
      once a write has failed no later chunk sets the success flag again. */
  function OnDataCorrected(d: Download, c: Chunk): (r: (Download, int))
    requires ValidStatus(d.status) && -0x8000_0000 <= c.writeErr < 0x8000_0000
    requires (d.totalWritten + c.len) * 100 < 0x8000_0000
    ensures r.1 == OnData(d, c).1 && r.0.status == OnData(d, c).0.status
    ensures r.0.totalWritten == OnData(d, c).0.totalWritten && r.0.contentLength == d.contentLength
    ensures r.0.failed <==> d.failed || WriteFails(c)
    ensures c.len == 0 ==> r.0 == d
    ensures c.len > 0 ==> (r.0.success <==> Written(c) && !d.failed)
  {
    var (w, err) := OnData(d, c);
    if WriteFails(c) then (w.(failed := true), err)
    else if Written(c) then (w.(success := !d.failed), err)
    else (w, err)
  }

  /** The chunks of one download through the handler, in order: the final
      context, and the states the handler wrote into the record, which are
      one ERROR per failed write. */
  function RunDownload(d: Download, cs: seq<Chunk>, corrected: bool): (r: (Download, seq<byte>))
    requires Fits(d, cs)
    ensures ValidStatus(r.0.status) && r.0.contentLength == d.contentLength
    ensures forall k :: 0 <= k < |r.1| ==> r.1[k] == ERROR
    ensures r.1 == [] <==> NoFailure(cs)
    decreases |cs|
  {
    if cs == [] then (d, [])
    else
      var d1 := if corrected then OnDataCorrected(d, cs[0]).0 else OnData(d, cs[0]).0;
      assert Fits(d1, cs[1..]) by {
        assert forall i :: 0 <= i < |cs[1..]| ==> cs[1..][i] == cs[i + 1];
      }
      var (d2, states) := RunDownload(d1, cs[1..], corrected);
      assert NoFailure(cs) <==> !WriteFails(cs[0]) && NoFailure(cs[1..]) by {
        assert forall i :: 0 < i < |cs| ==> cs[i] == cs[1..][i - 1];
      }
      (d2, (if WriteFails(cs[0]) then [ERROR] else []) + states)
  }

  /** As written, the download counts as successful exactly when its last
      non-empty chunk was written (or, with no data at all, when the flag
      already was set): an earlier failure is forgotten. */
  lemma {:induction false} WrittenSuccessIsLastWrite(d: Download, cs: seq<Chunk>)
    requires Fits(d, cs)
    ensures RunDownload(d, cs, false).0.success <==> (AllEmpty(cs) && d.success) || LastWriteOk(cs)
    decreases |cs|
  {
    if cs != [] {
      var d1 := OnData(d, cs[0]).0;
      var rest := cs[1..];
      assert Fits(d1, rest) by {
        assert forall i :: 0 <= i < |rest| ==> rest[i] == cs[i + 1];
      }
      WrittenSuccessIsLastWrite(d1, rest);
      LastWriteShift(cs);
    }
  }

  /** How the quantified facts about `cs` split into its head and tail. */
  lemma LastWriteShift(cs: seq<Chunk>)
    requires cs != []
    ensures AllEmpty(cs) <==> cs[0].len == 0 && AllEmpty(cs[1..])
    ensures LastWriteOk(cs) <==>
              LastWriteOk(cs[1..]) || (Written(cs[0]) && AllEmpty(cs[1..]))
  {
    var rest := cs[1..];
    assert forall i :: 0 < i < |cs| ==> cs[i] == rest[i - 1];
    assert forall i :: 0 <= i < |cs| ==> cs[i + 1..] == rest[i..];
    if LastWriteOk(cs) {
      var i :| 0 <= i < |cs| && Written(cs[i]) && AllEmpty(cs[i + 1..]);
      if i > 0 {
        assert Written(rest[i - 1]) && AllEmpty(rest[i - 1 + 1..]);
      }
    }
    if LastWriteOk(rest) {
      var i :| 0 <= i < |rest| && Written(rest[i]) && AllEmpty(rest[i + 1..]);
      assert Written(cs[i + 1]) && AllEmpty(cs[i + 1 + 1..]);
    }
  }

  /** With the failure kept, the download succeeds exactly when no write
      failed and at least one chunk was written (or the flag already was
      set). */
  lemma {:induction false} CorrectedSuccessNeedsEveryWrite(d: Download, cs: seq<Chunk>)
    requires Fits(d, cs) && (d.success ==> !d.failed)
    ensures RunDownload(d, cs, true).0.success <==>
              !d.failed && NoFailure(cs) && (d.success || SomeWritten(cs))
    decreases |cs|
  {
    if cs != [] {
      var d1 := OnDataCorrected(d, cs[0]).0;
      var rest := cs[1..];
      assert Fits(d1, rest) by {
        assert forall i :: 0 <= i < |rest| ==> rest[i] == cs[i + 1];
      }
      CorrectedSuccessNeedsEveryWrite(d1, rest);
      assert forall i :: 0 < i < |cs| ==> cs[i] == rest[i - 1];
      assert NoFailure(cs) <==> !WriteFails(cs[0]) && NoFailure(rest);
      if SomeWritten(rest) {
        var i :| 0 <= i < |rest| && Written(rest[i]);
        assert Written(cs[i + 1]);
      }
      if SomeWritten(cs) && !Written(cs[0]) {
        var i :| 0 <= i < |cs| && Written(cs[i]);
        assert Written(rest[i - 1]);
      }
    }
  }

  /** perform_ota_mode_update with its download spelled out: once the
      update reaches the download, the record takes DOWNLOADING, then the
      handler's ERROR writes, then the states set after the transfer, which
      goes on to verification when the transfer returns OK with the
      context's success flag set. `env.otaSuccess` is replaced by that
      flag. */
  function UpdateWithDownload(env: UpdateEnv, contentLength: int, s: Status, cs: seq<Chunk>, corrected: bool)
    : (r: (seq<byte>, Outcome))
    requires Fits(StartDownload(contentLength, s), cs)
    ensures !ReachesDownload(env) ==> r == PerformUpdate(env)
    ensures r.1 == Rebooted <==> ReachesDownload(env)
    ensures |r.0| >= 2 && r.0[0] == DOWNLOADING
    ensures NoFailure(cs) ==> forall i, j :: 0 <= i < j < |r.0| ==> r.0[i] < r.0[j]
    ensures r.0[|r.0| - 1] == COMPLETE <==>
              && ReachesDownload(env) && env.performErr == EspErr.OK
              && env.endErr == EspErr.OK && env.bootErr == EspErr.OK
              && (if corrected then NoFailure(cs) && SomeWritten(cs) else LastWriteOk(cs))
  {
    if !ReachesDownload(env) then PerformUpdate(env)
    else
      var d0 := StartDownload(contentLength, s);
      var (dl, states) := RunDownload(d0, cs, corrected);
      CorrectedSuccessNeedsEveryWrite(d0, cs);
      WrittenSuccessIsLastWrite(d0, cs);
      var env' := env.(otaSuccess := dl.success);
      DownloadTrace(env', states);
      ([DOWNLOADING] + states + PerformUpdate(env').0[1..], Rebooted)
  }

  /** The handler's ERRORs spliced in after DOWNLOADING keep the trace's
      ends, and without them the trace is perform_ota_mode_update's own. */
  lemma DownloadTrace(env: UpdateEnv, states: seq<byte>)
    requires ReachesDownload(env)
    ensures var tail := PerformUpdate(env).0;
            var trace := [DOWNLOADING] + states + tail[1..];
            && |tail| >= 2 && |trace| >= 2 && trace[0] == DOWNLOADING
            && trace[|trace| - 1] == tail[|tail| - 1]
            && (states == [] ==> trace == tail)
  {
    var tail := PerformUpdate(env).0;
    assert |tail| >= 2;
    var trace := [DOWNLOADING] + states + tail[1..];
    assert trace[|trace| - 1] == tail[|tail| - 1];
    assert states == [] ==> trace == tail;
  }

  /** A failed write followed by a good one: as written the flag is set
      again and the update goes on to flash, with ERROR recorded in the
      middle of the run; with the failure kept the update ends in ERROR. */
  lemma WriteFailureThenComplete()
    ensures var env := UpdateEnv(EspErr.OK, EspErr.OK, true, EspErr.OK, EspErr.OK, false, EspErr.OK, EspErr.OK);
            var cs := [Chunk(4, EspErr.FAIL), Chunk(4, EspErr.OK)];
            && TotalLen(cs) == 8
            && UpdateWithDownload(env, 8, DefaultStatus(), cs, false).0
                 == [DOWNLOADING, ERROR, VERIFYING, FLASHING, COMPLETE]
            && UpdateWithDownload(env, 8, DefaultStatus(), cs, true).0 == [DOWNLOADING, ERROR, ERROR]
  {
    var cs := [Chunk(4, EspErr.FAIL), Chunk(4, EspErr.OK)];
    assert TotalLen(cs) == 8 by {
      assert cs[1..][1..] == [];
      assert TotalLen(cs[1..]) == 4 + TotalLen(cs[1..][1..]);
    }
    assert cs[1..] == [Chunk(4, EspErr.OK)];
  }

  /** trigger_ota_update: set the update-mode flag and reboot, or return the
      storage error. */
  function TriggerOtaUpdate(o: Ota, nvsErr: int): (r: (Outcome, Ota))
    ensures nvsErr == EspErr.OK <==> r.0 == Rebooted
    ensures r.0 == Rebooted ==> IsOtaModePending(r.1)
    ensures r.1 == o.(modeFlag := r.1.modeFlag)
    ensures r.0 != Rebooted ==> r == (Returned(nvsErr), o)
  {
    if nvsErr != EspErr.OK then (Returned(nvsErr), o) else (Rebooted, o.(modeFlag := Some(1)))
  }

  predicate IsOtaModePending(o: Ota) {
    o.modeFlag == Some(1)
  }

  /** is_ota_mode_pending as app_main calls it at boot: the flag reads back
      as 1 from storage that opened without error. */
  function ModePendingAtBoot(o: Ota, openErr: int): (pending: bool)
    ensures pending ==> IsOtaModePending(o)
    ensures openErr == EspErr.OK ==> (pending <==> IsOtaModePending(o))
  {
    openErr == EspErr.OK && o.modeFlag == Some(1)
  }

  /** clear_ota_mode, which perform_ota_mode_update calls on every path
      before it returns or reboots: the flag's key is erased when the
      storage opens, otherwise nothing changes. */
  function ClearOtaMode(o: Ota, openErr: int): (r: Ota)
    ensures openErr == EspErr.OK ==> !IsOtaModePending(r) && r.modeFlag.None?
    ensures openErr != EspErr.OK ==> r == o
    ensures r == o.(modeFlag := r.modeFlag)
  {
    if openErr == EspErr.OK then o.(modeFlag := None) else o
  }

  /** A trigger that reboots sends the next boot down the update path, and
      the update attempt, whatever its outcome, clears the flag so the boot
      after it is a normal one. A trigger that fails leaves the boot path
      as it was. */
  lemma TriggerThenBoot(o: Ota, nvsErr: int, openErr: int, clearErr: int)
    requires openErr == EspErr.OK && clearErr == EspErr.OK
    ensures var t := TriggerOtaUpdate(o, nvsErr);
            && (t.0 == Rebooted ==> ModePendingAtBoot(t.1, openErr))
            && (t.0 != Rebooted ==> ModePendingAtBoot(t.1, openErr) == ModePendingAtBoot(o, openErr))
            && !ModePendingAtBoot(ClearOtaMode(t.1, clearErr), openErr)
  {
  }

  // ---- the status record on the wire ----------------------------------------------------

  /** The 42-byte packed layout: state, progress, error code (int32 LE),
      bytes downloaded (uint32 LE), function name. */
  function EncodeStatus(s: Status): (b: seq<byte>)
    requires ValidStatus(s)
    ensures |b| == STATUS_SIZE
    ensures b[0] == s.state && b[1] == s.progress && b[10..] == s.errorFunction
  {
    [s.state, s.progress] + EncodeI32LE(s.errorCode) + EncodeU32LE(s.bytesDownloaded) + s.errorFunction
  }

  function DecodeStatus(b: seq<byte>): (s: Status)
    requires |b| == STATUS_SIZE
    ensures ValidStatus(s)
  {
    Status(b[0], b[1], DecodeI32LE(b[2..6]), DecodeU32LE(b[6..10]), b[10..])
  }

  lemma StatusRoundTrip(s: Status)
    requires ValidStatus(s)
    ensures DecodeStatus(EncodeStatus(s)) == s
  {
    var b := EncodeStatus(s);
    assert b[2..6] == EncodeI32LE(s.errorCode);
    assert b[6..10] == EncodeU32LE(s.bytesDownloaded);
  }
}

=== FILE: pg_planner.dfy ===
/** The host-side twin of the ramp builder: the same 16-entry profile, but 2
    steps per ramp entry, a 4096 us base step scaled down by the microstep
    factor, JavaScript rounding and array slicing, and no direction. */
module PgPlanner {
  import opened MotorCommon
  import opened Rounding
  import RampedMove

  const PG_STEPS_PER_SEGMENT: int := 2
  const PG_BASE_STEP_US: int := 4096

  /** The ramp profile; the host copy holds the same sixteen values. */
  const Profile: seq<real> := RampedMove.Profile

  /** Length of `array.slice(0, end)` for an array of `len` elements: a
      negative end counts back from the end of the array. */
  function SliceLen(len: nat, end: int): (n: nat)
    ensures n <= len
    ensures end >= 0 ==> n == if end <= len then end else len
    ensures end < 0 ==> n == if len + end >= 0 then len + end else 0
  {
    if end >= 0 then (if end <= len then end else len)
    else if len + end >= 0 then len + end else 0
  }

  /** Math.round(degrees * 200 * factor / 360), signed. */
  function TotalSteps(degrees: int, factor: int): int
  {
    JsRoundDiv(degrees * STEPS_PER_REVOLUTION * factor, 360)
  }

  function MidSegmentSize(total: int): int {
    total - |Profile| * PG_STEPS_PER_SEGMENT * 2
  }

  /** The cut point as computed, before slicing: 16 with room for a
      plateau, otherwise Math.round(total / 2 / 2), which may be negative. */
  function CutPoint(total: int): (cut: int)
    ensures MidSegmentSize(total) >= 0 ==> cut == |Profile|
    ensures MidSegmentSize(total) < 0 ==> 4 * cut <= total + 2 < 4 * cut + 4
  {
    if MidSegmentSize(total) >= 0 then |Profile|
    else JsRoundDiv(total, 2 * PG_STEPS_PER_SEGMENT)
  }

  /** Math.round(4096 * g / factor) for ramp entry `i`. */
  function RampPeriod(i: nat, factor: int): int
    requires i < |Profile| && factor >= 1
  {
    JsRound(PG_BASE_STEP_US as real * Profile[i] / factor as real)
  }

  /** planner(degrees, factor): ramp-up, optional plateau, ramp-down. */
  function Planner(degrees: int, factor: int): (plan: seq<Segment>)
    requires factor >= 1
    ensures var total := TotalSteps(degrees, factor);
            var n := SliceLen(|Profile|, CutPoint(total));
            var mid := MidSegmentSize(total);
            && |plan| == 2 * n + (if mid > 0 then 1 else 0)
            && (forall i :: 0 <= i < n ==>
                  && plan[i] == Segment(PG_STEPS_PER_SEGMENT, RampPeriod(i, factor))
                  && plan[|plan| - 1 - i] == plan[i])
            && (mid > 0 ==> n == |Profile| && plan[n] == Segment(mid, RampPeriod(n - 1, factor)))
  {
    var total := TotalSteps(degrees, factor);
    var mid := MidSegmentSize(total);
    var n := SliceLen(|Profile|, CutPoint(total));
    var start := seq(n, i requires 0 <= i < n => Segment(PG_STEPS_PER_SEGMENT, RampPeriod(i, factor)));
    var end := RampedMove.Reverse(start);
    var middle := if mid > 0 then [Segment(mid, end[0].periodUs)] else [];
    start + middle + end
  }

  /** For a non-negative request the computed cut point never exceeds the
      profile, so the slice takes exactly `cut` entries. */
  lemma CutWithinProfile(degrees: int, factor: int)
    requires degrees >= 0 && factor >= 1
    ensures 0 <= CutPoint(TotalSteps(degrees, factor)) <= |Profile|
    ensures SliceLen(|Profile|, CutPoint(TotalSteps(degrees, factor))) == CutPoint(TotalSteps(degrees, factor))
  {
    var total := TotalSteps(degrees, factor);
    assert total >= 0 by {
      assert degrees * STEPS_PER_REVOLUTION * factor >= 0;
    }
  }

  /** With at least two full ramps' worth of steps the plan sums to exactly
      the requested step count. */
  lemma StepsSum(degrees: int, factor: int)
    requires factor >= 1
    requires TotalSteps(degrees, factor) >= 2 * |Profile| * PG_STEPS_PER_SEGMENT
    ensures SumSteps(Planner(degrees, factor)) == TotalSteps(degrees, factor)
  {
    var plan := Planner(degrees, factor);
    var total := TotalSteps(degrees, factor);
    var mid := MidSegmentSize(total);
    var start := plan[..16];
    var middle := plan[16..|plan| - 16];
    var end := plan[|plan| - 16..];
    assert plan == start + middle + end;
    forall i | 0 <= i < 16
      ensures start[i].steps == PG_STEPS_PER_SEGMENT && end[i].steps == PG_STEPS_PER_SEGMENT
    {
      var j := 15 - i;
      assert plan[|plan| - 1 - j] == plan[j];
    }
    assert SumSteps(middle) == mid by {
      if mid > 0 {
        assert middle == [plan[16]];
        assert SumSteps(middle) == SumSteps(middle[..0]) + middle[0].steps;
      } else {
        assert middle == [];
      }
    }
    SumStepsAppend(start + middle, end);
    SumStepsAppend(start, middle);
    SumStepsUniform(start, PG_STEPS_PER_SEGMENT);
    SumStepsUniform(end, PG_STEPS_PER_SEGMENT);
  }

  /** The host plan carries no direction: every segment steps forwards,
      whatever the sign of the request. */
  lemma StepsNeverNegative(degrees: int, factor: int)
    requires factor >= 1
    ensures forall s :: s in Planner(degrees, factor) ==> s.steps > 0
  {
    var plan := Planner(degrees, factor);
    var n := SliceLen(|Profile|, CutPoint(TotalSteps(degrees, factor)));
    forall s | s in plan
      ensures s.steps > 0
    {
      var j :| 0 <= j < |plan| && plan[j] == s;
      if j >= n && j < |plan| - n {
        assert j == n;
      } else if j >= n {
        assert plan[|plan| - 1 - (|plan| - 1 - j)] == plan[|plan| - 1 - j];
      }
    }
  }

  /** Scenario: -10 degrees at full stepping rounds to -6 steps, the cut
      point to Math.round(-1.5) = -1, and `slice(0, -1)` keeps 15 entries:
      a 30-entry plan of 60 forward steps. */
  lemma NegativeRequestRunsForward()
    ensures TotalSteps(-10, 1) == -6
    ensures CutPoint(-6) == -1
    ensures |Planner(-10, 1)| == 30
    ensures SumSteps(Planner(-10, 1)) == 60
  {
    assert JsRoundDiv(-2000, 360) == -6;
    assert JsRoundDiv(-6, 4) == -1;
    var plan := Planner(-10, 1);
    forall i | 0 <= i < 30
      ensures plan[i].steps == 2
    {
      if i >= 15 {
        assert plan[|plan| - 1 - (29 - i)] == plan[29 - i];
      }
    }
    SumStepsUniform(plan, 2);
  }
}

=== FILE: pir.dfy ===
/** The presence-sensor occupancy loop: every poll reads the ages of the
    newest detect and remove events, decides which is newer, and flips the
    occupied flag after a 3 s confirmation or a 2 s vacate hold-off. */
module Pir {

  const CONFIRM_MS: nat := 3000
  const VACATE_HOLDOFF_MS: nat := 2000
  const JITTER_MS: nat := 5

  /** One queue's snapshot: empty, or the age of its front entry in ms. */
  datatype QueueSnap = QueueSnap(empty: bool, ageMs: nat, full: bool)

  datatype Snapshot = Snapshot(now: int, det: QueueSnap, rem: QueueSnap)

  predicate DetIsNewer(s: Snapshot) {
    !s.det.empty && (s.rem.empty || s.det.ageMs < s.rem.ageMs)
  }

  predicate RemIsNewer(s: Snapshot) {
    !s.rem.empty && (s.det.empty || s.rem.ageMs < s.det.ageMs)
  }

  /** The newer-than decisions exclude each other, and an empty queue is
      never the newer one. */
  lemma NewerExclusive(s: Snapshot)
    ensures !(DetIsNewer(s) && RemIsNewer(s))
    ensures s.det.empty ==> !DetIsNewer(s)
    ensures s.rem.empty ==> !RemIsNewer(s)
  {
  }

  datatype Emit = Occupied(t: int) | Vacant(t: int)

  /** One poll's decision: confirm occupancy when vacant and the detect is
      the newer event and at least 3 s old; then vacate when occupied and
      the remove is the newer event and at least 2 s old. The emitted time
      is the moment the threshold was crossed. */
  function Poll(occupied: bool, s: Snapshot): (r: (bool, seq<Emit>))
    ensures |r.1| <= 1 && (|r.1| == 1 <==> r.0 != occupied)
    ensures forall e :: e in r.1 ==> e.t <= s.now
    ensures r.0 && !occupied ==> DetIsNewer(s) && s.det.ageMs >= CONFIRM_MS
    ensures !r.0 && occupied ==> RemIsNewer(s) && s.rem.ageMs >= VACATE_HOLDOFF_MS
  {
    NewerExclusive(s);
    var (o1, e1) :=
      if !occupied && DetIsNewer(s) && s.det.ageMs >= CONFIRM_MS then
        (true, [Occupied(s.now - (s.det.ageMs - CONFIRM_MS))])
      else (occupied, []);
    if o1 && RemIsNewer(s) && s.rem.ageMs >= VACATE_HOLDOFF_MS then
      (false, e1 + [Vacant(s.now - (s.rem.ageMs - VACATE_HOLDOFF_MS))])
    else (o1, e1)
  }

  /** The flag changes only on a confirmed newer detect (false to true) or a
      held-off newer remove (true to false); at most one transition per
      poll, announced once, no later than the snapshot. */
  lemma PollTransitions(occupied: bool, s: Snapshot)
    ensures var (o, emits) := Poll(occupied, s);
            && |emits| <= 1
            && (|emits| == 1 <==> o != occupied)
            && (o && !occupied <==> DetIsNewer(s) && s.det.ageMs >= CONFIRM_MS && !occupied)
            && (!o && occupied <==> RemIsNewer(s) && s.rem.ageMs >= VACATE_HOLDOFF_MS && occupied)
            && (forall e :: e in emits ==> e.t <= s.now)
            && (o && !occupied ==> emits == [Occupied(s.now - (s.det.ageMs - CONFIRM_MS))])
            && (!o && occupied ==> emits == [Vacant(s.now - (s.rem.ageMs - VACATE_HOLDOFF_MS))])
  {
    NewerExclusive(s);
  }

  /** Scenario: a detect 3.2 s old with no remove since occupies the room,
      stamped 200 ms before the snapshot. */
  lemma ConfirmScenario()
    ensures Poll(false, Snapshot(10000, QueueSnap(false, 3200, false), QueueSnap(true, 0, false)))
            == (true, [Occupied(9800)])
  {
  }

  // ---- trimming a full queue ------------------------------------------------------------

  /** A device queue of event ages (ms since each event), front first. The
      front is the newest entry and the back the oldest; a pop removes the
      back. */
  predicate Settled(q: seq<nat>) {
    |q| == 0 || q[|q| - 1] <= q[0] + JITTER_MS
  }

  /** Ages grow from the front (newest) to the back (oldest). */
  predicate NewestFirst(q: seq<nat>) {
    forall i, j :: 0 <= i <= j < |q| ==> q[i] <= q[j]
  }

  /** condenseToLatest: pop while the queue is non-empty and its back is
      more than 5 ms past its front. Returns the queue left and the pops
      issued. Each pop drops the oldest entry; the newest is never popped,
      and a queue ordered newest first keeps only entries within 5 ms of
      its newest. */
  method Condense(q: seq<nat>) returns (rest: seq<nat>, pops: nat)
    ensures pops <= |q| && rest == q[..|q| - pops]
    ensures Settled(rest)
    ensures forall n :: |q| - pops < n <= |q| ==> n >= 2 && !Settled(q[..n])
    ensures |q| > 0 ==> |rest| > 0 && rest[0] == q[0]
    ensures NewestFirst(q) ==> forall k :: 0 <= k < |rest| ==> q[0] <= rest[k] <= q[0] + JITTER_MS
  {
    rest := q;
    pops := 0;
    while !Settled(rest)
      invariant pops <= |q| && rest == q[..|q| - pops]
      invariant forall n :: |q| - pops < n <= |q| ==> n >= 2 && !Settled(q[..n])
      invariant |q| > 0 ==> |rest| > 0
      decreases |rest|
    {
      rest := rest[..|rest| - 1];
      pops := pops + 1;
    }
  }
}

=== FILE: presence_poll.dfy ===
/** The RPC presence poller: each poll counts consecutive detect readings
    of the sensor's status byte, fires the active routine on the falling
    edge after enough of them, and acknowledges the status bits. */
module PresencePoll {
  import opened Bytes

  const STATUS_REGISTER: byte := 0x03
  const ST_AVAILABLE: bv8 := 0x02
  const ST_DET: bv8 := 0x08
  const CLEAR: bv8 := 0x0E

  /** The options; JavaScript defaults are threshold 5, disabled, no demo. */
  datatype Config = Config(threshold: int, isEnabled: bool, demoIntervalSec: int)

  datatype State = State(isDetPrev: bool, cnt: nat, isActive: bool, lastActivityTs: int)

  function Initial(now: int): State {
    State(false, 0, false, now)
  }

  /** Effects of a poll, in order. */
  datatype Action = StartDemo | ReadStatus | StartActive | WriteStatus(b: byte)

  function HasBit(b: byte, bit: bv8): bool {
    (b as bv8) & bit != 0
  }

  /** Bit `k` of a byte. */
  function Bit(b: byte, k: nat): bool
    requires k < 8
  {
    (b as bv8 >> k) & 1 == 1
  }

  /** `status & ~CLEAR`: bits 1 to 3 (AVAILABLE, REM, DET) cleared, every
      other bit kept. */
  function Acknowledge(b: byte): (r: byte)
    ensures forall k: nat :: k < 8 ==> (Bit(r, k) <==> Bit(b, k) && !(1 <= k <= 3))
  {
    ((b as bv8) & !CLEAR) as byte
  }

  /** The routines' completion handlers clear `isActive`. */
  function Completed(s: State): (r: State)
    ensures !r.isActive && r == s.(isActive := r.isActive)
  {
    s.(isActive := false)
  }

  /** One poll at time `now`, `status` being the byte the read returns. */
  function Poll(s: State, cfg: Config, now: int, status: byte): (r: (State, seq<Action>))
    ensures s.isActive ==> r == (s.(lastActivityTs := now), [])
    ensures !s.isActive ==> ReadStatus in r.1 && r.0.isDetPrev == HasBit(status, ST_DET)
    ensures StartActive in r.1 ==> s.isDetPrev && !HasBit(status, ST_DET) && cfg.isEnabled && r.0.isActive
    ensures r.0.isActive ==> s.isActive || StartActive in r.1 || StartDemo in r.1
  {
    if s.isActive then (s.(lastActivityTs := now), [])
    else
      var idle := now - s.lastActivityTs;
      var demo := cfg.demoIntervalSec != 0 && idle > cfg.demoIntervalSec * 1000;
      var s1 := if demo then s.(isActive := true) else s;
      var isDet := HasBit(status, ST_DET);
      var isAvailable := HasBit(status, ST_AVAILABLE);
      var cnt1 := if isDet && s.isDetPrev then s1.cnt + 1 else s1.cnt;
      var falling := !isDet && s.isDetPrev;
      var fire := falling && cfg.isEnabled && cnt1 > cfg.threshold;
      var s2 := s1.(cnt := if falling then 0 else cnt1, isActive := s1.isActive || fire, isDetPrev := isDet);
      var acts := (if demo then [StartDemo] else []) + [ReadStatus]
                  + (if fire then [StartActive] else [])
                  + (if isAvailable then [WriteStatus(Acknowledge(status))] else []);
      (s2, acts)
  }

  /** Once a routine completes, polling resumes: the next poll reads the
      status again and tracks its detect bit, where a poll during the
      routine would have done neither. */
  lemma CompletedResumesPolling(s: State, cfg: Config, now: int, status: byte)
    requires s.isActive
    ensures Poll(s, cfg, now, status).1 == []
    ensures var r := Poll(Completed(s), cfg, now, status);
            ReadStatus in r.1 && r.0.isDetPrev == HasBit(status, ST_DET)
  {
  }

  /** While a routine runs, a poll only refreshes the activity time. */
  lemma ActivePollIsQuiet(s: State, cfg: Config, now: int, status: byte)
    requires s.isActive
    ensures Poll(s, cfg, now, status) == (s.(lastActivityTs := now), [])
  {
  }

  /** The counter rises only on a second consecutive detect, resets on the
      falling edge, and otherwise holds; the previous-detect flag follows
      the reading; the routine fires exactly on a falling edge with the
      feature enabled and the count above the threshold; the status is
      written back, acknowledged, exactly when AVAILABLE is set. */
  lemma PollCounts(s: State, cfg: Config, now: int, status: byte)
    requires !s.isActive
    ensures var (s', acts) := Poll(s, cfg, now, status);
            var isDet := HasBit(status, ST_DET);
            && s'.isDetPrev == isDet
            && s'.cnt == (if isDet && s.isDetPrev then s.cnt + 1 else if !isDet && s.isDetPrev then 0 else s.cnt)
            && (StartActive in acts <==> !isDet && s.isDetPrev && cfg.isEnabled && s.cnt > cfg.threshold)
            && (StartDemo in acts <==> cfg.demoIntervalSec != 0 && now - s.lastActivityTs > cfg.demoIntervalSec * 1000)
            && (s'.isActive <==> StartActive in acts || StartDemo in acts)
            && ReadStatus in acts
            && (forall b :: WriteStatus(b) in acts <==> HasBit(status, ST_AVAILABLE) && b == Acknowledge(status))
            && s'.lastActivityTs == s.lastActivityTs
  {
  }

  /** The status byte with only DET set: a detect that needs no
      acknowledgement. */
  const DETECT: byte := 0x08

  lemma DetectReading()
    ensures HasBit(DETECT, ST_DET) && !HasBit(DETECT, ST_AVAILABLE)
    ensures !HasBit(0x00, ST_DET) && !HasBit(0x00, ST_AVAILABLE)
  {
    assert (DETECT as bv8) == 0x08;
    assert (0x00 as bv8) == 0x00;
  }

  /** A poll with the demo off of a reading that needs no
      acknowledgement: it reads, and fires on an enabled falling edge above
      the threshold. */
  lemma PollNoDemo(s: State, cfg: Config, now: int, status: byte)
    requires !s.isActive && cfg.demoIntervalSec == 0 && !HasBit(status, ST_AVAILABLE)
    ensures var isDet := HasBit(status, ST_DET);
            var falling := !isDet && s.isDetPrev;
            var cnt1 := if isDet && s.isDetPrev then s.cnt + 1 else s.cnt;
            var fire := falling && cfg.isEnabled && cnt1 > cfg.threshold;
            Poll(s, cfg, now, status)
              == (s.(cnt := if falling then 0 else cnt1, isActive := fire, isDetPrev := isDet),
                  if fire then [ReadStatus, StartActive] else [ReadStatus])
  {
    var isDet := HasBit(status, ST_DET);
    var fire := !isDet && s.isDetPrev && cfg.isEnabled && s.cnt > cfg.threshold;
    assert ([] + [ReadStatus] + (if fire then [StartActive] else []) + [])
           == if fire then [ReadStatus, StartActive] else [ReadStatus];
  }

  /** `k` detect readings in a row. */
  function Detects(k: nat): seq<byte> {
    seq(k, _ => DETECT)
  }

  /** Polls at one time, one per status reading, in order: the final state
      and every effect. */
  function Run(s: State, cfg: Config, now: int, statuses: seq<byte>): (State, seq<Action>)
    decreases |statuses|
  {
    if |statuses| == 0 then (s, [])
    else
      var p := Poll(s, cfg, now, statuses[0]);
      var q := Run(p.0, cfg, now, statuses[1..]);
      (q.0, p.1 + q.1)
  }

  lemma {:induction false} RunAppend(s: State, cfg: Config, now: int, a: seq<byte>, b: seq<byte>)
    ensures var ra := Run(s, cfg, now, a);
            var rb := Run(ra.0, cfg, now, b);
            Run(s, cfg, now, a + b) == (rb.0, ra.1 + rb.1)
    decreases |a|
  {
    if |a| == 0 {
      assert a + b == b;
      assert [] + Run(s, cfg, now, b).1 == Run(s, cfg, now, b).1;
    } else {
      var p := Poll(s, cfg, now, a[0]);
      var qa := Run(p.0, cfg, now, a[1..]);
      RunCons(s, cfg, now, a, b);
      RunAppend(p.0, cfg, now, a[1..], b);
      Combine(p.1, qa, Run(qa.0, cfg, now, b), Run(p.0, cfg, now, a[1..] + b),
              Run(s, cfg, now, a), Run(s, cfg, now, a + b));
    }
  }

  /** The bookkeeping of RunAppend's step, over the runs as values. */
  lemma Combine(first: seq<Action>, qa: (State, seq<Action>), rb: (State, seq<Action>),
                qab: (State, seq<Action>), ra: (State, seq<Action>), rab: (State, seq<Action>))
    requires ra == (qa.0, first + qa.1) && rab == (qab.0, first + qab.1)
    requires qab == (rb.0, qa.1 + rb.1)
    ensures rab == (rb.0, ra.1 + rb.1)
  {
    assert first + (qa.1 + rb.1) == (first + qa.1) + rb.1;
  }

  /** Both `a` and `a + b` start with the poll of `a`'s first reading. */
  lemma RunCons(s: State, cfg: Config, now: int, a: seq<byte>, b: seq<byte>)
    requires |a| > 0
    ensures var p := Poll(s, cfg, now, a[0]);
            var qa := Run(p.0, cfg, now, a[1..]);
            var qab := Run(p.0, cfg, now, a[1..] + b);
            && Run(s, cfg, now, a) == (qa.0, p.1 + qa.1)
            && Run(s, cfg, now, a + b) == (qab.0, p.1 + qab.1)
  {
    assert (a + b)[0] == a[0];
    assert (a + b)[1..] == a[1..] + b;
  }

  /** Following a detect, each further detect adds one to the count and
      does nothing but read the status. */
  lemma {:induction false} DetectsCount(s: State, cfg: Config, now: int, k: nat)
    requires !s.isActive && s.isDetPrev && cfg.demoIntervalSec == 0
    ensures Run(s, cfg, now, Detects(k)) == (s.(cnt := s.cnt + k), seq(k, _ => ReadStatus))
    decreases k
  {
    DetectReading();
    if k == 0 {
      assert Detects(k) == [];
      assert seq(k, _ => ReadStatus) == [];
      assert s.(cnt := s.cnt + k) == s;
    } else {
      var s1 := s.(cnt := s.cnt + 1);
      var d := Detects(k);
      assert d[0] == DETECT;
      assert d[1..] == Detects(k - 1);
      PollNoDemo(s, cfg, now, DETECT);
      assert Poll(s, cfg, now, d[0]) == (s1, [ReadStatus]);
      DetectsCount(s1, cfg, now, k - 1);
      var q := Run(s1, cfg, now, d[1..]);
      assert q == (s.(cnt := s.cnt + k), seq(k - 1, _ => ReadStatus));
      assert Run(s, cfg, now, d) == (q.0, [ReadStatus] + q.1);
      assert [ReadStatus] + seq(k - 1, _ => ReadStatus) == seq(k, _ => ReadStatus);
    }
  }

  lemma RunOne(s: State, cfg: Config, now: int, status: byte)
    ensures Run(s, cfg, now, [status]) == Poll(s, cfg, now, status)
  {
    assert [status][1..] == [];
    var p := Poll(s, cfg, now, status);
    assert p.1 + [] == p.1;
  }

  /** For every threshold: from the initial state with the demo off, k
      detects and then a clear reading leave the count at 0 and fire the
      routine exactly once when the feature is enabled and k - 1 (the count
      the detects built) exceeds the threshold, and never otherwise. */
  lemma ThresholdFiresOnce(cfg: Config, now: int, k: nat)
    requires cfg.demoIntervalSec == 0 && k >= 1
    ensures var r := Run(Initial(now), cfg, now, Detects(k) + [0x00]);
            && multiset(r.1)[StartActive] == (if cfg.isEnabled && k > cfg.threshold + 1 then 1 else 0)
            && r.0.cnt == 0
            && (r.0.isActive <==> cfg.isEnabled && k > cfg.threshold + 1)
  {
    var s0 := Initial(now);
    var s2 := State(true, k - 1, false, now);
    var readOnly := [ReadStatus] + seq(k - 1, _ => ReadStatus);
    DetectsFromInitial(cfg, now, k);
    RunAppend(s0, cfg, now, Detects(k), [0x00]);
    var fire := cfg.isEnabled && k - 1 > cfg.threshold;
    ClearAfterDetects(cfg, now, k);
    var last := Run(s2, cfg, now, [0x00]);
    assert StartActive !in readOnly;
    FiresOnce(readOnly, last.1, fire);
  }

  /** Quiet polls followed by the last poll's actions start the routine
      once if the last poll fired, and never otherwise. */
  lemma FiresOnce(quiet: seq<Action>, last: seq<Action>, fire: bool)
    requires StartActive !in quiet
    requires last == if fire then [ReadStatus, StartActive] else [ReadStatus]
    ensures multiset(quiet + last)[StartActive] == if fire then 1 else 0
  {
    assert multiset(quiet)[StartActive] == 0;
    assert multiset(quiet + last) == multiset(quiet) + multiset(last);
  }

  /** From the initial state, k detects leave the detect flag set, the
      count at k - 1, and have only read the status. */
  lemma DetectsFromInitial(cfg: Config, now: int, k: nat)
    requires cfg.demoIntervalSec == 0 && k >= 1
    ensures Run(Initial(now), cfg, now, Detects(k))
              == (State(true, k - 1, false, now), [ReadStatus] + seq(k - 1, _ => ReadStatus))
  {
    DetectReading();
    var s0 := Initial(now);
    var s1 := State(true, 0, false, now);
    assert Detects(k) == [DETECT] + Detects(k - 1);
    PollNoDemo(s0, cfg, now, DETECT);
    RunOne(s0, cfg, now, DETECT);
    assert Run(s0, cfg, now, [DETECT]) == (s1, [ReadStatus]);
    RunAppend(s0, cfg, now, [DETECT], Detects(k - 1));
    DetectsCount(s1, cfg, now, k - 1);
  }

  /** The clear reading after k detects: the falling edge resets the count
      and fires exactly when enabled and k - 1 exceeds the threshold. */
  lemma ClearAfterDetects(cfg: Config, now: int, k: nat)
    requires cfg.demoIntervalSec == 0 && k >= 1
    ensures var fire := cfg.isEnabled && k - 1 > cfg.threshold;
            Run(State(true, k - 1, false, now), cfg, now, [0x00])
              == (State(false, 0, fire, now), if fire then [ReadStatus, StartActive] else [ReadStatus])
  {
    DetectReading();
    var s2 := State(true, k - 1, false, now);
    PollNoDemo(s2, cfg, now, 0x00);
    RunOne(s2, cfg, now, 0x00);
  }

  /** Scenario: detects on three polls in a row then a clear reading, with
      threshold 1 and the feature enabled: the count reaches 2 and the
      falling edge fires the routine. */
  lemma BurstFires(now: int)
    ensures var cfg := Config(1, true, 0);
            var p1 := Poll(Initial(now), cfg, now, 0x08);
            var p2 := Poll(p1.0, cfg, now, 0x08);
            var p3 := Poll(p2.0, cfg, now, 0x08);
            var p4 := Poll(p3.0, cfg, now, 0x00);
            p3.0.cnt == 2 && StartActive in p4.1 && p4.0.cnt == 0
  {
  }
}

=== FILE: query_types.dfy ===
/** The query-string typing middleware: each value is typed (booleans,
    numbers, strings left alone), keys are lower-cased, and values whose
    keys collide after lower-casing are gathered into one array. */
module QueryTypes {
  import opened Wrappers

  /** A JavaScript number: finite, or one of the two infinities. */
  datatype JsNumber = Finite(r: real) | Infinite(positive: bool)

  /** The values the middleware sees and produces. `JOther` stands for any
      value the typing passes through untouched (a nested object). */
  datatype Json =
    | JStr(s: string) | JBool(b: bool) | JNum(n: JsNumber) | JArr(items: seq<Json>)
    | JUndefined | JOther(id: int)

  /** The string rule of the typing: true for "true" (any case), "1" or "". */
  predicate IsTrueText(s: string, lower: string -> string) {
    lower(s) == "true" || s == "1" || s == ""
  }

  /** ... and false for "false" (any case) or "0". */
  predicate IsFalseText(s: string, lower: string -> string) {
    lower(s) == "false" || s == "0"
  }

  /** `parser`: `lower` is String.prototype.toLowerCase and `toNumber` is
      `Number(str)`, None where it is NaN. */
  function Parse(v: Json, lower: string -> string, toNumber: string -> Option<JsNumber>): (r: Json)
    ensures !v.JStr? ==> r == v
    ensures v.JStr? ==> (r == JBool(true) <==> IsTrueText(v.s, lower))
    ensures v.JStr? ==> (r == JBool(false) <==> !IsTrueText(v.s, lower) && IsFalseText(v.s, lower))
    ensures v.JStr? && !IsTrueText(v.s, lower) && !IsFalseText(v.s, lower) ==>
              (r.JNum? <==> toNumber(v.s).Some?) && (r.JNum? ==> r.n == toNumber(v.s).value) && (!r.JNum? ==> r == v)
  {
    if !v.JStr? then v
    else if IsTrueText(v.s, lower) then JBool(true)
    else if IsFalseText(v.s, lower) then JBool(false)
    else match toNumber(v.s)
      case Some(n) => JNum(n)
      case None => v
  }

  /** Typing twice changes nothing: whatever the first pass leaves a string
      it left unchanged, and everything else is passed through. */
  lemma ParseIdempotent(v: Json, lower: string -> string, toNumber: string -> Option<JsNumber>)
    ensures Parse(Parse(v, lower, toNumber), lower, toNumber) == Parse(v, lower, toNumber)
  {
  }

  /** An array value is typed element by element; any other value as a whole. */
  function ParseValue(v: Json, lower: string -> string, toNumber: string -> Option<JsNumber>): (r: Json)
    ensures v.JArr? ==>
              && r.JArr? && |r.items| == |v.items|
              && forall i :: 0 <= i < |v.items| ==> r.items[i] == Parse(v.items[i], lower, toNumber)
    ensures !v.JArr? ==> r == Parse(v, lower, toNumber)
  {
    if v.JArr? then JArr(seq(|v.items|, i requires 0 <= i < |v.items| => Parse(v.items[i], lower, toNumber)))
    else Parse(v, lower, toNumber)
  }

  /** The elements a value contributes when another joins it under the same key. */
  function Spread(v: Json): seq<Json> {
    if v.JArr? then v.items else [v]
  }

  /** One step of the reduce: a new key takes the value bare; a key already
      present becomes (or stays) an array with the value pushed on. */
  function Add(a: map<string, Json>, k: string, v: Json): map<string, Json> {
    if k in a then a[k := JArr(Spread(a[k]) + [v])] else a[k := v]
  }

  /** The middleware's merge of the query entries, in iteration order. */
  function Merge(entries: seq<(string, Json)>, lower: string -> string, toNumber: string -> Option<JsNumber>)
    : map<string, Json>
  {
    if |entries| == 0 then map[]
    else
      var last := entries[|entries| - 1];
      Add(Merge(entries[..|entries| - 1], lower, toNumber), lower(last.0), ParseValue(last.1, lower, toNumber))
  }

  /** Reference: the typed values of the entries whose lower-cased key is
      `k`, in iteration order. */
  function Collected(entries: seq<(string, Json)>, k: string, lower: string -> string,
                     toNumber: string -> Option<JsNumber>): seq<Json>
  {
    if |entries| == 0 then []
    else
      var last := entries[|entries| - 1];
      Collected(entries[..|entries| - 1], k, lower, toNumber)
        + (if lower(last.0) == k then [ParseValue(last.1, lower, toNumber)] else [])
  }

  /** What a key ends up holding given its collected values: a single value
      bare; several as one array, the first one's elements spread when it
      was itself an array. */
  function Shape(vs: seq<Json>): Json
    requires |vs| > 0
  {
    if |vs| == 1 then vs[0] else JArr(Spread(vs[0]) + vs[1..])
  }

  /** The merged object has exactly the lower-cased keys, each holding its
      collected values: bare when its key is unique, gathered in iteration
      order when several keys collide. */
  lemma {:induction false} MergeCollects(entries: seq<(string, Json)>, k: string, lower: string -> string,
                                         toNumber: string -> Option<JsNumber>)
    ensures k in Merge(entries, lower, toNumber) <==> |Collected(entries, k, lower, toNumber)| > 0
    ensures k in Merge(entries, lower, toNumber) ==>
              Merge(entries, lower, toNumber)[k] == Shape(Collected(entries, k, lower, toNumber))
  {
    if |entries| > 0 {
      var init := entries[..|entries| - 1];
      var last := entries[|entries| - 1];
      MergeCollects(init, k, lower, toNumber);
      var vs := Collected(init, k, lower, toNumber);
      if lower(last.0) == k && |vs| > 0 {
        var v := ParseValue(last.1, lower, toNumber);
        if |vs| == 1 {
          assert (vs + [v])[1..] == [v];
        } else {
          assert Spread(Shape(vs)) == Spread(vs[0]) + vs[1..];
          assert (vs + [v])[1..] == vs[1..] + [v];
        }
      }
    }
  }

  /** Scenario: `?Mode=1&mode=x` with ASCII lower-casing gives mode = [true, "x"]. */
  lemma CollidingKeys(lower: string -> string, toNumber: string -> Option<JsNumber>)
    requires lower("Mode") == "mode" && lower("mode") == "mode" && lower("x") == "x"
    requires toNumber("x") == None
    ensures Merge([("Mode", JStr("1")), ("mode", JStr("x"))], lower, toNumber)["mode"] == JArr([JBool(true), JStr("x")])
  {
    var e := [("Mode", JStr("1")), ("mode", JStr("x"))];
    assert e[..1] == [("Mode", JStr("1"))];
    assert e[..1][..0] == [];
  }
}

=== FILE: ramped_move.dfy ===
/** The firmware's integer ramp builder: a fixed 16-entry ramp-up at 20
    microsteps per entry (scaled by the microstep factor), an optional plateau
    segment, and the mirrored ramp-down. */
module RampedMove {
  import opened MotorCommon
  import opened Rounding

  const STEPS_PER_SEGMENT: int := 20

  /** Relative pulse periods of the ramp, slowest first. */
  const Profile: seq<real> := [
    1.000, 0.992, 0.968, 0.931, 0.883, 0.826, 0.763, 0.697,
    0.633, 0.571, 0.514, 0.466, 0.429, 0.402, 0.382, 0.250
  ]

  /** +1 for a strictly positive request, otherwise -1 (0 degrees plans
      in the negative direction). */
  function Dir(degrees: int): (d: int)
    ensures d == 1 || d == -1
    ensures d == 1 <==> degrees > 0
  {
    if degrees > 0 then 1 else -1
  }

  /** round(|degrees| * 200 * factor / 360): microsteps of the whole move. */
  function TotalSteps(degrees: int, factor: nat): nat {
    RoundDiv(Abs(degrees) * STEPS_PER_REVOLUTION * factor, 360)
  }

  /** Steps left for the plateau once both full ramps are taken out. */
  function MidSegmentSize(total: nat, factor: nat): int {
    total - |Profile| * STEPS_PER_SEGMENT * factor * 2
  }

  /** How many ramp entries each ramp uses: all of them when the plateau is
      non-negative, otherwise round(total / 2 / 20 / factor). */
  function CutPoint(total: nat, factor: nat): (cut: nat)
    requires factor >= 1
    ensures cut <= |Profile|
    ensures MidSegmentSize(total, factor) >= 0 ==> cut == |Profile|
  {
    if MidSegmentSize(total, factor) >= 0 then |Profile|
    else
      var d := 2 * STEPS_PER_SEGMENT * factor;
      var r := RoundDiv(total, d);
      assert total < 16 * d;
      CancelLt(d, 2 * r, 33);
      r
  }

  /** Dividing both sides of a strict inequality by a positive factor. */
  lemma CancelLt(d: int, a: int, b: int)
    requires d > 0 && d * a < d * b
    ensures a < b
  {
    assert d * b - d * a == d * (b - a);
  }

  /** Pulse period of ramp entry `i`: round(3072 * profile[i]) microseconds. */
  function RampPeriod(i: nat): int
    requires i < |Profile|
  {
    RoundReal(BASE_PERIOD_US as real * Profile[i])
  }

  function RampUp(cut: nat, factor: nat, dir: int): (s: seq<Segment>)
    requires cut <= |Profile|
    ensures |s| == cut
    ensures forall i :: 0 <= i < cut ==> s[i] == Segment(STEPS_PER_SEGMENT * factor * dir, RampPeriod(i))
  {
    seq(cut, i requires 0 <= i < cut => Segment(STEPS_PER_SEGMENT * factor * dir, RampPeriod(i)))
  }

  function Reverse<T>(s: seq<T>): (r: seq<T>)
    ensures |r| == |s|
    ensures forall i :: 0 <= i < |s| ==> r[i] == s[|s| - 1 - i]
  {
    seq(|s|, i requires 0 <= i < |s| => s[|s| - 1 - i])
  }

  /** RampedMove::generateSegments. The preconditions exclude the uint32
      wrap-around of the step computation, which requests arriving as int16
      degrees with a factor of at most 128 never reach. */
  function GenerateSegments(degrees: int, factor: nat): (plan: seq<Segment>)
    requires 1 <= factor < 0x1_0000
    requires Abs(degrees) * STEPS_PER_REVOLUTION * factor < 0x8000_0000
    ensures var total := TotalSteps(degrees, factor);
            var cut := CutPoint(total, factor);
            var mid := MidSegmentSize(total, factor);
            && |plan| == 2 * cut + (if mid > 0 then 1 else 0)
            && (forall i :: 0 <= i < cut ==>
                  && plan[i] == Segment(STEPS_PER_SEGMENT * factor * Dir(degrees), RampPeriod(i))
                  && plan[|plan| - 1 - i] == plan[i])
            && (mid > 0 ==> plan[cut] == Segment(mid * Dir(degrees), RampPeriod(cut - 1)))
  {
    var dir := Dir(degrees);
    var total := TotalSteps(degrees, factor);
    var mid := MidSegmentSize(total, factor);
    var cut := CutPoint(total, factor);
    var start := RampUp(cut, factor, dir);
    var end := Reverse(start);
    var middle := if mid > 0 then [Segment(mid * dir, end[0].periodUs)] else [];
    MirrorLayout(start, middle);
    start + middle + end
  }

  /** Where the parts of a mirrored plan land. */
  lemma MirrorLayout(start: seq<Segment>, middle: seq<Segment>)
    requires |middle| <= 1
    ensures var plan := start + middle + Reverse(start);
            && |plan| == 2 * |start| + |middle|
            && (forall i :: 0 <= i < |start| ==> plan[i] == start[i] && plan[|plan| - 1 - i] == start[i])
            && (|middle| == 1 ==> plan[|start|] == middle[0])
  {
  }

  /** With a non-negative plateau the plan's signed steps add up to exactly
      the requested microsteps in the requested direction. */
  lemma GeneratedStepsSum(degrees: int, factor: nat)
    requires 1 <= factor < 0x1_0000
    requires Abs(degrees) * STEPS_PER_REVOLUTION * factor < 0x8000_0000
    requires MidSegmentSize(TotalSteps(degrees, factor), factor) >= 0
    ensures SumSteps(GenerateSegments(degrees, factor)) == Dir(degrees) * TotalSteps(degrees, factor)
  {
    var dir := Dir(degrees);
    var total := TotalSteps(degrees, factor);
    var mid := MidSegmentSize(total, factor);
    var k := STEPS_PER_SEGMENT * factor * dir;
    var start := RampUp(|Profile|, factor, dir);
    var end := Reverse(start);
    var middle := if mid > 0 then [Segment(mid * dir, end[0].periodUs)] else [];
    assert GenerateSegments(degrees, factor) == start + middle + end;
    assert SumSteps(middle) == mid * dir by {
      if mid > 0 {
        assert SumSteps(middle) == SumSteps(middle[..0]) + middle[0].steps;
      }
    }
    ThreePartSum(start, middle, end, k);
    assert mid == total - 640 * factor;
    if dir == 1 {
      assert 32 * k + mid * dir == dir * total;
    } else {
      assert 32 * k + mid * dir == dir * total;
    }
  }

  /** Step sum of ramp-up, plateau and ramp-down when both ramps are the full
      16 entries of `k` steps each. */
  lemma ThreePartSum(start: seq<Segment>, middle: seq<Segment>, end: seq<Segment>, k: int)
    requires |start| == |end| == 16
    requires forall i :: 0 <= i < 16 ==> start[i].steps == k && end[i].steps == k
    ensures SumSteps(start + middle + end) == 32 * k + SumSteps(middle)
  {
    SumStepsAppend(start + middle, end);
    SumStepsAppend(start, middle);
    SumStepsUniform(start, k);
    SumStepsUniform(end, k);
  }

  /** The first ramp entry runs at the full base period (the safe start value). */
  lemma FirstPeriodIsBase()
    ensures RampPeriod(0) == BASE_PERIOD_US
  {
  }

  /** Without room for a plateau both ramps are cut to a whole number of
      entries, so the plan misses the requested step count by at most half
      a ramp-entry pair: 20 times the factor. */
  lemma ShortMoveStepError(degrees: int, factor: nat)
    requires 1 <= factor < 0x1_0000
    requires Abs(degrees) * STEPS_PER_REVOLUTION * factor < 0x8000_0000
    requires MidSegmentSize(TotalSteps(degrees, factor), factor) < 0
    ensures Abs(SumSteps(GenerateSegments(degrees, factor)) - Dir(degrees) * TotalSteps(degrees, factor))
            <= STEPS_PER_SEGMENT * factor
  {
    var dir := Dir(degrees);
    var total := TotalSteps(degrees, factor);
    var cut := CutPoint(total, factor);
    var d := 2 * STEPS_PER_SEGMENT * factor;
    var plan := GenerateSegments(degrees, factor);
    MirroredPlanSum(plan, cut, STEPS_PER_SEGMENT * factor * dir);
    assert 2 * d * cut <= 2 * total + d < 2 * d * cut + 2 * d;
    RoundingError(total, d, cut, dir, factor);
  }

  /** A plan of two mirrored ramps of `cut` entries of `k` steps sums to
      `2 * cut * k`. */
  lemma MirroredPlanSum(plan: seq<Segment>, cut: nat, k: int)
    requires |plan| == 2 * cut
    requires forall i :: 0 <= i < cut ==> plan[i].steps == k && plan[|plan| - 1 - i] == plan[i]
    ensures SumSteps(plan) == k * (2 * cut)
  {
    forall j | 0 <= j < |plan|
      ensures plan[j].steps == k
    {
      if j >= cut {
        var i := |plan| - 1 - j;
        assert plan[|plan| - 1 - i] == plan[i];
      }
    }
    SumStepsUniform(plan, k);
  }

  lemma RoundingError(total: int, d: int, cut: int, dir: int, factor: int)
    requires d == 2 * STEPS_PER_SEGMENT * factor && (dir == 1 || dir == -1)
    requires 2 * d * cut <= 2 * total + d < 2 * d * cut + 2 * d
    ensures Abs(STEPS_PER_SEGMENT * factor * dir * (2 * cut) - dir * total) <= STEPS_PER_SEGMENT * factor
  {
    assert STEPS_PER_SEGMENT * factor * dir * (2 * cut) == dir * (d * cut);
    assert -d <= 2 * (d * cut - total) <= d;
  }

  /** Scenario: half a turn at factor 8 is 800 microsteps, too short for the
      two full ramps (5120), so each ramp is cut to round(800 / 320) = 3
      entries of 160 microsteps and the plan overshoots to 960. */
  lemma HalfTurnAtEighthStep()
    ensures TotalSteps(180, 8) == 800
    ensures |GenerateSegments(180, 8)| == 6
    ensures SumSteps(GenerateSegments(180, 8)) == 960
  {
    assert TotalSteps(180, 8) == 800 by {
      assert Abs(180) * STEPS_PER_REVOLUTION * 8 == 288000;
      assert RoundDiv(288000, 360) == 800;
    }
    assert CutPoint(800, 8) == 3 by {
      assert RoundDiv(800, 320) == 3;
    }
    var plan := GenerateSegments(180, 8);
    assert forall i :: 0 <= i < 6 ==> plan[i].steps == 160;
    SumStepsUniform(plan, 160);
  }

  /** Scenario: five turns at full stepping are 1000 steps: both full ramps
      (640) and a 360-step plateau at the last ramp-up period. */
  lemma FiveTurnsFullStep()
    ensures TotalSteps(1800, 1) == 1000
    ensures |GenerateSegments(1800, 1)| == 33
    ensures GenerateSegments(1800, 1)[16] == Segment(360, RampPeriod(15))
    ensures SumSteps(GenerateSegments(1800, 1)) == 1000
  {
    assert TotalSteps(1800, 1) == 1000 by {
      assert Abs(1800) * STEPS_PER_REVOLUTION * 1 == 360000;
      assert RoundDiv(360000, 360) == 1000;
    }
    GeneratedStepsSum(1800, 1);
  }
}

=== FILE: rounding.dfy ===
/** Rounding to the nearest integer, as the two code bases do it: C's
    `std::round` (halves away from zero) and JavaScript's `Math.round`
    (halves towards positive infinity). Float arithmetic is taken as exact. */
module Rounding {

  /** `std::round(n / d)` for a non-negative quotient: the nearest integer,
      a half rounding up. On non-negative quotients halves away from zero
      and halves towards positive infinity agree, so this is `Math.round`
      restricted to them. */
  function RoundDiv(n: nat, d: nat): (r: nat)
    requires d > 0
    ensures 2 * d * r <= 2 * n + d < 2 * d * r + 2 * d
  {
    var r := JsRoundDiv(n, d);
    assert r == (2 * n + d) / (2 * d);
    r
  }

  /** JavaScript's `Math.round(n / d)` for any sign of `n`: the nearest integer,
      a half rounding towards positive infinity. */
  function JsRoundDiv(n: int, d: nat): (r: int)
    requires d > 0
    ensures 2 * d * r <= 2 * n + d < 2 * d * r + 2 * d
  {
    var q := (2 * n + d) / (2 * d);
    assert (2 * d) * q + (2 * n + d) % (2 * d) == 2 * n + d;
    q
  }

  /** `std::round(x)`: the nearest integer, halves away from zero. */
  function RoundReal(x: real): (r: int)
    ensures x >= 0.0 ==> r >= 0 && x - 0.5 < r as real <= x + 0.5
    ensures x < 0.0 ==> r <= 0 && x - 0.5 <= r as real < x + 0.5
  {
    if x >= 0.0 then (x + 0.5).Floor else -((-x + 0.5).Floor)
  }

  /** `Math.round(x)`: the nearest integer, halves towards positive infinity. */
  function JsRound(x: real): (r: int)
    ensures x - 0.5 < r as real <= x + 0.5
  {
    (x + 0.5).Floor
  }

  /** Rounding a non-negative real is monotonic. */
  lemma RoundRealMonotone(x: real, y: real)
    requires 0.0 <= x <= y
    ensures RoundReal(x) <= RoundReal(y)
  {
  }
}

=== FILE: step_mode.dfy ===
/** The driver chip's microstep modes: a closed set of eight fixed resolutions,
    each with a numeric microstep factor and a 4-bit mode-select encoding. */
module StepMode {

  datatype Mode =
    | FixedFull | FixedHalf | FixedQuarter | FixedEighth
    | FixedSixteenth | FixedThirtySecond | FixedSixtyFourth | FixedOneTwentyEighth

  function Pow2(k: nat): (r: nat)
    ensures r >= 1
  {
    if k == 0 then 1 else 2 * Pow2(k - 1)
  }

  /** The mode-select pattern MODE[3:0] latched by the driver chip. */
  function Bits(m: Mode): int {
    match m
    case FixedFull => 0x8
    case FixedHalf => 0x9
    case FixedQuarter => 0xA
    case FixedEighth => 0xB
    case FixedSixteenth => 0xC
    case FixedThirtySecond => 0xD
    case FixedSixtyFourth => 0xE
    case FixedOneTwentyEighth => 0xF
  }

  /** The set of factors the chip supports. */
  predicate IsFactor(f: int) {
    f == 1 || f == 2 || f == 4 || f == 8 || f == 16 || f == 32 || f == 64 || f == 128
  }

  /** Factor of a raw mode-select value, which the firmware stores as an 8-bit
      enumeration that may hold any value: the eight encodings map to their
      factor and everything else falls back to 1. */
  function FactorOfBits(bits: int): (f: nat)
    ensures IsFactor(f)
  {
    match bits
    case 0x8 => 1
    case 0x9 => 2
    case 0xA => 4
    case 0xB => 8
    case 0xC => 16
    case 0xD => 32
    case 0xE => 64
    case 0xF => 128
    case _ => 1
  }

  /** Mode for a factor; an unsupported factor selects full stepping. */
  function ModeOfFactor(factor: int): Mode {
    match factor
    case 1 => FixedFull
    case 2 => FixedHalf
    case 4 => FixedQuarter
    case 8 => FixedEighth
    case 16 => FixedSixteenth
    case 32 => FixedThirtySecond
    case 64 => FixedSixtyFourth
    case 128 => FixedOneTwentyEighth
    case _ => FixedFull
  }

  /** The configuration object: the mode-select value it currently holds. */
  datatype Config = Config(modeBits: int)

  function Default(): (c: Config)
    ensures GetFactor(c) == 1
    ensures c.modeBits == Bits(FixedFull)
  {
    Config(Bits(FixedFull))
  }

  /** getFactor: a mode's encoding gives 2 to the power of its low three
      bits; a value that encodes no mode gives 1. */
  function GetFactor(c: Config): (f: nat)
    ensures IsFactor(f)
    ensures forall m: Mode :: c.modeBits == Bits(m) ==> f == Pow2(Bits(m) - 8)
    ensures (forall m: Mode :: c.modeBits != Bits(m)) ==> f == 1
  {
    forall m: Mode ensures c.modeBits == Bits(m) ==> FactorOfBits(c.modeBits) == Pow2(Bits(m) - 8) {
      EncodingIsLog2Factor(m);
    }
    assert (forall m: Mode :: c.modeBits != Bits(m)) ==>
      && c.modeBits != Bits(FixedHalf) && c.modeBits != Bits(FixedQuarter)
      && c.modeBits != Bits(FixedEighth) && c.modeBits != Bits(FixedSixteenth)
      && c.modeBits != Bits(FixedThirtySecond) && c.modeBits != Bits(FixedSixtyFourth)
      && c.modeBits != Bits(FixedOneTwentyEighth);
    FactorOfBits(c.modeBits)
  }

  function SetModeBits(c: Config, m: Mode): (r: Config)
    ensures r.modeBits == Bits(m)
  {
    Config(Bits(m))
  }

  function SetFactor(c: Config, factor: int): (r: Config)
    requires 0 <= factor < 0x1_0000
    ensures IsFactor(factor) ==> GetFactor(r) == factor
    ensures !IsFactor(factor) ==> r.modeBits == Bits(FixedFull) && GetFactor(r) == 1
  {
    Config(Bits(ModeOfFactor(factor)))
  }

  /** Every encoding has bit 3 set and its low three bits are log2 of its factor. */
  lemma EncodingIsLog2Factor(m: Mode)
    ensures 8 <= Bits(m) < 16
    ensures Pow2(Bits(m) - 8) == FactorOfBits(Bits(m))
  {
    match m
    case FixedFull =>
    case FixedHalf =>
    case FixedQuarter =>
    case FixedEighth =>
    case FixedSixteenth => assert Pow2(4) == 16;
    case FixedThirtySecond => assert Pow2(5) == 32;
    case FixedSixtyFourth => assert Pow2(6) == 64;
    case FixedOneTwentyEighth => assert Pow2(7) == 128;
  }

  /** getFactor in mode order: 1, 2, 4, ..., 128. */
  lemma FactorTable()
    ensures FactorOfBits(Bits(FixedFull)) == 1
    ensures FactorOfBits(Bits(FixedHalf)) == 2
    ensures FactorOfBits(Bits(FixedQuarter)) == 4
    ensures FactorOfBits(Bits(FixedEighth)) == 8
    ensures FactorOfBits(Bits(FixedSixteenth)) == 16
    ensures FactorOfBits(Bits(FixedThirtySecond)) == 32
    ensures FactorOfBits(Bits(FixedSixtyFourth)) == 64
    ensures FactorOfBits(Bits(FixedOneTwentyEighth)) == 128
  {
  }

  /** The two mappings are mutually inverse on the supported set, and any
      other factor maps to full stepping. */
  lemma ModeFactorBijection(m: Mode, f: int)
    ensures ModeOfFactor(FactorOfBits(Bits(m))) == m
    ensures IsFactor(f) ==> FactorOfBits(Bits(ModeOfFactor(f))) == f
    ensures !IsFactor(f) ==> ModeOfFactor(f) == FixedFull
  {
  }

  /** Setting the factor the configuration already reports leaves its mode
      bits unchanged, for every mode. */
  lemma SetOwnFactorIsIdentity(m: Mode)
    ensures SetFactor(Config(Bits(m)), GetFactor(Config(Bits(m)))) == Config(Bits(m))
  {
    ModeFactorBijection(m, 0);
  }
}

=== FILE: validator.dfy ===
/** The request-validation middleware: every non-empty part of a schema
    (query, params, body, headers) is parsed; only when all of them parse
    are the results committed to `res.locals.parsed`, otherwise the request
    fails with every part's issues. */
module Validator {
  import opened Wrappers
  import opened QueryTypes

  datatype Request = Request(parsedQuery: Option<Json>, query: Json, params: Json, body: Json, headers: Json)

  /** `getDataExtractor(req)(key)`: the typed query when present, else the
      raw one; any other key has no data. */
  function Extract(req: Request, key: string): (d: Json)
    ensures key == "query" ==> d == (if req.parsedQuery.Some? then req.parsedQuery.value else req.query)
    ensures key == "params" ==> d == req.params
    ensures key == "body" ==> d == req.body
    ensures key == "headers" ==> d == req.headers
    ensures key !in {"query", "params", "body", "headers"} ==> d == JUndefined
  {
    if key == "query" then (match req.parsedQuery case Some(q) => q case None => req.query)
    else if key == "params" then req.params
    else if key == "body" then req.body
    else if key == "headers" then req.headers
    else JUndefined
  }

  /** A schema part: whether it is empty, and `safeParse`'s verdict on the
      data it is given. */
  datatype Outcome = Success(data: Json) | Failure(issues: Json)
  datatype Part = Part(key: string, empty: bool, safeParse: Json -> Outcome)

  predicate DistinctKeys(schema: seq<Part>) {
    forall i, j :: 0 <= i < j < |schema| ==> schema[i].key != schema[j].key
  }

  datatype Acc = Acc(data: map<string, Json>, errors: map<string, Json>)

  /** The reduce over the schema's parts, in order; no failure stops it. */
  function Aggregate(schema: seq<Part>, req: Request): Acc {
    if |schema| == 0 then Acc(map[], map[])
    else
      var a := Aggregate(schema[..|schema| - 1], req);
      var p := schema[|schema| - 1];
      if p.empty then a
      else match p.safeParse(Extract(req, p.key))
        case Success(d) => a.(data := a.data[p.key := d])
        case Failure(issues) => a.(errors := a.errors[p.key := issues])
  }

  /** Every non-empty part is parsed: its key lands in the data when it
      parses and in the errors when it does not; empty parts and keys not in
      the schema appear in neither. */
  lemma {:induction false} AggregateParsesEveryPart(schema: seq<Part>, req: Request, k: string)
    requires DistinctKeys(schema)
    ensures var a := Aggregate(schema, req);
            && (k in a.data <==> exists i :: 0 <= i < |schema| && schema[i].key == k && !schema[i].empty
                                   && schema[i].safeParse(Extract(req, k)).Success?)
            && (k in a.errors <==> exists i :: 0 <= i < |schema| && schema[i].key == k && !schema[i].empty
                                     && schema[i].safeParse(Extract(req, k)).Failure?)
            && (forall i :: 0 <= i < |schema| && schema[i].key == k && !schema[i].empty ==>
                  match schema[i].safeParse(Extract(req, k))
                  case Success(d) => k in a.data && a.data[k] == d
                  case Failure(issues) => k in a.errors && a.errors[k] == issues)
  {
    if |schema| > 0 {
      var init := schema[..|schema| - 1];
      assert DistinctKeys(init) by {
        forall i, j | 0 <= i < j < |init| ensures init[i].key != init[j].key {
          assert init[i] == schema[i] && init[j] == schema[j];
        }
      }
      AggregateParsesEveryPart(init, req, k);
      assert forall i :: 0 <= i < |init| ==> init[i] == schema[i];
    }
  }

  /** What the middleware calls `next` with. */
  datatype Next = Proceed | BadRequest(errors: map<string, Json>)

  /** The handler: with no errors, the parsed parts are written over
      `res.locals.parsed` (created empty if missing) and `next()` is called;
      otherwise `next` gets the errors and `parsed` is untouched. */
  function Handle(schema: seq<Part>, req: Request, parsed: Option<map<string, Json>>)
    : (r: (Option<map<string, Json>>, Next))
    ensures var a := Aggregate(schema, req);
            && (|a.errors| == 0 ==>
                  && r.1 == Proceed && r.0.Some?
                  && (forall k :: k in a.data ==> k in r.0.value && r.0.value[k] == a.data[k])
                  && (forall k :: parsed.Some? && k in parsed.value && k !in a.data ==>
                        k in r.0.value && r.0.value[k] == parsed.value[k])
                  && (forall k :: k in r.0.value ==> k in a.data || (parsed.Some? && k in parsed.value)))
            && (|a.errors| > 0 ==> r == (parsed, BadRequest(a.errors)))
  {
    var a := Aggregate(schema, req);
    if |a.errors| == 0 then
      var base := match parsed case Some(p) => p case None => map[];
      (Some(base + a.data), Proceed)
    else (parsed, BadRequest(a.errors))
  }

  /** A schema whose every non-empty part parses commits them all. */
  lemma AllPartsParse(schema: seq<Part>, req: Request, parsed: Option<map<string, Json>>)
    requires DistinctKeys(schema)
    requires forall i :: 0 <= i < |schema| && !schema[i].empty ==> schema[i].safeParse(Extract(req, schema[i].key)).Success?
    ensures Handle(schema, req, parsed).1 == Proceed
    ensures forall i :: 0 <= i < |schema| && !schema[i].empty ==>
              && schema[i].key in Handle(schema, req, parsed).0.value
              && Handle(schema, req, parsed).0.value[schema[i].key] == schema[i].safeParse(Extract(req, schema[i].key)).data
  {
    var a := Aggregate(schema, req);
    forall k | k in a.errors ensures false {
      AggregateParsesEveryPart(schema, req, k);
    }
    assert a.errors.Keys == {};
    forall i | 0 <= i < |schema| && !schema[i].empty
      ensures schema[i].key in a.data && a.data[schema[i].key] == schema[i].safeParse(Extract(req, schema[i].key)).data
    {
      AggregateParsesEveryPart(schema, req, schema[i].key);
    }
  }

  /** One failing part is enough to fail the request, whatever the others do. */
  lemma OneFailureFails(schema: seq<Part>, req: Request, parsed: Option<map<string, Json>>, i: nat)
    requires DistinctKeys(schema)
    requires i < |schema| && !schema[i].empty && schema[i].safeParse(Extract(req, schema[i].key)).Failure?
    ensures Handle(schema, req, parsed).1.BadRequest?
    ensures schema[i].key in Handle(schema, req, parsed).1.errors
    ensures Handle(schema, req, parsed).0 == parsed
  {
    AggregateParsesEveryPart(schema, req, schema[i].key);
  }
}

=== FILE: wifi.dfy ===
/** The station-mode WiFi manager: credential validation, the connection
    event handler with its retry counter and back-off, and teardown. SDK
    calls are recorded as actions; their results are inputs. */
module Wifi {
  import opened Bytes
  import opened Wrappers
  import EspErr
  import StepMode

  /** Field sizes of the SDK's station configuration. */
  const SSID_FIELD: nat := 32
  const PASSWORD_FIELD: nat := 64
  const BSSID_SIZE: nat := 6

  const MAX_RETRY: nat := 4
  const MAX_DPP_RETRY: nat := 5
  const BACKOFF_CAP_MS: nat := 30000

  datatype AuthMode = AuthOpen | AuthWpa2Psk | AuthOther(code: nat)

  /** The station configuration the manager keeps and hands to the SDK. */
  datatype StaConfig = StaConfig(ssid: seq<byte>, password: seq<byte>, authMode: AuthMode, bssid: seq<byte>)

  predicate ValidConfig(c: StaConfig) {
    |c.ssid| == SSID_FIELD && |c.password| == PASSWORD_FIELD && |c.bssid| == BSSID_SIZE
  }

  /** The event-group bits init waits on. */
  datatype Bits = Bits(connected: bool, connectFail: bool, authFail: bool)

  datatype Wifi = Wifi(initialized: bool, provisioned: bool, retry: nat, config: StaConfig, bits: Bits)

  /** What the handler asks of the SDK, in order. */
  datatype Action = StartListen | Connect | DelayMs(ms: nat) | ApplyConfig(cfg: StaConfig) | ShowQr

  datatype Event =
    | StaStart | StaDisconnected | StaConnected | DppUriReady
    | DppConfigReceived(cfg: StaConfig) | DppFailed | GotIp | OtherEvent

  /** What every reachable manager satisfies: the counter never passes the
      larger of the two retry limits. */
  predicate Inv(w: Wifi) {
    w.retry <= MAX_DPP_RETRY
  }

  // ---- credentials ---------------------------------------------------------------

  /** The result of set_credentials. */
  datatype SetResult = SetResult(err: int, w: Wifi, applied: seq<Action>)

  /** set_credentials(ssid, password): a missing, empty or over-long SSID, or
      a missing or over-long password, is refused with INVALID_ARG before
      the SDK is touched. Otherwise both strings are copied into the
      configuration the SDK currently holds (`current`), authentication is
      set to WPA2-PSK and the result is applied; only when that succeeds
      does the manager adopt it and count as provisioned. */
  function SetCredentials(w: Wifi, ssid: Option<seq<byte>>, password: Option<seq<byte>>,
                          current: StaConfig, applyErr: int): (r: SetResult)
    requires ValidConfig(current)
    requires ssid.Some? ==> NulFree(ssid.value)
    requires password.Some? ==> NulFree(password.value)
    ensures r.err == EspErr.OK <==>
              && ssid.Some? && 0 < |ssid.value| < SSID_FIELD
              && password.Some? && |password.value| < PASSWORD_FIELD
              && applyErr == EspErr.OK
    ensures r.err != EspErr.OK ==> r.w == w
    ensures !(ssid.Some? && 0 < |ssid.value| < SSID_FIELD && password.Some? && |password.value| < PASSWORD_FIELD) ==>
              r == SetResult(EspErr.ERR_INVALID_ARG, w, [])
    ensures r.err == EspErr.OK ==>
              && r.w.provisioned && r.w.retry == w.retry && r.w.initialized == w.initialized
              && ValidConfig(r.w.config)
              && CutAtNul(r.w.config.ssid) == ssid.value
              && CutAtNul(r.w.config.password) == password.value
              && r.w.config.authMode == AuthWpa2Psk
              && r.w.config.bssid == current.bssid
              && r.applied == [ApplyConfig(r.w.config)]
  {
    if ssid.None? || |ssid.value| == 0 || |ssid.value| >= SSID_FIELD then SetResult(EspErr.ERR_INVALID_ARG, w, [])
    else if password.None? || |password.value| >= PASSWORD_FIELD then SetResult(EspErr.ERR_INVALID_ARG, w, [])
    else
      var cfg := current.(ssid := CopyCString(current.ssid, ssid.value),
                          password := CopyCString(current.password, password.value),
                          authMode := AuthWpa2Psk);
      if applyErr != EspErr.OK then SetResult(applyErr, w, [ApplyConfig(cfg)])
      else SetResult(EspErr.OK, w.(config := cfg, provisioned := true), [ApplyConfig(cfg)])
  }

  // ---- events ---------------------------------------------------------------------

  /** The disconnect back-off: 2^retry seconds, capped at 30 s. */
  function BackoffMs(retry: nat): (ms: nat)
    ensures ms <= BACKOFF_CAP_MS
  {
    var raw := StepMode.Pow2(retry) * 1000;
    if raw > BACKOFF_CAP_MS then BACKOFF_CAP_MS else raw
  }

  /** event_handler: one event, the new manager and the SDK calls it made. */
  function HandleEvent(w: Wifi, e: Event): (r: (Wifi, seq<Action>))
    ensures e.StaDisconnected? ==>
              if w.retry < MAX_RETRY
              then r == (w.(retry := w.retry + 1), [DelayMs(BackoffMs(w.retry)), Connect])
              else r == (w.(bits := w.bits.(connectFail := true)), [])
    ensures e.DppFailed? ==>
              if w.retry < MAX_DPP_RETRY
              then r == (w.(retry := w.retry + 1), [StartListen])
              else r == (w.(bits := w.bits.(authFail := true)), [])
    ensures e.DppConfigReceived? ==> r == (w.(config := e.cfg, retry := 0), [ApplyConfig(e.cfg), Connect])
    ensures e.GotIp? ==> r == (w.(retry := 0, bits := w.bits.(connected := true)), [])
    ensures e.StaStart? ==> r.0 == w && r.1 == if w.provisioned then [Connect] else [StartListen]
    ensures e.StaConnected? || e.DppUriReady? || e.OtherEvent? ==> r.0 == w
  {
    match e
    case StaStart => (w, if w.provisioned then [Connect] else [StartListen])
    case StaDisconnected =>
      if w.retry < MAX_RETRY then (w.(retry := w.retry + 1), [DelayMs(BackoffMs(w.retry)), Connect])
      else (w.(bits := w.bits.(connectFail := true)), [])
    case StaConnected => (w, [])
    case DppUriReady => (w, [ShowQr])
    case DppConfigReceived(cfg) => (w.(config := cfg, retry := 0), [ApplyConfig(cfg), Connect])
    case DppFailed =>
      if w.retry < MAX_DPP_RETRY then (w.(retry := w.retry + 1), [StartListen])
      else (w.(bits := w.bits.(authFail := true)), [])
    case GotIp => (w.(retry := 0, bits := w.bits.(connected := true)), [])
    case OtherEvent => (w, [])
  }

  /** No event takes the retry counter past the DPP limit. */
  lemma HandleEventPreservesInv(w: Wifi, e: Event)
    requires Inv(w)
    ensures Inv(HandleEvent(w, e).0)
  {
  }

  /** The 30-second cap never applies: a retry is only attempted below four,
      where the back-off is at most 8 s. */
  lemma BackoffCapUnreachable(retry: nat)
    requires retry < MAX_RETRY
    ensures StepMode.Pow2(retry) * 1000 <= 8000
    ensures BackoffMs(retry) == StepMode.Pow2(retry) * 1000
  {
    assert StepMode.Pow2(1) == 2 && StepMode.Pow2(2) == 4 && StepMode.Pow2(3) == 8;
  }

  /** Handling a sequence of events in order; the SDK calls are concatenated. */
  function Run(w: Wifi, events: seq<Event>): (r: (Wifi, seq<Action>))
    decreases |events|
  {
    if |events| == 0 then (w, [])
    else
      var (w1, a1) := HandleEvent(w, events[0]);
      var (w2, a2) := Run(w1, events[1..]);
      (w2, a1 + a2)
  }

  function Disconnects(n: nat): (es: seq<Event>)
    ensures |es| == n && forall i :: 0 <= i < n ==> es[i] == StaDisconnected
  {
    seq(n, _ => StaDisconnected)
  }

  /** A storm of `n` disconnects from a fresh counter: the first four retry
      after 1, 2, 4 and 8 seconds, so the counter reaches min(n, 4), the
      waits add up to (2^min(n, 4) - 1) seconds, and the connect-fail bit is
      set exactly when a fifth disconnect arrives. */
  lemma {:induction false} DisconnectStorm(w: Wifi, n: nat)
    requires w.retry <= MAX_RETRY
    ensures var (w', actions) := Run(w, Disconnects(n));
            var k := if w.retry + n < MAX_RETRY then w.retry + n else MAX_RETRY;
            && w'.retry == k
            && TotalDelay(actions) == (StepMode.Pow2(k) - StepMode.Pow2(w.retry)) * 1000
            && w'.bits.connectFail == (w.bits.connectFail || w.retry + n > MAX_RETRY)
            && w'.config == w.config && w'.provisioned == w.provisioned
    decreases n
  {
    var (w', actions) := Run(w, Disconnects(n));
    StormRun(w, n);
    assert StormOutcome(w, n, w', TotalDelay(actions));
  }

  /** What a storm of `n` disconnects leaves behind, `delay` being the time waited. */
  predicate StormOutcome(w: Wifi, n: nat, w': Wifi, delay: nat) {
    var k := if w.retry + n < MAX_RETRY then w.retry + n else MAX_RETRY;
    && w'.retry == k
    && delay == (StepMode.Pow2(k) - StepMode.Pow2(w.retry)) * 1000
    && w'.bits.connectFail == (w.bits.connectFail || w.retry + n > MAX_RETRY)
    && w'.config == w.config && w'.provisioned == w.provisioned
  }

  lemma {:induction false} StormRun(w: Wifi, n: nat)
    requires w.retry <= MAX_RETRY
    ensures StormOutcome(w, n, Run(w, Disconnects(n)).0, TotalDelay(Run(w, Disconnects(n)).1))
    decreases n
  {
    var es := Disconnects(n);
    if n == 0 {
      assert Run(w, es) == (w, []);
    } else {
      assert es[0] == StaDisconnected && es[1..] == Disconnects(n - 1);
      var (w1, a1) := HandleEvent(w, StaDisconnected);
      StormRun(w1, n - 1);
      var (w2, a2) := Run(w1, Disconnects(n - 1));
      assert Run(w, es) == (w2, a1 + a2);
      TotalDelayAppend(a1, a2);
      if w.retry < MAX_RETRY {
        StormRetryStep(w.retry);
        StormCombine(w, w1, w2, n, TotalDelay(a1), TotalDelay(a2));
      } else {
        assert a1 == [];
      }
    }
  }

  /** One retried disconnect: it waits 2^retry seconds, the remaining storm
      starts one power of two higher. */
  lemma StormRetryStep(retry: nat)
    requires retry < MAX_RETRY
    ensures TotalDelay([DelayMs(BackoffMs(retry)), Connect]) == StepMode.Pow2(retry) * 1000
    ensures StepMode.Pow2(retry + 1) == 2 * StepMode.Pow2(retry)
  {
    BackoffCapUnreachable(retry);
    var a := [DelayMs(BackoffMs(retry)), Connect];
    assert a[1..] == [Connect] && a[1..][1..] == [];
    assert TotalDelay(a[1..]) == 0;
  }

  /** A retried disconnect followed by the rest of the storm. */
  lemma StormCombine(w: Wifi, w1: Wifi, w2: Wifi, n: nat, d1: nat, d2: nat)
    requires n > 0 && w.retry < MAX_RETRY
    requires w1 == w.(retry := w.retry + 1)
    requires d1 == StepMode.Pow2(w.retry) * 1000
    requires StepMode.Pow2(w.retry + 1) == 2 * StepMode.Pow2(w.retry)
    requires StormOutcome(w1, n - 1, w2, d2)
    ensures StormOutcome(w, n, w2, d1 + d2)
  {
  }

  /** Total time the handler waited. */
  function TotalDelay(actions: seq<Action>): nat
    decreases |actions|
  {
    if |actions| == 0 then 0
    else (if actions[0].DelayMs? then actions[0].ms else 0) + TotalDelay(actions[1..])
  }

  lemma {:induction false} TotalDelayAppend(a: seq<Action>, b: seq<Action>)
    ensures TotalDelay(a + b) == TotalDelay(a) + TotalDelay(b)
    decreases |a|
  {
    if |a| > 0 {
      assert (a + b)[1..] == a[1..] + b;
      TotalDelayAppend(a[1..], b);
    } else {
      assert a + b == b;
    }
  }

  // ---- teardown -------------------------------------------------------------------

  /** deinit: a no-op returning ESP_OK when not initialized; otherwise the
      SDK is torn down (its failures are only logged) and the flags and the
      counter reset. The configuration is kept. */
  function Deinit(w: Wifi): (r: (int, Wifi))
    ensures r.0 == EspErr.OK
    ensures !w.initialized ==> r.1 == w
    ensures w.initialized ==> !r.1.initialized && !r.1.provisioned && r.1.retry == 0
    ensures r.1.config == w.config && r.1.bits == w.bits
  {
    if !w.initialized then (EspErr.OK, w)
    else (EspErr.OK, w.(initialized := false, provisioned := false, retry := 0))
  }

  /** Deinit is idempotent. */
  lemma DeinitIdempotent(w: Wifi)
    ensures Deinit(Deinit(w).1) == Deinit(w)
  {
  }
}

=== FILE: wifi_dpp.dfy ===
/** The provisioning variant of the WiFi manager: clearing stored
    credentials and connecting to the best access point of the configured
    network found by a scan. Its event handler and teardown are the same as
    the station manager's and are taken from there. */
module WifiDpp {
  import opened Bytes
  import opened Wifi
  import EspErr

  /** Scan-result signal strength, a signed 8-bit dBm value. */
  type Rssi = r: int | -128 <= r < 128

  datatype ApRecord = ApRecord(ssid: seq<byte>, bssid: seq<byte>, primary: nat, rssi: Rssi)

  const NO_BEST_SCORE: int := -1000
  const CROWDED_PENALTY: int := 10

  /** Channels 1, 6 and 11 are the commonly crowded ones. */
  predicate Crowded(channel: nat) {
    channel == 1 || channel == 6 || channel == 11
  }

  /** Signal strength less the penalty for a crowded channel. */
  function Score(ap: ApRecord): (s: int)
    ensures s > NO_BEST_SCORE
    ensures Crowded(ap.primary) ==> s == ap.rssi - CROWDED_PENALTY
    ensures !Crowded(ap.primary) ==> s == ap.rssi
  {
    if Crowded(ap.primary) then ap.rssi - CROWDED_PENALTY else ap.rssi
  }

  /** The AP advertises the configured network: the two C strings compare
      equal. */
  predicate Matches(ap: ApRecord, target: seq<byte>) {
    CutAtNul(ap.ssid) == CutAtNul(target)
  }

  /** Index `i` is the choice: it matches, no matching AP scores higher, and
      every matching AP before it scores strictly lower (ties go to the
      first). */
  predicate IsBest(aps: seq<ApRecord>, target: seq<byte>, i: int) {
    && 0 <= i < |aps|
    && Matches(aps[i], target)
    && (forall j :: 0 <= j < |aps| && Matches(aps[j], target) ==> Score(aps[j]) <= Score(aps[i]))
    && (forall j :: 0 <= j < i && Matches(aps[j], target) ==> Score(aps[j]) < Score(aps[i]))
  }

  /** At most one index satisfies the choice rule. */
  lemma BestIsUnique(aps: seq<ApRecord>, target: seq<byte>, i: int, j: int)
    requires IsBest(aps, target, i) && IsBest(aps, target, j)
    ensures i == j
  {
  }

  /** The selection loop: -1 when no AP matches, otherwise the unique best
      index and its score. */
  method BestAp(aps: seq<ApRecord>, target: seq<byte>) returns (best: int, bestScore: int)
    ensures best == -1 <==> forall i :: 0 <= i < |aps| ==> !Matches(aps[i], target)
    ensures best != -1 ==> IsBest(aps, target, best) && bestScore == Score(aps[best])
    ensures best == -1 ==> bestScore == NO_BEST_SCORE
  {
    best := -1;
    bestScore := NO_BEST_SCORE;
    var i := 0;
    while i < |aps|
      invariant 0 <= i <= |aps|
      invariant best == -1 <==> forall j :: 0 <= j < i ==> !Matches(aps[j], target)
      invariant best == -1 ==> bestScore == NO_BEST_SCORE
      invariant best != -1 ==> 0 <= best < i && Matches(aps[best], target) && bestScore == Score(aps[best])
      invariant forall j :: 0 <= j < i && Matches(aps[j], target) ==> Score(aps[j]) <= bestScore
      invariant best != -1 ==> forall j :: 0 <= j < best && Matches(aps[j], target) ==> Score(aps[j]) < bestScore
    {
      if Matches(aps[i], target) {
        var score := Score(aps[i]);
        if score > bestScore {
          best := i;
          bestScore := score;
        }
      }
      i := i + 1;
    }
  }

  /** scan_and_connect. A failed scan returns its error with nothing else
      done. An empty scan connects directly. Otherwise, after the records
      are fetched, the best matching AP's BSSID is written into the
      configuration and applied when there is one, and the device connects;
      the result is the connect call's. */
  method ScanAndConnect(w: Wifi, scanErr: int, aps: seq<ApRecord>, recordsAllocated: bool, recordsErr: int, connectErr: int)
    returns (err: int, w': Wifi, actions: seq<Action>)
    requires ValidConfig(w.config)
    requires forall i :: 0 <= i < |aps| ==> |aps[i].bssid| == BSSID_SIZE
    ensures scanErr != EspErr.OK ==> err == scanErr && w' == w && actions == []
    ensures scanErr == EspErr.OK && |aps| == 0 ==> err == connectErr && w' == w && actions == [Connect]
    ensures scanErr == EspErr.OK && |aps| > 0 && !recordsAllocated ==> err == EspErr.ERR_NO_MEM && w' == w && actions == []
    ensures scanErr == EspErr.OK && |aps| > 0 && recordsAllocated && recordsErr != EspErr.OK ==>
              err == recordsErr && w' == w && actions == []
    ensures scanErr == EspErr.OK && |aps| > 0 && recordsAllocated && recordsErr == EspErr.OK ==>
              && err == connectErr
              && w' == w.(config := w'.config) && ValidConfig(w'.config)
              && ((forall i :: 0 <= i < |aps| ==> !Matches(aps[i], w.config.ssid)) ==>
                    w' == w && actions == [Connect])
              && ((exists i :: 0 <= i < |aps| && Matches(aps[i], w.config.ssid)) ==>
                    exists b :: IsBest(aps, w.config.ssid, b))
              && (forall b :: IsBest(aps, w.config.ssid, b) ==>
                    w'.config == w.config.(bssid := aps[b].bssid) && actions == [ApplyConfig(w'.config), Connect])
  {
    if scanErr != EspErr.OK {
      return scanErr, w, [];
    }
    if |aps| == 0 {
      return connectErr, w, [Connect];
    }
    if !recordsAllocated {
      return EspErr.ERR_NO_MEM, w, [];
    }
    if recordsErr != EspErr.OK {
      return recordsErr, w, [];
    }
    var best, _ := BestAp(aps, w.config.ssid);
    if best >= 0 {
      w' := w.(config := w.config.(bssid := aps[best].bssid));
      actions := [ApplyConfig(w'.config), Connect];
      assert IsBest(aps, w.config.ssid, best);
      forall b | IsBest(aps, w.config.ssid, b)
        ensures b == best
      {
        BestIsUnique(aps, w.config.ssid, b, best);
      }
    } else {
      w' := w;
      actions := [Connect];
    }
    err := connectErr;
  }

  /** reset_provisioning: the device is unprovisioned only when the SDK's
      restore succeeds; its result is returned. */
  function ResetProvisioning(w: Wifi, restoreErr: int): (r: (int, Wifi))
    ensures r.0 == restoreErr
    ensures r.1.provisioned <==> w.provisioned && restoreErr != EspErr.OK
    ensures r.1 == w.(provisioned := r.1.provisioned)
  {
    if restoreErr == EspErr.OK then (restoreErr, w.(provisioned := false)) else (restoreErr, w)
  }

  /** After a successful reset the next station start listens for DPP
      instead of connecting; after a failed one it behaves as before. */
  lemma ResetThenStart(w: Wifi, restoreErr: int)
    ensures var (err, w') := ResetProvisioning(w, restoreErr);
            && (err == EspErr.OK ==> HandleEvent(w', StaStart).1 == [StartListen])
            && (err != EspErr.OK ==> HandleEvent(w', StaStart) == HandleEvent(w, StaStart))
            && (w.provisioned && err != EspErr.OK ==> HandleEvent(w', StaStart).1 == [Connect])
  {
  }
}

=== FILE: wrappers.dfy ===
/** An optional value: C's nullable pointer or missing storage key. */
module Wrappers {
  datatype Option<T> = None | Some(value: T)
}
